=== FILE: README.md ===
# RPABot core, modelled in Dafny

RPABot drives Android phones through flows written as YAML: a flow lists steps, each step names an
action type (click a region, scroll, read a UI node, handle OCR popups, loop, set a variable …),
and a device manager hands out phones from a shared pool. This project models the parts of that
system that are decision logic rather than device I/O, and proves what they promise:

- the **device pool** (`DevicePool`): the `(status, heartbeat)` map of `DeviceManager`, with
  registration, the two-pass claim of `get_available_device`, release, the status labels, the
  error-task quarantine and one round of each background loop (health check, reconciliation with
  the flow files, quarantine sweep), as a class whose methods update the maps in place;
- the **flow skeleton**: config validation and step iteration of `BaseBot.run_flow` (`BaseBot`),
  the action registry (`ActionRegistry`), `LoopAction` with conditions, break conditions and its
  iteration bound (`FlowActions`), the variable actions (`DataActions`), the `retry_step` and
  `log_step` decorators (`Decorators`), and the bot's two stores (`BotStore`);
- the **helper rules**: version comparison and the install / Android-version checks
  (`AppHelper`), the text-match precedence (`TextMatcher`), UI-tree path computation and path
  lookup (`FindNodePath`, `NodeActions`, over the element tree of `UiTree`), bounds-string parsing
  and centre / scroll arithmetic (`Bounds`, `UiActions`), OCR-line filtering (`OcrHelper`) and
  popup sorting, target selection and tap arithmetic (`OcrActions`).

Shared vocabulary lives in `Wrappers` (Option, Result), `PyValue` (Python values: None, bool, int,
str, list, dict with string keys; truthiness, `dict.get`, `int()`, `len`, slicing) and `Text`
(strip, split, join, containment, decimal parsing and printing, with round-trip lemmas).

The outside world enters through parameters: the device probe `up: string -> bool` (fixed for one
call), the clock `now: int`, the regular-expression engine `rx(pattern, text)`, the parsed UI tree
(`UiTree.XNode`), the OCR engine's lines (`OcrHelper.Line`), the screenshot scaling `scale`, the
result of the `adb` tap `tapOk`, `ast.literal_eval` as `literal`, the bot's variable resolver
`resolve` and action executor `exec`, the device's answers to `app_info` / `info`, and the polls a
waiting action makes before its timeout.

## Model

| member | source | states |
|---|---|---|
| `TextMatcher.Match` | lib/text_matcher.py:11-26 | A non-empty `textMatches` alone decides, by the regex engine; otherwise a non-empty `textContains` decides by substring containment; otherwise a non-empty `text` decides by equality; with no criterion given the result is False. |
| `TextMatcher.MatchExamples` | lib/text_matcher.py:28-35 | With a regex engine for which the anchored pattern of t matches exactly t: the exact and containment criteria equal to a non-empty t match it, the anchored regex matches it, and each of the three fails once a character is appended to the criterion. |
| `Decorators.LogStep` | rpa/core/decorators.py:7-13 | The wrapper returns exactly what the wrapped function returns, for every argument. |
| `Decorators.RetryStep` | rpa/core/decorators.py:15-35 | `max_retries <= 0` calls nothing and returns None; otherwise 1 to `max_retries` calls, every call before the last raised, the outcome is the last call's (the first success returns at once), an exception escapes only after `max_retries` calls, and there is exactly one sleep between consecutive calls. |
| `BaseBot.FirstMissing` | rpa/core/base_bot.py:42-45 | The index of the first required field the config lacks, every earlier one being present; None when all are present. |
| `BaseBot.MissingField` | rpa/core/base_bot.py:33-45 | Validation reports `name`, then `version`, then `steps`: each is reported exactly when the fields before it are present and it is missing; nothing is reported iff all three are present. |
| `BaseBot.Wrapped` | rpa/core/base_bot.py:29-31 | The `RuntimeError` message ends with the original error's message. |
| `BaseBot.StepsOf` | rpa/core/base_bot.py:25-26 | Iterating a list of steps yields its items, in order. |
| `BaseBot.FirstNonDict` | rpa/core/base_bot.py:26-27 | The first step that is not a dict (on which `step.get` raises), every earlier step being a dict. |
| `BaseBot.Logs` | rpa/core/base_bot.py:47-59 | One log line per executed step. |
| `BaseBot.Run` | rpa/core/base_bot.py:10-31 | A config missing a required field raises the wrapped validation error and executes no step; steps that cannot be iterated raise the wrapped error and execute no step; otherwise the run ends normally exactly when every step is a dict, having executed every step once in list order, and the first step that is not a dict raises the wrapped `AttributeError` after the steps before it; in every run the executed steps are a prefix of the list, in order. |
| `BaseBot.RunFlow` | rpa/core/base_bot.py:10-31 | The step loop ends with the outcome and the log lines of `Run`. |
| `BotStore.Bot.constructor` | rpa/core/actions/base_action.py:45-64 | A bot starts with the given variables and step results. |
| `BotStore.Bot.SetVariable` | rpa/core/actions/base_action.py:57-64 | Only the named variable changes, to the given value; step results are untouched. |
| `BotStore.Bot.SaveStepResult` | rpa/core/actions/flow_actions.py:51-52 | Only the named step's result changes; variables are untouched. |
| `ActionRegistry.TypeOf` | rpa/core/actions/__init__.py:31-51 | Every action class is registered under a type name that the map sends back to that class. |
| `ActionRegistry.TypeOfLookup` | rpa/core/actions/__init__.py:31-51 | Every key of the map is the type name of the class it maps to: the map inverts `TypeOf`. |
| `ActionRegistry.TypeOfInjective` | rpa/core/actions/__init__.py:31-51 | No two classes share a type name. |
| `ActionRegistry.TypeCount` | rpa/core/actions/__init__.py:31-51 | Distinct classes have as many distinct type names. |
| `ActionRegistry.ClassesComplete` | rpa/core/actions/__init__.py:31-51 | Every registered class is among the listed classes. |
| `ActionRegistry.ActionMapKeys` | rpa/core/actions/__init__.py:31-51 | The keys of the map are exactly the type names of the classes. |
| `ActionRegistry.ActionMapSize` | rpa/core/actions/__init__.py:31-51 | The map has exactly 19 keys. |
| `ActionRegistry.GetActionClass` | rpa/core/actions/__init__.py:53-57 | A lookup succeeds iff the key is in the map, and then gives the class registered under that key; otherwise the `ValueError` naming the unknown type. A function of the constant map, so the map is never modified. |
| `ActionRegistry.GetTypeOf` | rpa/core/actions/__init__.py:53-57 | Looking up any class's type name gives back that class. |
| `ActionRegistry.GetActionClassExamples` | rpa/core/actions/__init__.py:53-57 | `set_variable`, `loop` and `append_to_list` give their classes; an unlisted key such as `click` raises. |
| `FlowActions.FirstStop` | rpa/core/actions/flow_actions.py:30-37 | When no condition stops the scan (and none raises), the scan does not stop. |
| `FlowActions.FirstStopFound` | rpa/core/actions/flow_actions.py:56-65 | A scan that stops, stops at a condition it reaches: every earlier condition passed without raising. |
| `FlowActions.FirstStopOf` | rpa/core/actions/flow_actions.py:56-65 | Conversely, a reached condition that stops the scan makes the scan stop. |
| `FlowActions.ShouldExecute` | rpa/core/actions/flow_actions.py:27-40 | A step without conditions runs. |
| `FlowActions.FirstStopNoStop` | rpa/core/actions/flow_actions.py:30-37 | A scan that ends without stopping found every condition passing. |
| `FlowActions.ScanStopsAtUnmet` | rpa/core/actions/flow_actions.py:30-37 | The condition scan stops exactly when it reaches a `variables` condition whose variable holds another value than the expected one, every earlier condition passing. |
| `FlowActions.ShouldExecuteSkip` | rpa/core/actions/flow_actions.py:27-40 | For a non-empty condition list the step is skipped exactly when the scan reaches such an unmet condition. |
| `FlowActions.ShouldExecuteRun` | rpa/core/actions/flow_actions.py:27-40 | For a non-empty condition list the step runs exactly when every condition passes. |
| `FlowActions.ShouldExecuteIgnoresOtherTypes` | rpa/core/actions/flow_actions.py:27-40 | Conditions whose type is not `variables` are ignored: a list of only those never skips the step. |
| `FlowActions.Resolved` | rpa/core/actions/flow_actions.py:45-48 | The resolved params have exactly the keys of the step's params. |
| `FlowActions.Step` | rpa/core/actions/flow_actions.py:22-52 | A nested step calls its action at most once; a step that calls nothing (a skipped one in particular) changes no store; a skipped step succeeds with nothing done; a call happens only when the conditions pass and the params are a dict, on the resolved params; it succeeds exactly when the action returns, and then the stores are those the action left with its result saved under the step's name; when the action raises the stores are those it left; conversely a dict step whose conditions pass and whose params are a dict is called once, on its own record; a step that is not a dict, whose conditions raise, or whose params are not a dict raises with nothing called and the store unchanged. |
| `FlowActions.Steps` | rpa/core/actions/flow_actions.py:21-52 | A pass extends the work already done, by at most one call per step. |
| `FlowActions.StepsAppend` | rpa/core/actions/flow_actions.py:21-52 | A pass over two lists of steps is the pass over the first, followed by the pass over the second only when the first did not raise. |
| `FlowActions.StepsSnoc` | rpa/core/actions/flow_actions.py:21-52 | A pass over one more step continues from the earlier steps' pass when that succeeded, appending that step's calls, and is the earlier pass otherwise. |
| `FlowActions.StopsAtFirstRaise` | rpa/core/actions/flow_actions.py:20-52 | When the step at position i raises after the earlier steps succeeded, the pass fails there with the stores that step left, and no later step is called. |
| `FlowActions.CallsInOrder` | rpa/core/actions/flow_actions.py:21-52 | A pass's calls follow the work already done and are the records of steps at strictly increasing positions, that is, of executed steps in list order. |
| `FlowActions.Iterations` | rpa/core/actions/flow_actions.py:15-73 | At the bound the loop ends successfully with the stores and work unchanged; below it, it runs at least one more iteration and at most up to the bound, keeping the earlier work as a prefix. |
| `FlowActions.Continued` | rpa/core/actions/flow_actions.py:15-73 | The state after k iterations that neither raised nor broke keeps the earlier work as a prefix, and after at least one of them the break conditions read False. |
| `FlowActions.IterationsFrom` | rpa/core/actions/flow_actions.py:15-73 | The loop from the start ends as the loop resumed after any k continuing iterations. |
| `FlowActions.IterationOutcome` | rpa/core/actions/flow_actions.py:15-73 | For iteration k+1 below the bound: a pass that raises ends the loop with False after k+1 iterations; break conditions are read only after a full pass, and a match ends it with True after k+1; a break condition that raises ends it with False; the last allowed iteration without a match ends it with True at the bound. |
| `FlowActions.Loop` | rpa/core/actions/flow_actions.py:8-75 | A `max_iterations` that `int()` rejects raises before any step; otherwise the returned boolean is the loop's normal end. |
| `FlowActions.LoopBound` | rpa/core/actions/flow_actions.py:9-18 | At most `max_iterations` iterations run (default 100); a bound of 0 or less runs none, changes nothing and returns True. |
| `FlowActions.FirstIteration` | rpa/core/actions/flow_actions.py:54-73 | Break conditions are read only after a full pass: a failing first pass returns False after one iteration, a first pass whose break conditions stop the loop returns True after one iteration, and the first pass's work starts the loop's. |
| `FlowActions.UnconditionalStep` | rpa/core/actions/flow_actions.py:22-52 | A step without conditions whose action returns is executed exactly once and succeeds. |
| `FlowActions.PassInOrder` | rpa/core/actions/flow_actions.py:22-52 | When every step runs and no action raises, one pass calls every step's action once, in list order. |
| `FlowActions.PassSavesLast` | rpa/core/actions/flow_actions.py:44-52 | When the earlier steps succeed and the last step calls its action and succeeds, that action returned, and the pass ends with the stores it left plus its result saved under the last step's name. |
| `FlowActions.ScanConditions` | rpa/core/actions/flow_actions.py:30-37 | The condition loop computes `FirstStop`, reading the stores only. |
| `FlowActions.RunStep` | rpa/core/actions/flow_actions.py:22-52 | One nested step on the bot leaves the stores and the call log of `Step`. |
| `FlowActions.RunPass` | rpa/core/actions/flow_actions.py:21-52 | One pass on the bot leaves the stores and the call log of `Steps`, stopping at the first exception. |
| `FlowActions.Execute` | rpa/core/actions/flow_actions.py:8-75 | `LoopAction.execute` on the bot ends with the outcome, stores, calls and iteration count of `Loop`. |
| `DataActions.IsReference` | rpa/core/actions/data_actions.py:47-52 | A `${name}` reference has at least three characters, so `data[2:-1]` is the name between the marks. |
| `DataActions.ResolveEntry` | rpa/core/actions/data_actions.py:54-64 | A dict value that is not a string mentioning `${` is kept unchanged. |
| `DataActions.ResolveData` | rpa/core/actions/data_actions.py:40-70 | A `${name}` string becomes the variable's value and any other string stays; a dict keeps its keys and only its values mentioning `${` are looked up, one level deep; a list is resolved item by item with its length kept; other values are returned unchanged. |
| `DataActions.ResolveWithoutReferences` | rpa/core/actions/data_actions.py:40-70 | A value without references resolves to itself, whatever the variables, so resolving it again changes nothing. |
| `DataActions.Trimmed` | rpa/core/actions/data_actions.py:28-29 | A falsy `max_length` keeps the list; any trim keeps a suffix; a bound of 1 or more keeps the last `min(len, bound)` items; a negative bound drops the first `-bound` items, as Python's slice does. |
| `DataActions.Appended` | rpa/core/actions/data_actions.py:10-38 | An append succeeds only with both the `list` and `data` keys. |
| `DataActions.AppendedShape` | rpa/core/actions/data_actions.py:17-33 | Without a bound the list grows by exactly the resolved data (a non-list current value counting as []); with a bound of 1 or more the result is a suffix of at most that many items that still ends with the resolved data. |
| `DataActions.AppendToList` | rpa/core/actions/data_actions.py:10-38 | On success the variable holds the appended list. A `max_length` that cannot be compared returns False after the in-place append, so a variable that held a list holds it with the item appended; any other failure (a missing key, a variable without a list) writes nothing. |
| `DataActions.SetVariable` | rpa/core/actions/data_actions.py:153-170 | Returns True iff `name` and `value` are given, and then sets exactly that variable to the (resolved) value; otherwise writes nothing. |
| `DataActions.ResolvedValue` | rpa/core/actions/data_actions.py:158-160 | Only a string mentioning `${` goes through the resolver; every other value is stored as given. |
| `DataActions.GetVariable` | rpa/core/actions/data_actions.py:175-188 | The stored value, else the given default, else None (also for a missing `name`); nothing is written. |
| `DevicePool.StatusCode` | rpa/utils/device_manager.py:18-22 | The four statuses are the constants 0 to 3, one each. |
| `DevicePool.ParseIds` | rpa/utils/device_manager.py:127 | Every parsed id is stripped and non-empty. |
| `DevicePool.KeepIds` | rpa/utils/device_manager.py:127 | Filtering the pieces keeps only stripped non-empty ids and adds none. |
| `DevicePool.StripIdempotent` | rpa/utils/device_manager.py:127 | Stripping an id twice is stripping it once. |
| `DevicePool.FirstPassClaims` | rpa/utils/device_manager.py:146-159 | The first pass returns only a candidate that was `Available` and answers the probe, and it is `Busy` afterwards. |
| `DevicePool.FirstPassUntouched` | rpa/utils/device_manager.py:146-159 | An entry that is not `Available` is neither changed nor returned by the first pass. |
| `DevicePool.FirstPassPicksFirst` | rpa/utils/device_manager.py:146-159 | The first candidate in list order that is `Available` and answers the probe is returned; every earlier `Available` candidate is now `Unavailable`. |
| `DevicePool.ClaimPicksFirst` | rpa/utils/device_manager.py:143-176 | The same for `get_available_device` as a whole. |
| `DevicePool.SecondPassClaims` | rpa/utils/device_manager.py:161-176 | The second pass returns only a candidate that answers the probe and was neither `Busy` nor `Allocating`, now `Busy`; unknown candidates are added; when it returns nothing every candidate is known and none is `Available`; `Busy` and `Allocating` entries are untouched. |
| `DevicePool.FirstPassNoneTryable` | rpa/utils/device_manager.py:146-159 | A first pass that returns nothing adds no id and changes no candidate between tryable (unknown, or neither `Busy` nor `Allocating`) and not. |
| `DevicePool.SecondPassNone` | rpa/utils/device_manager.py:161-175 | A second pass that returns nothing met no candidate that was tryable and answered the probe. |
| `DevicePool.SecondPassPicksFirst` | rpa/utils/device_manager.py:161-175 | The first candidate in list order that is tryable and answers the probe is returned, now `Busy`; every earlier tryable candidate ends `Unavailable`; no entry of a later or other id changes. |
| `DevicePool.TriedEndsUnavailable` | rpa/utils/device_manager.py:161-175 | A candidate marked `Unavailable` earlier in the second pass is still `Unavailable` at its end. |
| `DevicePool.ClaimFallsBack` | rpa/utils/device_manager.py:143-176 | When no candidate is `Available` and answering the probe, `get_available_device` returns the first candidate that is tryable and answers the probe, now `Busy`. |
| `DevicePool.ClaimSpec` | rpa/utils/device_manager.py:134-176 | A returned id is a candidate that answered the probe, was not `Busy`/`Allocating` on entry and is `Busy` afterwards; when nothing is returned every candidate is in the pool and none is `Available`, and every candidate failed the probe or was `Busy`/`Allocating` on entry; entries of other ids never change; no entry is left newly `Allocating`. |
| `DevicePool.ClaimKeepsSettled` | rpa/utils/device_manager.py:149-175 | A pool without `Allocating` entries has none after a claim. |
| `DevicePool.ClaimExclusive` | rpa/utils/device_manager.py:134-176 | Once a device is claimed, a second claim for it returns nothing until it is released. |
| `DevicePool.ClaimReleaseClaim` | rpa/utils/device_manager.py:134-183 | Claim, release, claim: a reachable device that was not busy is returned both times. |
| `DevicePool.HealthChecked` | rpa/utils/device_manager.py:82-91 | A health-check round keeps the pool's ids. |
| `DevicePool.HealthCheckedSpec` | rpa/utils/device_manager.py:82-91 | `Busy` and `Allocating` entries are untouched; every other entry becomes `Available` or `Unavailable` by the probe, with the heartbeat set to now. |
| `DevicePool.DeclaredIds` | rpa/utils/device_manager.py:101-111 | Every id the flow files declare is stripped and non-empty. |
| `DevicePool.Swept` | rpa/utils/device_manager.py:208-212 | Exactly the quarantine entries at most 600 seconds old survive a sweep, with their times. |
| `DevicePool.StatusLabel` | rpa/utils/device_manager.py:190 | `Unavailable` shows as "unavailable", `Available` as "available", `Busy` and `Allocating` as "busy". |
| `DevicePool.AllDevices` | rpa/utils/device_manager.py:185-195 | One view per pool entry, with the probe's answer, the seconds since the last heartbeat and the label "available" exactly for `Available` entries. |
| `DevicePool.DeviceManager.constructor` | rpa/utils/device_manager.py:36-45 | A new manager has an empty pool and an empty quarantine map. |
| `DevicePool.DeviceManager.RegisterDevices` | rpa/utils/device_manager.py:125-132 | Afterwards the pool holds exactly the old ids and the parsed ones; existing entries keep their status and heartbeat; new ones are `Unavailable` at now. |
| `DevicePool.DeviceManager.AddMissing` | rpa/utils/device_manager.py:129-131 | The insertion loop adds the missing ids as `Unavailable` and changes no existing entry. |
| `DevicePool.DeviceManager.GetAvailableDevice` | rpa/utils/device_manager.py:134-176 | The returned id and the new pool are those of `Claim`; every device the call marked `Allocating` ends `Busy` or `Unavailable`; the quarantine map is untouched. |
| `DevicePool.DeviceManager.TryAvailable` | rpa/utils/device_manager.py:146-159 | The first-pass loop gives the result and pool of `FirstPass`, leaving nothing it marked `Allocating`. |
| `DevicePool.DeviceManager.TryAny` | rpa/utils/device_manager.py:161-176 | The second-pass loop gives the result and pool of `SecondPass`; entries it did not mark are unchanged. |
| `DevicePool.DeviceManager.ReleaseDevice` | rpa/utils/device_manager.py:178-183 | A known id that answers the probe becomes `Available` at now; an unknown id or a failed probe leaves the pool unchanged. |
| `DevicePool.DeviceManager.AddErrorTaskDevice` | rpa/utils/device_manager.py:197-200 | The id is quarantined from now; the pool is untouched. |
| `DevicePool.DeviceManager.HealthRound` | rpa/utils/device_manager.py:81-91 | One health-check round leaves the pool of `HealthChecked`. |
| `DevicePool.DeviceManager.ReconcileRound` | rpa/utils/device_manager.py:97-123 | Afterwards the pool's ids are exactly the declared ids; surviving entries keep their status and heartbeat; added ones are `Unavailable`. |
| `DevicePool.DeviceManager.RemoveUndeclared` | rpa/utils/device_manager.py:113-117 | Ids no file declares leave the pool; the rest are unchanged. |
| `DevicePool.Expired` | rpa/utils/device_manager.py:208-210 | Exactly the quarantined ids whose last error is more than 600 seconds old. |
| `DevicePool.ReleasedAll` | rpa/utils/device_manager.py:178-183 | Releasing a set of ids keeps the pool's ids. |
| `DevicePool.ReleasedAllStep` | rpa/utils/device_manager.py:178-183 | Releasing one more id after a set of them is releasing the larger set. |
| `DevicePool.SweepHaltsEarly` | rpa/utils/device_manager.py:208-213 | With two or more expired entries, whichever one the as-written round deletes, another expired entry stays that a full sweep drops. |
| `DevicePool.DeviceManager.SweepRoundAsWritten` | rpa/utils/device_manager.py:202-214 | The round halts exactly when some entry is expired, having deleted one expired entry and released no device; otherwise nothing changes. |
| `DevicePool.DeviceManager.SweepRound` | rpa/utils/device_manager.py:206-214 | The corrected round: the quarantine map becomes `Swept` and every expired device is released. |
| `AppHelper.SplitOn` | rpa/utils/app_helper.py:89-90 | Splitting on `.` and `-` gives at least one piece and no piece holds a separator. |
| `AppHelper.ParseParts` | rpa/utils/app_helper.py:89-90 | Success gives one integer per piece, each what `int()` reads from it; failure names a piece `int()` rejects. |
| `AppHelper.ParsePartsFails` | rpa/utils/app_helper.py:89-90 | A single non-integer piece makes the whole parse fail. |
| `AppHelper.ParsePartsSucceeds` | rpa/utils/app_helper.py:89-90 | When every piece is an integer the parse succeeds. |
| `AppHelper.CompareFrom` | rpa/utils/app_helper.py:92-101 | The comparison is always -1, 0 or 1. |
| `AppHelper.CompareLoop` | rpa/utils/app_helper.py:92-101 | The index loop with its early returns computes the comparison of the padded components. |
| `AppHelper.CompareVersions` | rpa/utils/app_helper.py:87-101 | `_compare_versions` gives the order of the two versions, always -1, 0 or 1, or the error of a non-integer component. |
| `AppHelper.CompareZero` | rpa/utils/app_helper.py:92-101 | Two versions compare 0 exactly when they agree on every component, missing ones reading 0. |
| `AppHelper.CompareReflexive` | rpa/utils/app_helper.py:92-101 | compare(v, v) = 0. |
| `AppHelper.CompareAntisymmetric` | rpa/utils/app_helper.py:92-101 | compare(a, b) = -compare(b, a). |
| `AppHelper.ComparePadded` | rpa/utils/app_helper.py:93-94 | A trailing zero component changes no comparison. |
| `AppHelper.CompareDecides` | rpa/utils/app_helper.py:92-99 | When the versions agree before component k and a is smaller there (missing components reading 0), a compares as -1. |
| `AppHelper.VersionPadding` | rpa/utils/app_helper.py:87-101 | Appending ".0" to a version changes no comparison with it. |
| `AppHelper.CheckAndInstallApp` | rpa/utils/app_helper.py:11-50 | Not installed: error without an apk, otherwise install and True. Installed without a minimum: True, no install. Installed below the minimum: error without an apk, otherwise install and True. Not below: True, no install. A version that cannot be read or compared raises, with no install. An install happens only with an apk and only with the result True. |
| `AppHelper.CheckAndroidVersion` | rpa/utils/app_helper.py:52-61 | When the device reports a version that compares with the minimum, the check raises exactly when it is below, with the too-old error naming both versions; a missing version or one that cannot be compared raises; success is always True. |
| `Bounds.BoundsParts` | rpa/core/actions/node_actions.py:69 | Stripping the brackets and splitting on `][` gives at least one piece. |
| `Bounds.IntPair` | rpa/core/actions/node_actions.py:70-71 | A piece gives a pair exactly when it has two comma-separated pieces that `int()` accepts, and the pair is their values. |
| `Bounds.ParseNodeBounds` | rpa/core/actions/node_actions.py:64-79 | A node bounds string parses only when it splits into at least two pieces. |
| `Bounds.ParseRegionBounds` | rpa/core/actions/ui_actions.py:40-44 | The region parse needs exactly two pieces. |
| `Bounds.RegionParseStricter` | rpa/core/actions/ui_actions.py:40-44 | Whatever the region parse accepts the node parse accepts with the same rectangle, and the two agree on every string of exactly two pieces. |
| `Bounds.IntPairOfFormat` | rpa/core/actions/node_actions.py:70-71 | A printed pair "a,b" parses back to (a, b). |
| `Bounds.PartsOfBracketed` | rpa/core/actions/node_actions.py:69 | "[a][c]" splits into a and c when neither holds a bracket. |
| `Bounds.ParseFormat` | rpa/core/actions/node_actions.py:64-79 | Every rectangle's bounds string parses back to that rectangle, under both parsers. |
| `Bounds.Centre` | rpa/core/actions/ui_actions.py:146-147 | The floor midpoint of both axes, inside the rectangle when its edges are ordered. |
| `UiActions.IntsOf` | rpa/core/actions/ui_actions.py:28 | `map(int, xs)` succeeds iff every item converts, and then gives each item's integer. |
| `UiActions.RectOfValues` | rpa/core/actions/ui_actions.py:28 | Four values give a rectangle iff all four convert, edge by edge. |
| `UiActions.ClickRegion` | rpa/core/actions/ui_actions.py:138-156 | A missing region or one whose length is not 4 raises before any click; four integers are clicked at ((x1+x2)//2, (y1+y2)//2); a value `int()` rejects returns False; conversely four values `int()` accepts are always clicked, and a four-element region that is not clicked is declined, never raised. |
| `UiActions.ClickRegionInside` | rpa/core/actions/ui_actions.py:145-150 | Four ordered integers are clicked inside the rectangle they span. |
| `UiActions.ScrollSwipe` | rpa/core/actions/ui_actions.py:84-105 | A swipe exists exactly for 'up' and 'down', and both its ends lie at x = W//2; its lower end is the lesser of H//2 + d//2 and H-100 and its upper end the greater of H//2 - d//2 and 100, 'up' going from the lower end to the upper one and 'down' the other way. |
| `UiActions.ScrollMirror` | rpa/core/actions/ui_actions.py:84-102 | A 'down' swipe is the 'up' swipe reversed. |
| `UiActions.ScrollWithinScreen` | rpa/core/actions/ui_actions.py:88-99 | For H >= 200 and d >= 0 both ends lie in [100, H-100], and 'up' moves the finger up. |
| `UiActions.Scroll` | rpa/core/actions/ui_actions.py:71-113 | A missing direction or distance, or a distance `int()` rejects, raises; otherwise the swipe of `ScrollSwipe`, an unsupported direction returning False without a swipe. |
| `UiActions.RegionRect` | rpa/core/actions/ui_actions.py:25-48 | A list needs exactly four values that `int()` accepts; a string must be bracketed; a bracketed string the literal evaluation turns into a rectangle gives that rectangle, and otherwise it is read as a two-piece bounds string; any other value gives no rectangle. |
| `UiActions.LiteralRect` | rpa/core/actions/ui_actions.py:34-37 | A literal gives a rectangle only when it has four items, and four iterable items give the rectangle of their `int()` values. |
| `UiActions.WaitAndClickRegion` | rpa/core/actions/ui_actions.py:13-67 | A missing region raises; a region that denotes no rectangle returns False; a rectangle is clicked at its centre exactly when the timeout has not passed, and otherwise False is returned. |
| `UiActions.ResolvedRegion` | rpa/core/actions/ui_actions.py:20-22 | A region that is not a `${name}` string is used as given. |
| `UiActions.ResolvedReference` | rpa/core/actions/ui_actions.py:20-22 | "${name}" reads the variable `name` when the name neither starts nor ends with a `$`, `{` or `}`. |
| `UiActions.FormatShape` | rpa/core/actions/ui_actions.py:20-31 | A bounds string is bracketed and is not a `${name}` reference. |
| `UiActions.WaitAndClickLiteral` | rpa/core/actions/ui_actions.py:31-35 | A bracketed string the literal evaluation turns into four integers is clicked at the centre of that rectangle. |
| `UiActions.WaitAndClickBoundsString` | rpa/core/actions/ui_actions.py:38-44 | A bounds string that the literal evaluation rejects is clicked at the centre of the rectangle it writes. |
| `UiTree.WithAttr` | rpa/core/actions/node_actions.py:57 | The selected nodes carry the attribute and come from the input, in order. |
| `UiTree.WithAttrValue` | rpa/core/actions/node_actions.py:224 | The selected nodes carry the attribute with the given value and come from the input. |
| `UiTree.Chain` | tools/find_node_path.py:17-25 | The nodes on the way down, one per step, ending at the node reached. |
| `NodeActions.InBounds` | rpa/core/actions/node_actions.py:40-48 | Holds iff left >= L, top >= T, right <= R and bottom <= B, missing node keys reading 0; a target that is not a list of at least four numbers gives False. |
| `NodeActions.Classify` | rpa/core/actions/node_actions.py:60-98 | A kept node has parseable bounds inside the target, a non-empty content-desc the pattern accepts and its drawing order (default 0); a node that raises has a content-desc and a non-string pattern or a drawing order `int()` rejects. |
| `NodeActions.KeptStep` | rpa/core/actions/node_actions.py:60-98 | The collection after one more node extends, keeps or ends the collection by that node's verdict. |
| `NodeActions.KeptFailsForever` | rpa/core/actions/node_actions.py:107-109 | Once a node has raised, the whole collection has failed. |
| `NodeActions.KeptSound` | rpa/core/actions/node_actions.py:60-98 | Every kept pair comes from a node that the loop keeps, with that node's order and content. |
| `NodeActions.MinOrder` | rpa/core/actions/node_actions.py:102 | The smallest kept drawing order: it is kept and no kept order is smaller. |
| `NodeActions.ContentsAt` | rpa/core/actions/node_actions.py:96-98 | A group holds at most as many contents as were kept. |
| `NodeActions.ContentsAtSound` | rpa/core/actions/node_actions.py:96-98 | Each content of a group was kept with that group's order. |
| `NodeActions.ContentsAtComplete` | rpa/core/actions/node_actions.py:96-98 | Every content kept with an order is in that order's group. |
| `NodeActions.CollectedMinimal` | rpa/core/actions/node_actions.py:100-105 | When something is kept, the result is non-empty and holds exactly the contents kept with the smallest drawing order, and no kept order is smaller. |
| `NodeActions.GroupedAppend` | rpa/core/actions/node_actions.py:96-98 | Appending a kept content to its group keeps the groups equal to the kept contents per order. |
| `NodeActions.AddToGroup` | rpa/core/actions/node_actions.py:96-98 | `setdefault(order, []).append(content)` keeps the grouping invariant, recording a new order on first use only. |
| `NodeActions.CollectNode` | rpa/core/actions/node_actions.py:60-98 | One loop iteration raises exactly when the node's verdict fails, and otherwise extends the kept pairs and keeps the grouping invariant. |
| `NodeActions.GroupByOrder` | rpa/core/actions/node_actions.py:53-98 | The loop fails exactly when some node raises; otherwise its groups hold exactly the kept contents of each order. |
| `NodeActions.CollectNodesInBounds` | rpa/core/actions/node_actions.py:50-109 | `_collect_nodes_in_bounds` returns the contents of the smallest drawing order, in traversal order, or [] when nothing is kept or a node raises. |
| `NodeActions.AppendKept` | rpa/core/actions/node_actions.py:98 | Appending a kept pair extends its own group and no other. |
| `NodeActions.MinOf` | rpa/core/actions/node_actions.py:102 | `min(keys)` is one of the keys and at most every key. |
| `NodeActions.Strs` | rpa/core/actions/node_actions.py:30-32 | The stored list holds each collected content as a string, in order. |
| `NodeActions.GetNodeDescendantsContent` | rpa/core/actions/node_actions.py:10-38 | A missing bounds or one whose length is not 4 returns [] and writes nothing; otherwise the collected contents are returned and, with `save_to`, stored exactly. |
| `NodeActions.BuildSelector` | rpa/core/actions/node_actions.py:181-196 | Only `text` and `description` build a selector, each exact or containing by `match_type`, for the given text; any other locator raises. |
| `NodeActions.NodeCentre` | rpa/core/actions/node_actions.py:162-164 | The click point is the floor midpoint of the element's bounds, missing edges reading 0, inside them when ordered. |
| `NodeActions.FirstHit` | rpa/core/actions/node_actions.py:154-175 | The first poll that finds the element, every earlier poll finding none. |
| `NodeActions.WaitAndClickNode` | rpa/core/actions/node_actions.py:114-180 | True exactly when the (resolved) text is non-empty, the selector builds and some poll finds the element, which is then clicked at its centre; an empty text never clicks; a truthy `save_to` receives the returned boolean. |
| `NodeActions.FirstIndexed` | rpa/core/actions/node_actions.py:245-249 | The first child whose `index` attribute is the target's text, every earlier child having another. |
| `NodeActions.FindIndexedChild` | rpa/core/actions/node_actions.py:244-249 | The child scan finds `FirstIndexed`. |
| `NodeActions.WalkPath` | rpa/core/actions/node_actions.py:238-251 | The walk as written: an empty path changes nothing, and `found` ends as it was, False or True. |
| `NodeActions.WalkIndexPath` | rpa/core/actions/node_actions.py:238-251 | The nested loops compute `WalkPath`. |
| `NodeActions.ResolveReachesPathEnd` | rpa/core/actions/node_actions.py:238-251 | A resolved path goes, step by step, to a child with the asked-for index and ends at the resolved node. |
| `NodeActions.WalkAgreesWithResolve` | rpa/core/actions/node_actions.py:238-254 | Where the fixed walk resolves a non-empty path, the walk as written reaches the same node with `found` True. |
| `NodeActions.WalkStopsAtLeaf` | rpa/core/actions/node_actions.py:238-254 | The walk as written reports a node for a path that runs past a leaf, which the fixed walk resolves to nothing. |
| `NodeActions.SingleValue` | rpa/core/actions/node_actions.py:256-262 | A value is the node's attribute as a string and, under a truthy pattern, one the pattern accepts; an attribute the node has is dropped only by a truthy pattern. |
| `NodeActions.PathValue` | rpa/core/actions/node_actions.py:254-284 | One attribute yields a string, several yield a dict of every attribute (default ""); a pattern with several attributes never yields a value. |
| `NodeActions.PathValueFixed` | rpa/core/actions/node_actions.py:270-284 | With `re` bound in both branches, several attributes yield their dict when there is no pattern or the pattern accepts the first attribute. |
| `NodeActions.PathValueFixedAgrees` | rpa/core/actions/node_actions.py:254-284 | The fix changes nothing except a pattern with several attributes. |
| `NodeActions.AttrDict` | rpa/core/actions/node_actions.py:272-274 | The dictionary exists iff every name is a string, has exactly the requested names as keys and each node attribute (default "") as value. |
| `NodeActions.ReadAttributes` | rpa/core/actions/node_actions.py:272-274 | The attribute loop builds `AttrDict`. |
| `NodeActions.PathList` | rpa/core/actions/node_actions.py:212-214 | A list whose first item is a list is the list of paths; any other first item makes it one path; the list is never empty. |
| `NodeActions.ByPath` | rpa/core/actions/node_actions.py:201-294 | A missing package or index path raises from the error handler; a found value needs a package node; without a package node the result is {}; when no path yields a value the fallback is {} for several attributes and "" otherwise. |
| `NodeActions.FromPathsStep` | rpa/core/actions/node_actions.py:230-290 | One turn of the loop over the paths: the value the first path yields, or else the remaining paths with the `found` flag it leaves. |
| `NodeActions.YieldTail` | rpa/core/actions/node_actions.py:230-290 | Dropping the first path shifts the flags and yields of the later paths by one. |
| `NodeActions.FromPathsFirstYield` | rpa/core/actions/node_actions.py:230-290 | The loop yields the value of the first path that yields one, each path walked with the `found` flag the earlier paths leave. |
| `NodeActions.FirstYieldTail` | rpa/core/actions/node_actions.py:230-290 | A first yield at a later path is a first yield of the remaining paths, one position earlier, with the same value. |
| `NodeActions.FromPathsNoYield` | rpa/core/actions/node_actions.py:230-290 | The loop yields nothing exactly when no path yields a value. |
| `NodeActions.ByPathFirstYield` | rpa/core/actions/node_actions.py:201-290 | Past the checks, with a package node, the action returns the value of the first path that yields one. |
| `NodeActions.ByPathNoYield` | rpa/core/actions/node_actions.py:201-294 | Past the checks, with a package node, the action finds nothing exactly when no path yields a value; it then returns {} for several attributes, "" otherwise, and raises when `attributes` has no length. |
| `NodeActions.ReadPathValue` | rpa/core/actions/node_actions.py:254-284 | A found node yields `PathValue`. |
| `NodeActions.GetNodeByPath` | rpa/core/actions/node_actions.py:201-294 | The action's outcome is `ByPath`; a found value is stored under `save_to` when given; nothing else changes. |
| `NodeActions.ByPathFindsResolved` | rpa/core/actions/node_actions.py:231-268 | When the first index path names a node that exists and yields a value, the action returns that value. |
| `NodeActions.FirstPathFinds` | rpa/core/actions/node_actions.py:231-268 | A first path that resolves to a node with a value is the one the paths yield. |
| `NodeActions.SeveralAttributesSkipEveryPath` | rpa/core/actions/node_actions.py:276-287 | As written, several attributes under a pattern skip every path. |
| `NodeActions.SeveralAttributesNeverFound` | rpa/core/actions/node_actions.py:260-290 | As written, a pattern with two or more attributes never finds a node. |
| `FindNodePath.Indices` | tools/find_node_path.py:23 | The indices of a run of nodes exist iff every index is an integer (missing ones reading 0), one per node. |
| `FindNodePath.NodePath` | tools/find_node_path.py:11-31 | The indices of the nodes from below the root down to the node, top-down, with the outermost dropped; [] for the root itself; none for a non-integer index. |
| `FindNodePath.GetNodePath` | tools/find_node_path.py:11-31 | The climbing loop with its front insertion computes `NodePath`. |
| `FindNodePath.Check` | tools/find_node_path.py:48-59 | At most one entry, present iff the attribute contains the text, naming the node, the attribute and its value, and exact iff the value equals the text. |
| `FindNodePath.NodeMatches` | tools/find_node_path.py:48-59 | A node contributes at most one entry for `text` and at most one for `content-desc`. |
| `FindNodePath.Tagged` | tools/find_node_path.py:46 | Only nodes tagged `node`, from the input. |
| `FindNodePath.OfKind` | tools/find_node_path.py:62-63 | The filtered entries all have the asked-for kind. |
| `FindNodePath.Ranked` | tools/find_node_path.py:62-65 | All exact matches precede all contains matches. |
| `FindNodePath.CollectMatches` | tools/find_node_path.py:43-59 | The matching loop appends each node's entries in document order. |
| `FindNodePath.FindNodesByText` | tools/find_node_path.py:33-65 | The result is the entries of all `node` elements, exact ones first. |
| `FindNodePath.MatchesSound` | tools/find_node_path.py:48-59 | Every entry names a node, one of the two attributes and its value; an exact value equals the text; a contains value holds the text and differs from it. |
| `FindNodePath.OfKindAppend` | tools/find_node_path.py:62-63 | Filtering by kind distributes over concatenation. |
| `FindNodePath.OfKindTwice` | tools/find_node_path.py:62-63 | Filtering twice keeps the filtered run for its own kind and empties it for the other. |
| `FindNodePath.RankedKeepsOrder` | tools/find_node_path.py:62-65 | The ranking keeps the relative order within each kind. |
| `FindNodePath.RankedPermutes` | tools/find_node_path.py:62-65 | The ranking loses and adds no entry. |
| `FindNodePath.Escape` | tools/find_node_path.py:71-73 | Escaping at most doubles the text. |
| `FindNodePath.UnescapeEscape` | tools/find_node_path.py:71-73 | The escaped text reads back as the original. |
| `FindNodePath.IntValues` | tools/find_node_path.py:77 | The index path as a list of ints, one per index. |
| `FindNodePath.PatternFor` | tools/find_node_path.py:69-73 | "^" + escape(v) + "$" for exact, ".*" + escape(v) + ".*" for contains, None otherwise. |
| `FindNodePath.FormatNodeInfo` | tools/find_node_path.py:67-82 | Exactly the six keys; `attributes` is [attribute]; `index_path` and `package` are passed through; the pattern is `PatternFor`. |
| `FindNodePath.ResolveIndices` | tools/find_node_path.py:17-25 | On a walkable path, the collected indices lead the fixed walk back to the node. |
| `FindNodePath.NodePathResolves` | tools/find_node_path.py:11-31 | The path computed for a node below a walkable top node leads the fixed walk from that top node back to the node. |
| `FindNodePath.FormattedInfoFindsNode` | tools/find_node_path.py:67-82 | The parameters the tool prints make the get-node-by-path action return the matched value, when the node's package starts the tree and the regex engine accepts the pattern. |
| `FindNodePath.FormattedValue` | tools/find_node_path.py:67-82 | The one attribute the tool asks for is read from the node and passes the accepted pattern. |
| `OcrHelper.KeywordHit` | rpa/utils/ocr_helper.py:64-66 | Some keyword is contained in the text, or none is, or a non-string keyword raises before any hit; with string keywords there is always an answer. |
| `OcrHelper.Keep` | rpa/utils/ocr_helper.py:56-66 | A line is kept exactly when its first corner lies in the region (if a region is given) and it holds a keyword (if keywords are given). |
| `OcrHelper.Select` | rpa/utils/ocr_helper.py:51-72 | The kept lines are exactly the input lines that pass the filters, unchanged. |
| `OcrHelper.PicksSnoc` | rpa/utils/ocr_helper.py:51-72 | Appending a line, kept or not, extends the picked positions by its position when it is kept. |
| `OcrHelper.Kept` | rpa/utils/ocr_helper.py:51-72 | Strictly increasing positions of the lines, holding exactly the positions whose line the filters keep. |
| `OcrHelper.SelectInOrder` | rpa/utils/ocr_helper.py:51-72 | The kept lines are the lines at the positions `Kept` gives, in that order, so order and repeats are kept. |
| `OcrHelper.Extracted` | rpa/utils/ocr_helper.py:42-78 | No OCR lines give []. |
| `OcrHelper.ExtractText` | rpa/utils/ocr_helper.py:50-74 | The filtering loop returns `Extracted`: the survivors, or [] when a line raises. |
| `OcrHelper.SelectSubsequence` | rpa/utils/ocr_helper.py:51-72 | The kept lines are an order-preserving subsequence of the input. |
| `OcrHelper.NoFilterKeepsAll` | rpa/utils/ocr_helper.py:51-74 | Without a region and without keywords every line is kept. |
| `OcrHelper.ExtractedSound` | rpa/utils/ocr_helper.py:51-72 | The output is an order-preserving subsequence of the lines, each inside the region and each holding a keyword when those are given; when the filter raises it is empty, and otherwise every line inside the region and holding a keyword is in it. |
| `OcrActions.Configs` | rpa/core/actions/ocr_actions.py:176-179 | One configuration per popup, in order. |
| `OcrActions.Insert` | rpa/core/actions/ocr_actions.py:179 | Inserting adds exactly the one popup. |
| `OcrActions.SortByPriority` | rpa/core/actions/ocr_actions.py:179 | The sort loses and adds no popup. |
| `OcrActions.InsertSorted` | rpa/core/actions/ocr_actions.py:179 | Inserting into a sorted run keeps it sorted. |
| `OcrActions.InsertStable` | rpa/core/actions/ocr_actions.py:179 | An inserted popup goes after those of its priority. |
| `OcrActions.SortSorted` | rpa/core/actions/ocr_actions.py:179 | The popups end in ascending priority, a missing priority reading 999. |
| `OcrActions.SortStable` | rpa/core/actions/ocr_actions.py:179 | Popups of one priority keep their configured order. |
| `OcrActions.Trunc` | rpa/core/actions/ocr_actions.py:98 | `int()` on a float truncates toward zero. |
| `OcrActions.HalfFloor` | rpa/core/actions/ocr_actions.py:77-78 | `(a + b) // 2` on floats is the floored half, still a whole float. |
| `OcrActions.ClickPoint` | rpa/core/actions/ocr_actions.py:76-98 | A tap exists iff the box has at least three corners and the region is empty or has at least two entries; without a region it is the floored midpoint of corners 0 and 2, scaled and truncated toward zero. |
| `OcrActions.ClickShift` | rpa/core/actions/ocr_actions.py:84-86 | A region moves the tap by exactly its (x1, y1). |
| `OcrActions.ClickInsideBox` | rpa/core/actions/ocr_actions.py:76-81 | Without scaling or a region, a box with ordered non-negative corners is tapped inside itself. |
| `OcrActions.MatchedResults` | rpa/core/actions/ocr_actions.py:229-230 | Exactly the OCR lines whose text is in the patterns: an item of a list, a substring of a string, a key of a dict; with lines on screen, patterns of any other type raise. |
| `OcrActions.Hits` | rpa/core/actions/ocr_actions.py:229-230 | Strictly increasing positions of the lines, holding exactly those positions whose text is in the patterns. |
| `OcrActions.MatchedResultsInOrder` | rpa/core/actions/ocr_actions.py:229-230 | The matched lines are the lines at the positions `Hits` gives, in that order, so order and repeats are kept. |
| `OcrActions.FirstLine` | rpa/core/actions/ocr_actions.py:250-254 | The first matched line whose text is the pattern, or none when no line has it. |
| `OcrActions.Target` | rpa/core/actions/ocr_actions.py:247-256 | The first line for the earliest pattern, in pattern order, that has a line at all. |
| `OcrActions.SelectTarget` | rpa/core/actions/ocr_actions.py:249-256 | The nested loops with their two breaks compute `Target`. |
| `OcrActions.PopupStep` | rpa/core/actions/ocr_actions.py:224-268 | One popup never sees the target; it adds at most one tap and becomes handled only by that tap succeeding; an action other than `click_first` taps nothing; a popup without `patterns` raises `KeyError`; a popup whose patterns match no line is passed over; a matched `click_first` popup taps the click point of the target `Target` picks (raising `IndexError` when the box has fewer than three corners or the region fewer than two numbers), or taps nothing when no pattern has a line. |
| `OcrActions.Steps` | rpa/core/actions/ocr_actions.py:224-268 | A pass over the popups never sees the target. |
| `OcrActions.HandledIffTapSucceeded` | rpa/core/actions/ocr_actions.py:258-270 | A round counts as handled exactly when one of its taps succeeded. |
| `OcrActions.OnlyClickFirstTaps` | rpa/core/actions/ocr_actions.py:267-268 | Without a `click_first` popup a round taps nothing and is unhandled. |
| `OcrActions.RoundOf` | rpa/core/actions/ocr_actions.py:201-219 | A round sees the target exactly when the target text is among the OCR lines. |
| `OcrActions.PopupRound` | rpa/core/actions/ocr_actions.py:201-272 | The loop body computes `RoundOf`. |
| `OcrActions.PollPopup` | rpa/core/actions/ocr_actions.py:224-268 | One popup iteration computes `PopupStep`. |
| `OcrActions.AbortedRoundStays` | rpa/core/actions/ocr_actions.py:224-268 | Once a popup raises, the rest of the round does not run. |
| `OcrActions.UntilTarget` | rpa/core/actions/ocr_actions.py:184-276 | No screenshot before the timeout returns False. |
| `OcrActions.TrueIffTargetSeen` | rpa/core/actions/ocr_actions.py:217-219 | True exactly when some screenshot shows the target and every earlier round polled without raising. |
| `OcrActions.RaisedEndsHandler` | rpa/core/actions/ocr_actions.py:184-276 | An error in a round ends the handler with that error. |
| `OcrActions.HandlePopups` | rpa/core/actions/ocr_actions.py:172-277 | Without a screenshot before the timeout, a handler that does not raise returns False. |
| `OcrActions.HandlePopupsUntilTarget` | rpa/core/actions/ocr_actions.py:172-277 | The sort and the polling loop compute `HandlePopups`. |

## Left out

- Background threads, the singleton `__new__`, the `multiprocessing.Manager` proxies and the
  `while True` / `time.sleep` drivers of the device manager: each loop body is one sequential
  round (`HealthRound`, `ReconcileRound`, `SweepRound`); concurrent interleavings are not modelled.
- The probe `_check_device_connection` (`u2.connect`) is the oracle `up`, fixed for one call, so
  a device that fails the first pass of a claim also fails the second.
- `DevicePool.DeviceManager.SweepRoundAsWritten`: which expired entry is deleted is left open,
  because dict key order is not modelled. The round's exception ends the cleanup thread, so no
  later round runs; that is the `halted` result, not a modelled thread.
- Timestamps are integers (`now`); `time.time()` is a float in the source.
- The flow files of `_cleanup_devices` are given as their `device.ip` strings. A file that fails
  to load or has no string there is `None`. Globbing and YAML parsing are not modelled.
- `check_and_grant_permissions`, `ExportDataAction`, `SwipeAction` and `wait_and_click_ocr_text`
  are device I/O, file output or polling only, and are not modelled.
- `OCRHelper.find`: it refers to an undefined name and is not modelled.
- The OCR engines, screenshots, the cv2 debug images and `_save_debug_info` are not modelled, and
  neither is the bot's debug mode. OCR output is the input `lines`.
- XML parsing and XPath are not modelled: the tree is `UiTree.XNode`. `root.findall` is
  `UiTree.Descendants` filtered by tag or attribute.
- Regular expressions are the oracle `rx(pattern, text)`, and `re.escape` escapes a fixed set of
  characters. `re.match` returns a match object, not a boolean; only its truthiness is modelled.
- `get_real_coordinates`, the `adb` tap subprocess, uiautomator clicks and swipes, and
  `window_size` are parameters or results, not effects.
- OCR box coordinates and confidences are Dafny `real` (exact). Rounding of binary floating
  point is not modelled.
- `PyValue.Value` has no float case. A float `timeout`, region coordinate, popup priority or
  `max_length` in a step's params cannot be represented, so what `int()` or a comparison does
  with one is not modelled.
- `Text.Whitespace` holds only the six ASCII whitespace characters. Python's `str.strip()` also
  removes \x1c-\x1f, \x85, \xa0 and the other Unicode spaces; strings holding them at the ends
  strip differently.
- `PyValue.Elements`: iterating a non-empty dict is modelled as a failure (`None`, like a value
  that is not iterable). Python iterates its keys in insertion order, and the model has no key
  order. The outcome differs in these members:
  - `OcrActions.PopupStep`: a dict of `patterns` raises `TypeError` and ends `HandlePopups`.
    Python iterates the pattern keys and may tap a line whose text is one of them.
  - `NodeActions.PathValue`: a dict of `attributes` yields nothing, so the path is skipped.
    Python reads the attributes named by the keys.
  - `NodeActions.FromPaths`: a dict index path is skipped. Python walks its keys as indices.
  - `UiActions.ClickRegion`: a four-entry dict region returns False.
    Python converts the keys with `int()` and may click.
- A dict of step conditions, break conditions or steps fails in both Python and the model.
  Python iterates the string keys and then fails to subscript or call `.get` on a string.
- `PyValue.Str`: `str()` of a list or a dict is not modelled. An index path item that is a list
  or dict therefore matches no child, where Python would compare its printed form with the
  child's `index` attribute. Likewise `NodeActions.PackageNodes` finds no node for a list or dict
  `package`, so `NodeActions.ByPath` returns `Fallback({})`. Python prints the value into the
  XPath query; when the printed form holds a quote the query is malformed, and the outer handler
  returns "" for a single attribute instead.
- `DataActions.AppendToList`: the in-place append is modelled on the stored variable only. Other
  references to the same list object, such as one saved as a step result, are not updated.
- Dict key order is not modelled: Python dicts are Dafny maps, so iteration order over a dict
  (`params.items()`, a dict of steps) is not represented.
- `int()` is modelled on decimal strings with optional sign and surrounding whitespace. Underscores
  and non-ASCII digits are not modelled.
- Python's `True == 1` equality between bool and int is not modelled; equality is structural.
- `OcrActions.HandlePopups`: the sort is modelled on a copy, so the in-place reordering of the
  caller's `popups` list is not captured.
- `OcrActions.HandlePopups`: priorities that are not integers or booleans raise when two or more
  popups are compared. This covers string priorities, which Python would compare with each other.
- `OcrActions.HandlePopups`: a `screenshot_region` that is not a list of integers is rejected up
  front.
- `FindNodePath.GetNodePath` requires the node to lie below the root, which is how the tool calls
  it.
- `NodeActions.WaitAndClickNode`: the polling and timeout loop is replaced by the list of polls
  made before the timeout. A poll that raises counts as one that finds nothing.
- `UiActions.WaitAndClickRegion`: the wait loop is the boolean `inTime`, whether the timeout had
  not passed at the first test.
- The registry module's imports name classes that the action modules do not define. Only the
  key-to-class table is modelled.
- `FindNodePath.OfKind` states the kind of its entries, not membership. That the ranking keeps
  every entry is `RankedPermutes`.
- The bot class is not part of this model; `BotStore.Bot` holds only the two stores the actions
  use. `_resolve_variable`, `_execute_action`, `_save_step_result` and `_get_step_result` are
  parameters or store updates.

## Findings

| source | as written | input that shows it | evidently intended | confidence | as-written member | corrected member |
|---|---|---|---|---|---|---|
| rpa/core/actions/node_actions.py:238-254 | The walk stops at a node without children and keeps `found` from the previous step. | Under a node whose only child has index "0" and no children, the path [0, 3] returns that child's attributes. | A path that runs past a leaf finds no node. | not executed | `NodeActions.WalkStopsAtLeaf` | `NodeActions.Resolve`, with `NodeActions.ResolveReachesPathEnd` |
| rpa/core/actions/node_actions.py:260-279 | `import re` inside the function makes `re` local. With two or more attributes and a pattern, `re.match` at line 279 raises `UnboundLocalError`. The per-path handler swallows it, so every path is skipped. | `attributes: [text, content-desc]` with any truthy `pattern` returns {} for every tree. | The pattern is checked against the first attribute and the dict is returned when it matches. | not executed | `NodeActions.SeveralAttributesNeverFound` | `NodeActions.PathValueFixed`, with `NodeActions.PathValueFixedAgrees` |
| rpa/utils/device_manager.py:211-212 | After deleting the first expired entry, the round enters `with self._devices:` on a `Manager().dict()` proxy, which is not a context manager. The exception ends the cleanup thread before `release_device` runs. | Two devices quarantined at time 0 and a round at time 700: one entry is deleted, neither device is released, and the other entry stays quarantined for good. | Every expired entry is deleted and its device released, round after round. | not executed | `DevicePool.DeviceManager.SweepRoundAsWritten`, with `DevicePool.SweepHaltsEarly` | `DevicePool.DeviceManager.SweepRound` |

=== FILE: action_registry.dfy ===
/** The action-type registry: `ACTION_MAP` and `get_action_class`. */
module ActionRegistry {
  import opened Wrappers

  /** The action classes the registry maps to, one constructor per class. */
  datatype ActionClass =
    | ClickRegionAction
    | WaitAndClickRegionAction
    | ScrollAction
    | StartAppAction
    | StopAppAction
    | SwipeAction
    | GetTextFromRegionAction
    | CheckTextExistsAction
    | VerifyTextInRegionAction
    | WaitAndClickOCRTextAction
    | HandlePopupsUntilTargetAction
    | WaitForInputReadyAction
    | InputTextAction
    | AppendToListAction
    | ExportDataAction
    | SetVariableAction
    | GetVariableAction
    | LoopAction
    | SleepAction

  /** `ACTION_MAP` */
  const ActionMap: map<string, ActionClass> := map[
    "click_region" := ClickRegionAction,
    "wait_and_click_region" := WaitAndClickRegionAction,
    "scroll" := ScrollAction,
    "start_app" := StartAppAction,
    "stop_app" := StopAppAction,
    "swipe" := SwipeAction,
    "get_text_from_region" := GetTextFromRegionAction,
    "check_text_exists" := CheckTextExistsAction,
    "verify_text_in_region" := VerifyTextInRegionAction,
    "wait_and_click_ocr_text" := WaitAndClickOCRTextAction,
    "handle_popups_until_target" := HandlePopupsUntilTargetAction,
    "wait_for_input_ready" := WaitForInputReadyAction,
    "input_text" := InputTextAction,
    "append_to_list" := AppendToListAction,
    "export_data" := ExportDataAction,
    "set_variable" := SetVariableAction,
    "get_variable" := GetVariableAction,
    "loop" := LoopAction,
    "sleep" := SleepAction
  ]

  /** Every action class, in the order the map lists them. */
  const Classes: seq<ActionClass> := [
    ClickRegionAction, WaitAndClickRegionAction, ScrollAction, StartAppAction, StopAppAction,
    SwipeAction, GetTextFromRegionAction, CheckTextExistsAction, VerifyTextInRegionAction,
    WaitAndClickOCRTextAction, HandlePopupsUntilTargetAction, WaitForInputReadyAction,
    InputTextAction, AppendToListAction, ExportDataAction, SetVariableAction, GetVariableAction,
    LoopAction, SleepAction
  ]

  /** The position of a class in `Classes`. */
  function ClassIndex(c: ActionClass): nat {
    match c
    case ClickRegionAction => 0
    case WaitAndClickRegionAction => 1
    case ScrollAction => 2
    case StartAppAction => 3
    case StopAppAction => 4
    case SwipeAction => 5
    case GetTextFromRegionAction => 6
    case CheckTextExistsAction => 7
    case VerifyTextInRegionAction => 8
    case WaitAndClickOCRTextAction => 9
    case HandlePopupsUntilTargetAction => 10
    case WaitForInputReadyAction => 11
    case InputTextAction => 12
    case AppendToListAction => 13
    case ExportDataAction => 14
    case SetVariableAction => 15
    case GetVariableAction => 16
    case LoopAction => 17
    case SleepAction => 18
  }

  lemma ClassIndexOf(i: nat)
    requires i < |Classes|
    ensures ClassIndex(Classes[i]) == i
  {
  }

  /** The type name under which the registry lists a class. */
  function TypeOf(c: ActionClass): (t: string)
    ensures t in ActionMap && ActionMap[t] == c
  {
    match c
    case ClickRegionAction => "click_region"
    case WaitAndClickRegionAction => "wait_and_click_region"
    case ScrollAction => "scroll"
    case StartAppAction => "start_app"
    case StopAppAction => "stop_app"
    case SwipeAction => "swipe"
    case GetTextFromRegionAction => "get_text_from_region"
    case CheckTextExistsAction => "check_text_exists"
    case VerifyTextInRegionAction => "verify_text_in_region"
    case WaitAndClickOCRTextAction => "wait_and_click_ocr_text"
    case HandlePopupsUntilTargetAction => "handle_popups_until_target"
    case WaitForInputReadyAction => "wait_for_input_ready"
    case InputTextAction => "input_text"
    case AppendToListAction => "append_to_list"
    case ExportDataAction => "export_data"
    case SetVariableAction => "set_variable"
    case GetVariableAction => "get_variable"
    case LoopAction => "loop"
    case SleepAction => "sleep"
  }

  /**
   * `get_action_class`: the class registered under `actionType`, or the `ValueError` naming the
   * unknown type. A function of the constant map, so a lookup cannot change the map.
   */
  function GetActionClass(actionType: string): (r: Result<ActionClass, string>)
    ensures r.Ok? <==> actionType in ActionMap
    ensures r.Ok? ==> TypeOf(r.value) == actionType
    ensures r.Err? ==> r.error == "未知的动作类型: " + actionType
  {
    if actionType !in ActionMap then Err("未知的动作类型: " + actionType)
    else
      TypeOfLookup(actionType);
      Ok(ActionMap[actionType])
  }

  /** Each type the map lists is the type of the class it lists: the map inverts `TypeOf`. */
  lemma TypeOfLookup(t: string)
    requires t in ActionMap
    ensures TypeOf(ActionMap[t]) == t
  {
    if t == "click_region" {
      assert TypeOf(ClickRegionAction) == t;
    } else if t == "wait_and_click_region" {
      assert TypeOf(WaitAndClickRegionAction) == t;
    } else if t == "scroll" {
      assert TypeOf(ScrollAction) == t;
    } else if t == "start_app" {
      assert TypeOf(StartAppAction) == t;
    } else if t == "stop_app" {
      assert TypeOf(StopAppAction) == t;
    } else if t == "swipe" {
      assert TypeOf(SwipeAction) == t;
    } else if t == "get_text_from_region" {
      assert TypeOf(GetTextFromRegionAction) == t;
    } else if t == "check_text_exists" {
      assert TypeOf(CheckTextExistsAction) == t;
    } else if t == "verify_text_in_region" {
      assert TypeOf(VerifyTextInRegionAction) == t;
    } else if t == "wait_and_click_ocr_text" {
      assert TypeOf(WaitAndClickOCRTextAction) == t;
    } else if t == "handle_popups_until_target" {
      assert TypeOf(HandlePopupsUntilTargetAction) == t;
    } else if t == "wait_for_input_ready" {
      assert TypeOf(WaitForInputReadyAction) == t;
    } else if t == "input_text" {
      assert TypeOf(InputTextAction) == t;
    } else if t == "append_to_list" {
      assert TypeOf(AppendToListAction) == t;
    } else if t == "export_data" {
      assert TypeOf(ExportDataAction) == t;
    } else if t == "set_variable" {
      assert TypeOf(SetVariableAction) == t;
    } else if t == "get_variable" {
      assert TypeOf(GetVariableAction) == t;
    } else if t == "loop" {
      assert TypeOf(LoopAction) == t;
    } else if t == "sleep" {
      assert TypeOf(SleepAction) == t;
    }
  }

  /** No two types share a class, so the registry is one-to-one. */
  lemma TypeOfInjective(c1: ActionClass, c2: ActionClass)
    ensures TypeOf(c1) == TypeOf(c2) ==> c1 == c2
  {
  }

  /** Distinct classes have as many distinct types as there are classes. */
  lemma {:induction false} TypeCount(cs: seq<ActionClass>)
    requires forall i, j :: 0 <= i < j < |cs| ==> cs[i] != cs[j]
    ensures |set c | c in cs :: TypeOf(c)| == |cs|
  {
    if cs != [] {
      TypeCount(cs[1..]);
      assert (set c | c in cs :: TypeOf(c)) == (set c | c in cs[1..] :: TypeOf(c)) + {TypeOf(cs[0])};
    }
  }

  /** Every class appears in `Classes`, once. */
  lemma ClassesComplete(c: ActionClass)
    ensures c in Classes
  {
  }

  /** The map's types are exactly the types of the classes. */
  lemma ActionMapKeys()
    ensures ActionMap.Keys == set c | c in Classes :: TypeOf(c)
  {
    forall t | t in ActionMap ensures t in set c | c in Classes :: TypeOf(c) {
      ClassesComplete(ActionMap[t]);
      TypeOfInjective(ActionMap[t], ActionMap[TypeOf(ActionMap[t])]);
    }
  }

  /** The map holds 19 keys. */
  lemma ActionMapSize()
    ensures |ActionMap| == 19
  {
    forall i, j | 0 <= i < j < |Classes| ensures Classes[i] != Classes[j] {
      ClassIndexOf(i);
      ClassIndexOf(j);
    }
    TypeCount(Classes);
    ActionMapKeys();
  }

  /** Looking up the registered type of any class gives back that class. */
  lemma GetTypeOf(c: ActionClass)
    ensures GetActionClass(TypeOf(c)) == Ok(c)
  {
  }

  /** The lookups the flow files rely on. */
  lemma GetActionClassExamples()
    ensures GetActionClass("set_variable") == Ok(SetVariableAction)
    ensures GetActionClass("loop") == Ok(LoopAction)
    ensures GetActionClass("append_to_list") == Ok(AppendToListAction)
    ensures GetActionClass("click").Err?
  {
  }
}

=== FILE: app_helper.dfy ===
/**
 * `AppHelper`: version comparison and the install / Android-version decisions built on it. The
 * device (`app_info`, `app_install`, `info`) is an input: its answers are parameters and the install
 * it would be asked to do is returned as a flag.
 */
module AppHelper {
  import opened Wrappers
  import opened PyValue
  import Text

  /** The characters `re.split(r'[.-]', v)` splits on. */
  const VersionSeparators: set<char> := {'.', '-'}

  /** `re.split` with a one-character class: the pieces between separators, empty ones included. */
  function SplitOn(s: string, seps: set<char>): (parts: seq<string>)
    ensures |parts| >= 1
    ensures forall i, j :: 0 <= i < |parts| && 0 <= j < |parts[i]| ==> parts[i][j] !in seps
  {
    if s == [] then [""]
    else
      var rest := SplitOn(s[1..], seps);
      if s[0] in seps then [""] + rest
      else [[s[0]] + rest[0]] + rest[1..]
  }

  /** `[int(x) for x in parts]`, or the first piece `int` rejects. */
  function ParseParts(parts: seq<string>): (r: Result<seq<int>, string>)
    ensures r.Ok? ==> |r.value| == |parts| && forall i :: 0 <= i < |parts| ==> Text.ParseInt(parts[i]) == Some(r.value[i])
    ensures r.Err? ==> r.error in parts && Text.ParseInt(r.error).None?
  {
    if parts == [] then Ok([])
    else match Text.ParseInt(parts[0])
      case None => Err(parts[0])
      case Some(n) =>
        match ParseParts(parts[1..])
        case Err(e) => Err(e)
        case Ok(ns) => Ok([n] + ns)
  }

  /** Every piece must be an integer: a single bad piece makes the whole parse fail. */
  lemma {:induction false} ParsePartsFails(parts: seq<string>, i: nat)
    requires i < |parts| && Text.ParseInt(parts[i]).None?
    ensures ParseParts(parts).Err?
  {
    if i > 0 && Text.ParseInt(parts[0]).Some? {
      assert parts[1..][i - 1] == parts[i];
      ParsePartsFails(parts[1..], i - 1);
    }
  }

  /** The numeric components of a version string. */
  function Components(version: string): Result<seq<int>, string> {
    ParseParts(SplitOn(version, VersionSeparators))
  }

  /** Component `i`, with missing components counting as 0. */
  function At(parts: seq<int>, i: nat): int {
    if i < |parts| then parts[i] else 0
  }

  /** The comparison loop from index `i` on: -1, 0 or 1 by the first differing padded component. */
  function CompareFrom(a: seq<int>, b: seq<int>, i: nat): (c: int)
    ensures c == -1 || c == 0 || c == 1
    decreases |a| + |b| - i
  {
    if i >= |a| && i >= |b| then 0
    else if At(a, i) < At(b, i) then -1
    else if At(a, i) > At(b, i) then 1
    else CompareFrom(a, b, i + 1)
  }

  /** The order of two lists of components. */
  function Compare(a: seq<int>, b: seq<int>): int {
    CompareFrom(a, b, 0)
  }

  /** `_compare_versions`: the order of two version strings, or the component that is not an integer. */
  function VersionOrder(version1: string, version2: string): Result<int, string> {
    match Components(version1)
    case Err(e) => Err(e)
    case Ok(a) =>
      match Components(version2)
      case Err(e) => Err(e)
      case Ok(b) => Ok(Compare(a, b))
  }

  /** `_compare_versions`, with its index loop. */
  method CompareVersions(version1: string, version2: string) returns (r: Result<int, string>)
    ensures r == VersionOrder(version1, version2)
    ensures r.Ok? ==> r.value == -1 || r.value == 0 || r.value == 1
  {
    var p1 := Components(version1);
    if p1.Err? {
      return Err(p1.error);
    }
    var p2 := Components(version2);
    if p2.Err? {
      return Err(p2.error);
    }
    var a, b := p1.value, p2.value;
    assert VersionOrder(version1, version2) == Ok(Compare(a, b));
    var c := CompareLoop(a, b);
    return Ok(c);
  }

  /** The index loop of `_compare_versions` over two lists of components. */
  method CompareLoop(a: seq<int>, b: seq<int>) returns (c: int)
    ensures c == Compare(a, b)
  {
    var n := if |a| > |b| then |a| else |b|;
    for i := 0 to n
      invariant Compare(a, b) == CompareFrom(a, b, i)
    {
      var v1 := if i < |a| then a[i] else 0;
      var v2 := if i < |b| then b[i] else 0;
      if v1 < v2 {
        return -1;
      } else if v1 > v2 {
        return 1;
      }
    }
    return 0;
  }

  // ---------------------------------------------------------------------------------------------
  // Properties of the order

  /** Two lists compare equal exactly when they agree on every padded component. */
  lemma {:induction false} CompareZero(a: seq<int>, b: seq<int>, i: nat)
    ensures CompareFrom(a, b, i) == 0 <==> forall j: nat :: i <= j ==> At(a, j) == At(b, j)
    decreases |a| + |b| - i
  {
    if i >= |a| && i >= |b| {
    } else if At(a, i) == At(b, i) {
      CompareZero(a, b, i + 1);
      if CompareFrom(a, b, i) == 0 {
        forall j: nat | i <= j ensures At(a, j) == At(b, j) {
          if j > i { assert i + 1 <= j; }
        }
      }
    }
  }

  /** compare(v, v) == 0 */
  lemma CompareReflexive(a: seq<int>)
    ensures Compare(a, a) == 0
  {
    CompareZero(a, a, 0);
  }

  /** compare(a, b) == -compare(b, a) */
  lemma {:induction false} CompareAntisymmetric(a: seq<int>, b: seq<int>, i: nat)
    ensures CompareFrom(a, b, i) == -CompareFrom(b, a, i)
    decreases |a| + |b| - i
  {
    if !(i >= |a| && i >= |b|) && At(a, i) == At(b, i) {
      CompareAntisymmetric(a, b, i + 1);
    }
  }

  /** Missing components count as 0: trailing zeros change nothing. */
  lemma {:induction false} ComparePadded(a: seq<int>, b: seq<int>, i: nat)
    ensures CompareFrom(a + [0], b, i) == CompareFrom(a, b, i)
    decreases |a| + |b| - i
  {
    assert At(a + [0], i) == At(a, i);
    if i >= |a| && i >= |b| {
      if i == |a| {
        assert CompareFrom(a + [0], b, i + 1) == 0;
      }
    } else if At(a, i) == At(b, i) {
      ComparePadded(a, b, i + 1);
    }
  }

  /** The first differing component decides, by numeric value. */
  lemma {:induction false} CompareDecides(a: seq<int>, b: seq<int>, k: nat)
    requires forall j :: 0 <= j < k ==> At(a, j) == At(b, j)
    requires At(a, k) < At(b, k)
    ensures Compare(a, b) == -1
  {
    var i := 0;
    while i < k
      invariant 0 <= i <= k
      invariant CompareFrom(a, b, 0) == CompareFrom(a, b, i)
    {
      i := i + 1;
    }
  }

  /** A separator followed by a piece without separators adds that piece at the end. */
  lemma {:induction false} SplitOnAppend(v: string, sep: char, w: string, seps: set<char>)
    requires sep in seps
    requires forall i :: 0 <= i < |w| ==> w[i] !in seps
    ensures SplitOn(v + [sep] + w, seps) == SplitOn(v, seps) + [w]
    decreases |v|
  {
    if v == [] {
      assert ([sep] + w)[1..] == w;
      SplitOnPiece(w, seps);
    } else {
      SplitOnAppend(v[1..], sep, w, seps);
      assert (v + [sep] + w)[1..] == v[1..] + [sep] + w;
    }
  }

  /** A piece without separators is not split. */
  lemma {:induction false} SplitOnPiece(s: string, seps: set<char>)
    requires forall i :: 0 <= i < |s| ==> s[i] !in seps
    ensures SplitOn(s, seps) == [s]
  {
    if s != [] {
      SplitOnPiece(s[1..], seps);
      assert [s[0]] + s[1..] == s;
    }
  }

  /** When every piece is an integer, the parse succeeds. */
  lemma {:induction false} ParsePartsSucceeds(parts: seq<string>)
    requires forall i :: 0 <= i < |parts| ==> Text.ParseInt(parts[i]).Some?
    ensures ParseParts(parts).Ok?
  {
    if parts != [] {
      assert forall i :: 0 <= i < |parts| - 1 ==> parts[1..][i] == parts[i + 1];
      ParsePartsSucceeds(parts[1..]);
    }
  }

  /** Parsing one more piece at the end. */
  lemma ParsePartsAppend(ps: seq<string>, p: string)
    requires ParseParts(ps).Ok? && Text.ParseInt(p).Some?
    ensures ParseParts(ps + [p]) == Ok(ParseParts(ps).value + [Text.ParseInt(p).value])
  {
    var q := ps + [p];
    var v := ParseParts(ps).value + [Text.ParseInt(p).value];
    forall i | 0 <= i < |q| ensures Text.ParseInt(q[i]).Some? {
      if i < |ps| {
        assert q[i] == ps[i];
      }
    }
    ParsePartsSucceeds(q);
    var r := ParseParts(q);
    assert |r.value| == |v|;
    forall i | 0 <= i < |v| ensures r.value[i] == v[i] {
      if i < |ps| {
        assert q[i] == ps[i];
      }
    }
    assert r.value == v;
  }

  /** Missing components count as 0: "1.2.0" compares as "1.2", against any version. */
  lemma VersionPadding(v: string, w: string)
    requires Components(v).Ok?
    ensures VersionOrder(v + ".0", w) == VersionOrder(v, w)
  {
    SplitOnAppend(v, '.', "0", VersionSeparators);
    assert v + ".0" == v + ['.'] + "0";
    Text.ParseDigit(0);
    assert [Text.DigitChar(0)] == "0";
    ParsePartsAppend(SplitOn(v, VersionSeparators), "0");
    ComparePadded(Components(v).value, if Components(w).Ok? then Components(w).value else [], 0);
  }

  // ---------------------------------------------------------------------------------------------
  // Decisions

  /** Why a check fails. */
  datatype AppError =
    | NotInstalledNoApk(package: string)
    | TooOldNoApk(current: string, minimum: string)
    | AndroidTooOld(current: string, minimum: string)
    | BadVersion(component: string)
    | MissingVersion

  /** `app_info['versionName']`, or the error of reading it. */
  function VersionName(appInfo: Value): Result<string, AppError> {
    if appInfo.VDict? && "versionName" in appInfo.entries && appInfo.entries["versionName"].VStr? then
      Ok(appInfo.entries["versionName"].s)
    else Err(MissingVersion)
  }

  /**
   * `check_and_install_app`. `appInfo` is the device's answer to `app_info(package)`; an empty
   * `minVersion` or `apkPath` stands for `None`. `install` says whether `app_install(apkPath)` is called.
   */
  method CheckAndInstallApp(package: string, minVersion: string, apkPath: string, appInfo: Value)
      returns (r: Result<bool, AppError>, install: bool)
    // Not installed: install from the APK, or fail without one.
    ensures !Truthy(appInfo) ==> (if apkPath == "" then r == Err(NotInstalledNoApk(package)) && !install
                                   else r == Ok(true) && install)
    // Installed and no minimum: nothing to do.
    ensures Truthy(appInfo) && minVersion == "" ==> r == Ok(true) && !install
    // Installed, below the minimum: update from the APK, or fail without one.
    ensures Truthy(appInfo) && minVersion != "" && VersionName(appInfo).Ok? &&
            VersionOrder(VersionName(appInfo).value, minVersion) == Ok(-1) ==>
      if apkPath == "" then r == Err(TooOldNoApk(VersionName(appInfo).value, minVersion)) && !install
      else r == Ok(true) && install
    // Installed, at or above the minimum: nothing to do.
    ensures (&& Truthy(appInfo) && minVersion != "" && VersionName(appInfo).Ok?
             && VersionOrder(VersionName(appInfo).value, minVersion).Ok?
             && VersionOrder(VersionName(appInfo).value, minVersion).value >= 0) ==> r == Ok(true) && !install
    // Installed with a minimum, but the version cannot be read (`KeyError`) or compared (`ValueError`).
    ensures Truthy(appInfo) && minVersion != "" && VersionName(appInfo).Err? ==> r == Err(MissingVersion) && !install
    ensures (&& Truthy(appInfo) && minVersion != "" && VersionName(appInfo).Ok?
             && VersionOrder(VersionName(appInfo).value, minVersion).Err?) ==>
      r == Err(BadVersion(VersionOrder(VersionName(appInfo).value, minVersion).error)) && !install
    // It only ever returns True, and installs only from a given APK.
    ensures r.Ok? ==> r.value
    ensures install ==> apkPath != "" && r == Ok(true)
  {
    install := false;
    if !Truthy(appInfo) {
      if apkPath == "" {
        return Err(NotInstalledNoApk(package)), false;
      }
      return Ok(true), true;
    }
    if minVersion != "" {
      var current := VersionName(appInfo);
      if current.Err? {
        return Err(current.error), false;
      }
      var order := CompareVersions(current.value, minVersion);
      if order.Err? {
        return Err(BadVersion(order.error)), false;
      }
      if order.value < 0 {
        if apkPath == "" {
          return Err(TooOldNoApk(current.value, minVersion)), false;
        }
        return Ok(true), true;
      }
    }
    r := Ok(true);
  }

  /**
   * `check_android_version`: `deviceInfo` is the device's `info`. It fails exactly when the device
   * version is below the minimum (or cannot be read or compared), and otherwise returns True.
   */
  method CheckAndroidVersion(minVersion: string, deviceInfo: map<string, Value>) returns (r: Result<bool, AppError>)
    ensures "version" in deviceInfo && deviceInfo["version"].VStr? &&
            VersionOrder(deviceInfo["version"].s, minVersion).Ok? ==>
      (r.Err? <==> VersionOrder(deviceInfo["version"].s, minVersion).value < 0)
    ensures "version" in deviceInfo && deviceInfo["version"].VStr? &&
            VersionOrder(deviceInfo["version"].s, minVersion) == Ok(-1) ==>
      r == Err(AndroidTooOld(deviceInfo["version"].s, minVersion))
    // A version that cannot be read (`KeyError`) or compared (`ValueError`) raises.
    ensures "version" !in deviceInfo || !deviceInfo["version"].VStr? ==> r == Err(MissingVersion)
    ensures "version" in deviceInfo && deviceInfo["version"].VStr? &&
            VersionOrder(deviceInfo["version"].s, minVersion).Err? ==>
      r == Err(BadVersion(VersionOrder(deviceInfo["version"].s, minVersion).error))
    ensures r.Err? && r.error.AndroidTooOld? ==> VersionOrder(r.error.current, r.error.minimum) == Ok(-1)
    ensures r.Ok? ==> r.value
  {
    if "version" !in deviceInfo || !deviceInfo["version"].VStr? {
      return Err(MissingVersion);
    }
    var current := deviceInfo["version"].s;
    var order := CompareVersions(current, minVersion);
    if order.Err? {
      return Err(BadVersion(order.error));
    }
    if order.value < 0 {
      return Err(AndroidTooOld(current, minVersion));
    }
    r := Ok(true);
  }
}

=== FILE: base_bot.dfy ===
/**
 * The flow runner of `BaseBot`: configuration validation, then the configured steps in list order.
 * The only effect of a step is a log line, so the model returns the log lines as data.
 */
module BaseBot {
  import opened Wrappers
  import opened PyValue
  import Text

  /** The fields `_validate_flow_config` demands, in the order it checks them. */
  const RequiredFields: seq<string> := ["name", "version", "steps"]

  /** The name logged for a step that has none. */
  const UnnamedStep: string := "未命名步骤"

  /** What `_execute_step` logs for one step: its `name` (defaulted) and its `type` (default `None`). */
  datatype StepLog = StepLog(name: Value, kind: Value)

  /** How `run_flow` ends: normally, or by raising `RuntimeError` with the given message. */
  datatype RunOutcome = Finished | RuntimeError(message: string)

  /** The index of the first field of `fields`, from `from` on, that `config` lacks. */
  function FirstMissing(fields: seq<string>, config: map<string, Value>, from: nat): (r: Option<nat>)
    requires from <= |fields|
    ensures r.Some? ==> from <= r.value < |fields| && fields[r.value] !in config
    ensures r.Some? ==> forall j :: from <= j < r.value ==> fields[j] in config
    ensures r.None? ==> forall j :: from <= j < |fields| ==> fields[j] in config
    decreases |fields| - from
  {
    if from == |fields| then None
    else if fields[from] !in config then Some(from)
    else FirstMissing(fields, config, from + 1)
  }

  /**
   * `_validate_flow_config`: the first of `name`, `version`, `steps` missing from the config, which
   * it reports as `ValueError`; `None` when all three are present.
   */
  function MissingField(config: map<string, Value>): (r: Option<string>)
    ensures r.None? <==> "name" in config && "version" in config && "steps" in config
    ensures r == Some("name") <==> "name" !in config
    ensures r == Some("version") <==> "name" in config && "version" !in config
    ensures r == Some("steps") <==> "name" in config && "version" in config && "steps" !in config
  {
    var i := FirstMissing(RequiredFields, config, 0);
    if i.Some? then Some(RequiredFields[i.value]) else None
  }

  /** The message of the `ValueError` for a missing field. */
  function MissingMessage(field: string): string {
    "缺少必要的配置项: " + field
  }

  /** The message `run_flow` gives the `RuntimeError` that wraps an error with message `cause`. */
  function Wrapped(cause: string): (message: string)
    ensures Text.EndsWith(message, cause)
  {
    "流程执行失败: " + cause
  }

  /** Python's name for the type of `v`, as error messages print it. */
  function TypeName(v: Value): string {
    match v
    case VNone => "NoneType"
    case VBool(_) => "bool"
    case VInt(_) => "int"
    case VStr(_) => "str"
    case VList(_) => "list"
    case VDict(_) => "dict"
  }

  /** The `AttributeError` message of `v.get(...)` on a value without a `get` method. */
  function NoGetMessage(v: Value): string {
    "'" + TypeName(v) + "' object has no attribute 'get'"
  }

  /**
   * What `for step in steps` yields, or the message of the error the loop raises before its first
   * step: a list gives its items, a string its characters, an empty dict nothing; a non-empty dict
   * yields its keys, the first of which (a string) makes `step.get` fail; any other value is not
   * iterable.
   */
  function StepsOf(steps: Value): (r: Result<seq<Value>, string>)
    ensures steps.VList? ==> r == Ok(steps.items)
  {
    match steps
    case VList(xs) => Ok(xs)
    case VStr(s) => Ok(Chars(s))
    case VDict(m) => if m == map[] then Ok([]) else Err(NoGetMessage(VStr("")))
    case _ => Err("'" + TypeName(steps) + "' object is not iterable")
  }

  /** The index of the first element of `xs` that is not a dict. */
  function FirstNonDict(xs: seq<Value>): (r: Option<nat>)
    ensures r.Some? ==> r.value < |xs| && !xs[r.value].VDict?
    ensures r.Some? ==> forall j :: 0 <= j < r.value ==> xs[j].VDict?
    ensures r.None? ==> forall j :: 0 <= j < |xs| ==> xs[j].VDict?
  {
    if xs == [] then None
    else if !xs[0].VDict? then Some(0)
    else
      var r := FirstNonDict(xs[1..]);
      if r.Some? then Some(r.value + 1) else None
  }

  /** `_execute_step`: it reads `type` and `name` and logs them; it changes nothing else. */
  function LogOf(step: map<string, Value>): StepLog {
    StepLog(Get(step, "name", VStr(UnnamedStep)), Get(step, "type", VNone))
  }

  /** The log lines of a run of steps that are all dicts. */
  function Logs(xs: seq<Value>): (log: seq<StepLog>)
    requires forall j :: 0 <= j < |xs| ==> xs[j].VDict?
    ensures |log| == |xs|
  {
    seq(|xs|, i requires 0 <= i < |xs| => LogOf(xs[i].entries))
  }

  /**
   * `run_flow` as a whole: the outcome and the log lines of the steps executed, in order. A config
   * missing a required field executes no step; a normal end has executed every step, each once, in
   * list order, and happens exactly when every step is a dict; every error (a missing field, steps
   * that cannot be iterated, a step without `get`) is re-raised as a `RuntimeError` carrying the
   * original message, after the log lines of the steps before it.
   */
  function Run(config: map<string, Value>): (r: (RunOutcome, seq<StepLog>))
    ensures MissingField(config).Some? ==>
      r == (RuntimeError(Wrapped(MissingMessage(MissingField(config).value))), [])
    ensures r.0 == Finished ==>
      && MissingField(config).None?
      && StepsOf(config["steps"]).Ok?
      && var xs := StepsOf(config["steps"]).value;
      && |r.1| == |xs|
      && forall i :: 0 <= i < |xs| ==> xs[i].VDict? && r.1[i] == LogOf(xs[i].entries)
    ensures MissingField(config).None? && StepsOf(config["steps"]).Ok? ==>
      var xs := StepsOf(config["steps"]).value;
      && |r.1| <= |xs|
      && forall i :: 0 <= i < |r.1| ==> xs[i].VDict? && r.1[i] == LogOf(xs[i].entries)
    ensures MissingField(config).None? && StepsOf(config["steps"]).Err? ==>
      r == (RuntimeError(Wrapped(StepsOf(config["steps"]).error)), [])
    ensures MissingField(config).None? && StepsOf(config["steps"]).Ok? ==>
      (r.0 == Finished <==> FirstNonDict(StepsOf(config["steps"]).value).None?)
    ensures MissingField(config).None? && StepsOf(config["steps"]).Ok? && FirstNonDict(StepsOf(config["steps"]).value).Some? ==>
      var xs, k := StepsOf(config["steps"]).value, FirstNonDict(StepsOf(config["steps"]).value).value;
      r == (RuntimeError(Wrapped(NoGetMessage(xs[k]))), Logs(xs[..k]))
  {
    match MissingField(config)
    case Some(f) => (RuntimeError(Wrapped(MissingMessage(f))), [])
    case None =>
      match StepsOf(config["steps"])
      case Err(msg) => (RuntimeError(Wrapped(msg)), [])
      case Ok(xs) =>
        match FirstNonDict(xs)
        case Some(k) => (RuntimeError(Wrapped(NoGetMessage(xs[k]))), Logs(xs[..k]))
        case None => (Finished, Logs(xs))
  }

  lemma LogsSnoc(xs: seq<Value>, i: nat)
    requires i < |xs| && forall j :: 0 <= j <= i ==> xs[j].VDict?
    ensures Logs(xs[..i + 1]) == Logs(xs[..i]) + [LogOf(xs[i].entries)]
  {
    var a, b := Logs(xs[..i + 1]), Logs(xs[..i]) + [LogOf(xs[i].entries)];
    assert |a| == |b|;
    forall k | 0 <= k < |a| ensures a[k] == b[k] {
      assert xs[..i + 1][k] == xs[k];
    }
  }

  /** `run_flow`: validation, then the step loop, with every error wrapped. */
  method RunFlow(config: map<string, Value>) returns (outcome: RunOutcome, log: seq<StepLog>)
    ensures (outcome, log) == Run(config)
  {
    var missing := MissingField(config);
    if missing.Some? {
      return RuntimeError(Wrapped(MissingMessage(missing.value))), [];
    }
    var steps := StepsOf(config["steps"]);
    if steps.Err? {
      return RuntimeError(Wrapped(steps.error)), [];
    }
    var xs := steps.value;
    log := [];
    for i := 0 to |xs|
      invariant forall j :: 0 <= j < i ==> xs[j].VDict?
      invariant log == Logs(xs[..i])
    {
      if !xs[i].VDict? {
        return RuntimeError(Wrapped(NoGetMessage(xs[i]))), log;
      }
      LogsSnoc(xs, i);
      log := log + [LogOf(xs[i].entries)];
    }
    assert xs[..|xs|] == xs;
    outcome := Finished;
  }
}

=== FILE: bot_store.dfy ===
/**
 * The bot object every action talks to: its variable store (`get_variable` / `set_variable`) and
 * its step-result store (`_save_step_result` / `_get_step_result`). The bot class itself is not part
 * of this model; both stores are modelled as dictionaries keyed by Python values.
 */
module BotStore {
  import opened PyValue

  class Bot {
    /** The variables actions read and write by name. */
    var variables: map<Value, Value>
    /** The result each named step returned last. */
    var results: map<Value, Value>

    constructor (variables: map<Value, Value>, results: map<Value, Value>)
      ensures this.variables == variables && this.results == results
    {
      this.variables := variables;
      this.results := results;
    }

    /** `bot.set_variable(name, value)`: only that name changes. */
    method SetVariable(name: Value, value: Value)
      modifies this
      ensures variables == old(variables)[name := value]
      ensures results == old(results)
    {
      variables := variables[name := value];
    }

    /** `bot._save_step_result(name, result)`: only that step's entry changes. */
    method SaveStepResult(name: Value, result: Value)
      modifies this
      ensures results == old(results)[name := result]
      ensures variables == old(variables)
    {
      results := results[name := result];
    }
  }
}

=== FILE: bounds.dfy ===
/**
 * Screen geometry shared by the node and region actions: the bounds strings uiautomator reports
 * (`"[x1,y1][x2,y2]"`), rectangles, and the floor midpoint every click aims at.
 */
module Bounds {
  import opened Wrappers
  import Text

  datatype Point = Point(x: int, y: int)

  /** A rectangle as `[left, top, right, bottom]`, or `x1, y1, x2, y2`. */
  datatype Rect = Rect(left: int, top: int, right: int, bottom: int)

  const Brackets: set<char> := {'[', ']'}

  /** `s.strip('[]').split('][')` */
  function BoundsParts(s: string): (parts: seq<string>)
    ensures |parts| >= 1
  {
    Text.Split(Text.StripChars(s, Brackets), "][")
  }

  /**
   * `a, b = map(int, p.split(','))`: the piece holds exactly two comma-separated integers;
   * `None` stands for the `ValueError` of a wrong count or a non-integer.
   */
  function IntPair(p: string): (r: Option<(int, int)>)
    ensures r.Some? <==>
      && |Text.Split(p, ",")| == 2
      && Text.ParseInt(Text.Split(p, ",")[0]).Some?
      && Text.ParseInt(Text.Split(p, ",")[1]).Some?
    ensures r.Some? ==>
      && Text.ParseInt(Text.Split(p, ",")[0]) == Some(r.value.0)
      && Text.ParseInt(Text.Split(p, ",")[1]) == Some(r.value.1)
  {
    var pieces := Text.Split(p, ",");
    if |pieces| != 2 then None
    else match (Text.ParseInt(pieces[0]), Text.ParseInt(pieces[1]))
      case (Some(a), Some(b)) => Some((a, b))
      case _ => None
  }

  /**
   * The bounds parse of `_collect_nodes_in_bounds`: the first two `][`-separated pieces must each
   * be an integer pair; pieces after the second are ignored.
   */
  function ParseNodeBounds(s: string): (r: Option<Rect>)
    ensures r.Some? ==> |BoundsParts(s)| >= 2
  {
    var parts := BoundsParts(s);
    if |parts| < 2 then None
    else match (IntPair(parts[0]), IntPair(parts[1]))
      case (Some((x1, y1)), Some((x2, y2))) => Some(Rect(x1, y1, x2, y2))
      case _ => None
  }

  /** The bounds parse of `WaitAndClickRegionAction`: exactly two `][`-separated pieces. */
  function ParseRegionBounds(s: string): (r: Option<Rect>)
    ensures r.Some? ==> |BoundsParts(s)| == 2
  {
    if |BoundsParts(s)| != 2 then None else ParseNodeBounds(s)
  }

  /** The region parse accepts less than the node parse and agrees with it on what it accepts. */
  lemma RegionParseStricter(s: string)
    ensures ParseRegionBounds(s).Some? ==> ParseNodeBounds(s) == ParseRegionBounds(s)
    ensures |BoundsParts(s)| == 2 ==> ParseRegionBounds(s) == ParseNodeBounds(s)
  {
  }

  /** The bounds string uiautomator writes for a rectangle. */
  function Format(r: Rect): string {
    "[" + Text.IntToString(r.left) + "," + Text.IntToString(r.top) + "]["
      + Text.IntToString(r.right) + "," + Text.IntToString(r.bottom) + "]"
  }

  /** `"a,b"` parses back to the pair `(a, b)`. */
  lemma IntPairOfFormat(a: int, b: int)
    ensures IntPair(Text.IntToString(a) + "," + Text.IntToString(b)) == Some((a, b))
  {
    var sa, sb := Text.IntToString(a), Text.IntToString(b);
    Text.IntToStringShape(a);
    Text.IntToStringShape(b);
    assert ',' !in sa;
    assert ',' !in sb;
    Text.SplitAfter(sa, ",", sb);
    Text.SplitWithout(sb, ",");
    var pieces := Text.Split(sa + "," + sb, ",");
    assert pieces == [sa, sb];
    Text.ParseIntOfIntToString(a);
    Text.ParseIntOfIntToString(b);
    assert IntPair(sa + "," + sb) == Some((a, b));
  }

  /** `"[a][c]"` splits into `a` and `c` when neither holds a bracket. */
  lemma PartsOfBracketed(a: string, c: string)
    requires a != [] && c != [] && '[' !in a && ']' !in a && '[' !in c && ']' !in c
    ensures BoundsParts("[" + a + "][" + c + "]") == [a, c]
  {
    var sep := "][";
    assert sep[0] == ']';
    var body := a + sep + c;
    assert "[" + a + "][" + c + "]" == ['['] + body + [']'];
    assert body[0] !in Brackets && body[|body| - 1] !in Brackets by {
      assert body[0] == a[0] && body[|body| - 1] == c[|c| - 1];
    }
    Text.StripPair('[', body, ']', Brackets);
    Text.SplitAfter(a, sep, c);
    Text.SplitWithout(c, sep);
  }

  /** The text of an integer pair holds no bracket. */
  lemma PairTextShape(x: int, y: int)
    ensures var p := Text.IntToString(x) + "," + Text.IntToString(y);
      p != [] && '[' !in p && ']' !in p
  {
    var sx, sy := Text.IntToString(x), Text.IntToString(y);
    Text.IntToStringShape(x);
    Text.IntToStringShape(y);
    var p := sx + "," + sy;
    assert forall k :: 0 <= k < |p| ==> p[k] == ',' || Text.IsDigit(p[k]) || p[k] == '-';
  }

  /** Every rectangle's bounds string parses back to that rectangle, under both parsers. */
  lemma ParseFormat(r: Rect)
    ensures ParseNodeBounds(Format(r)) == Some(r)
    ensures ParseRegionBounds(Format(r)) == Some(r)
  {
    var a := Text.IntToString(r.left) + "," + Text.IntToString(r.top);
    var c := Text.IntToString(r.right) + "," + Text.IntToString(r.bottom);
    assert Format(r) == "[" + a + "][" + c + "]";
    PairTextShape(r.left, r.top);
    PairTextShape(r.right, r.bottom);
    PartsOfBracketed(a, c);
    IntPairOfFormat(r.left, r.top);
    IntPairOfFormat(r.right, r.bottom);
  }

  /** `((x1 + x2) // 2, (y1 + y2) // 2)`; Python's `//` by 2 floors, as Dafny's `/` by a positive divisor does. */
  function Centre(r: Rect): (p: Point)
    ensures r.left <= r.right ==> r.left <= p.x <= r.right
    ensures r.top <= r.bottom ==> r.top <= p.y <= r.bottom
    ensures 2 * p.x <= r.left + r.right < 2 * p.x + 2
    ensures 2 * p.y <= r.top + r.bottom < 2 * p.y + 2
  {
    Point((r.left + r.right) / 2, (r.top + r.bottom) / 2)
  }
}

=== FILE: data_actions.dfy ===
/**
 * The variable actions: `AppendToListAction` (append, then keep at most `max_length` items),
 * its `_resolve_data` (`${name}` references), `SetVariableAction` and `GetVariableAction`.
 */
module DataActions {
  import opened Wrappers
  import opened PyValue
  import opened BotStore
  import Text

  /** A string of the form `${name}`. */
  predicate IsReference(s: string)
    ensures IsReference(s) ==> |s| >= 3
  {
    if Text.StartsWith(s, "${") && Text.EndsWith(s, "}") then
      // The two marks cannot overlap: the second character is '{', the last one '}'.
      assert s[1] == '{' && s[|s| - 1] == '}';
      true
    else false
  }

  /** A string that mentions `${` anywhere. */
  predicate MentionsReference(s: string) {
    Text.Contains(s, "${")
  }

  /** `get_variable(value[2:-1])`: the variable a reference names. */
  function Referenced(s: string, variables: map<Value, Value>): Value {
    Lookup(variables, VStr(Slice(s, 2, -1)))
  }

  /** A dict entry as `_resolve_data` rewrites it: only strings that mention `${` are looked up. */
  function ResolveEntry(v: Value, variables: map<Value, Value>): (r: Value)
    ensures !(v.VStr? && MentionsReference(v.s)) ==> r == v
  {
    if v.VStr? && MentionsReference(v.s) then Referenced(v.s, variables) else v
  }

  /**
   * `_resolve_data`: a `${name}` string becomes the variable's value and any other string stays;
   * a dict keeps its keys and has its entries rewritten one level deep; a list is resolved
   * item by item, keeping its length; every other value is returned as it is.
   */
  function ResolveData(data: Value, variables: map<Value, Value>): (r: Value)
    ensures data.VStr? && IsReference(data.s) ==> r == Lookup(variables, VStr(data.s[2..|data.s| - 1]))
    ensures data.VStr? && !IsReference(data.s) ==> r == data
    ensures data.VDict? ==>
      && r.VDict? && r.entries.Keys == data.entries.Keys
      && forall k :: k in data.entries ==> r.entries[k] == ResolveEntry(data.entries[k], variables)
    ensures data.VList? ==>
      && r.VList? && |r.items| == |data.items|
      && forall i :: 0 <= i < |data.items| ==> r.items[i] == ResolveData(data.items[i], variables)
    ensures data.VNone? || data.VBool? || data.VInt? ==> r == data
    decreases data
  {
    match data
    case VStr(s) => if IsReference(s) then Referenced(s, variables) else data
    case VDict(m) => VDict(map k | k in m :: ResolveEntry(m[k], variables))
    case VList(xs) => VList(seq(|xs|, i requires 0 <= i < |xs| => ResolveData(xs[i], variables)))
    case _ => data
  }

  /** A value in which `_resolve_data` finds nothing to replace. */
  predicate NoReferences(data: Value)
    decreases data
  {
    match data
    case VStr(s) => !IsReference(s)
    case VDict(m) => forall k :: k in m ==> !(m[k].VStr? && MentionsReference(m[k].s))
    case VList(xs) => forall i :: 0 <= i < |xs| ==> NoReferences(xs[i])
    case _ => true
  }

  /** Resolving a value without references gives it back unchanged, whatever the variables. */
  lemma {:induction false} ResolveWithoutReferences(data: Value, variables: map<Value, Value>)
    requires NoReferences(data)
    ensures ResolveData(data, variables) == data
    decreases data
  {
    match data
    case VList(xs) =>
      forall i | 0 <= i < |xs| ensures ResolveData(xs[i], variables) == xs[i] {
        ResolveWithoutReferences(xs[i], variables);
      }
      assert ResolveData(data, variables).items == xs;
    case VDict(m) =>
      assert ResolveData(data, variables).entries == m;
    case _ =>
  }

  /**
   * `if max_length and len(current_list) > max_length: current_list = current_list[-max_length:]`.
   * `None` stands for the `TypeError` of comparing a length with a truthy non-number.
   */
  function Trimmed(xs: seq<Value>, maxLength: Value): (r: Option<seq<Value>>)
    ensures !Truthy(maxLength) ==> r == Some(xs)
    ensures r.Some? ==> |r.value| <= |xs| && r.value == xs[|xs| - |r.value|..]
    ensures maxLength.VInt? && maxLength.i >= 1 ==> r.Some? && |r.value| == if |xs| > maxLength.i then maxLength.i else |xs|
    ensures maxLength.VInt? && maxLength.i < 0 ==> r == Some(xs[Clamp(-maxLength.i, |xs|)..])
  {
    if !Truthy(maxLength) then Some(xs)
    else match maxLength
      case VInt(m) => Some(if |xs| > m then SliceFrom(xs, -m) else xs)
      case VBool(_) => Some(if |xs| > 1 then SliceFrom(xs, -1) else xs)
      case _ => None
  }

  /**
   * The list `AppendToListAction` stores, or `None` when it returns False: a missing `list` or
   * `data` key, or a `max_length` that cannot be compared. The current value is taken as `[]`
   * unless it is a list.
   */
  function Appended(params: map<string, Value>, variables: map<Value, Value>): (r: Option<seq<Value>>)
    ensures r.Some? ==> "list" in params && "data" in params
  {
    if "list" !in params || "data" !in params then None
    else
      var current := LookupOr(variables, params["list"], VList([]));
      var items := if current.VList? then current.items else [];
      Trimmed(items + [ResolveData(params["data"], variables)], Get(params, "max_length", VNone))
  }

  /** The list the variable held before the append, `[]` when it held no list. */
  function CurrentItems(params: map<string, Value>, variables: map<Value, Value>): seq<Value>
    requires "list" in params
  {
    var current := LookupOr(variables, params["list"], VList([]));
    if current.VList? then current.items else []
  }

  /**
   * What an append promises: without a bound the list grows by exactly the resolved data; with a
   * bound of 1 or more the result is a suffix of at most that many items, still ending with the
   * resolved data.
   */
  lemma AppendedShape(params: map<string, Value>, variables: map<Value, Value>)
    requires "list" in params && "data" in params
    ensures var before := CurrentItems(params, variables);
      var item := ResolveData(params["data"], variables);
      var bound := Get(params, "max_length", VNone);
      var r := Appended(params, variables);
      && (!Truthy(bound) ==> r == Some(before + [item]))
      && (bound.VInt? && bound.i >= 1 ==>
            r.Some? && 1 <= |r.value| <= bound.i && r.value[|r.value| - 1] == item
            && r.value == (before + [item])[|before| + 1 - |r.value|..])
  {
  }

  /** Both keys are given and the variable already holds a list, the object the append mutates. */
  predicate HoldsList(params: map<string, Value>, variables: map<Value, Value>) {
    "list" in params && "data" in params && params["list"] in variables && variables[params["list"]].VList?
  }

  /**
   * `AppendToListAction.execute`: on success the variable holds the new list. The append happens
   * in place on the stored list before the bound is compared, so when the comparison raises a
   * variable that held a list is left holding it with the item appended; otherwise a failure
   * writes nothing.
   */
  method AppendToList(bot: Bot, params: map<string, Value>) returns (ok: bool)
    modifies bot
    ensures ok == Appended(params, old(bot.variables)).Some?
    ensures ok ==> bot.variables == old(bot.variables)[params["list"] := VList(Appended(params, old(bot.variables)).value)]
    ensures !ok && HoldsList(params, old(bot.variables)) ==>
      bot.variables == old(bot.variables)[params["list"] :=
        VList(CurrentItems(params, old(bot.variables)) + [ResolveData(params["data"], old(bot.variables))])]
    ensures !ok && !HoldsList(params, old(bot.variables)) ==> bot.variables == old(bot.variables)
    ensures bot.results == old(bot.results)
  {
    if "list" !in params || "data" !in params {
      return false;
    }
    var listName := params["list"];
    var current := LookupOr(bot.variables, listName, VList([]));
    var items := if current.VList? then current.items else [];
    var resolved := ResolveData(params["data"], bot.variables);
    var trimmed := Trimmed(items + [resolved], Get(params, "max_length", VNone));
    if trimmed.None? {
      if listName in bot.variables && bot.variables[listName].VList? {
        bot.SetVariable(listName, VList(items + [resolved]));
      }
      return false;
    }
    bot.SetVariable(listName, VList(trimmed.value));
    ok := true;
  }

  /**
   * `SetVariableAction.execute`: `name` is set to `value`, resolved through the bot when it is a
   * string mentioning `${`; a missing key returns False and writes nothing.
   */
  method SetVariable(bot: Bot, params: map<string, Value>, resolve: (map<Value, Value>, Value) -> Value) returns (ok: bool)
    modifies bot
    ensures ok <==> "name" in params && "value" in params
    ensures ok ==> bot.variables == old(bot.variables)[params["name"] := ResolvedValue(params["value"], old(bot.variables), resolve)]
    ensures !ok ==> bot.variables == old(bot.variables)
    ensures bot.results == old(bot.results)
  {
    if "name" !in params || "value" !in params {
      return false;
    }
    var value := params["value"];
    if value.VStr? && MentionsReference(value.s) {
      value := resolve(bot.variables, value);
    }
    bot.SetVariable(params["name"], value);
    ok := true;
  }

  /** The value `SetVariableAction` stores: only strings mentioning `${` go through the bot's resolver. */
  function ResolvedValue(value: Value, variables: map<Value, Value>, resolve: (map<Value, Value>, Value) -> Value): (r: Value)
    ensures !(value.VStr? && MentionsReference(value.s)) ==> r == value
  {
    if value.VStr? && MentionsReference(value.s) then resolve(variables, value) else value
  }

  /** `GetVariableAction.execute`: the stored value, else the given default, else `None`; it writes nothing. */
  method GetVariable(bot: Bot, params: map<string, Value>) returns (v: Value)
    ensures "name" !in params ==> v == VNone
    ensures "name" in params && params["name"] in bot.variables ==> v == bot.variables[params["name"]]
    ensures "name" in params && params["name"] !in bot.variables ==> v == Get(params, "default", VNone)
  {
    if "name" !in params {
      return VNone;
    }
    v := LookupOr(bot.variables, params["name"], Get(params, "default", VNone));
  }
}

=== FILE: decorators.dfy ===
/**
 * The step decorators: `log_step`, a logging pass-through, and `retry_step`, which calls the wrapped
 * function up to `max_retries` times, sleeping `delay` seconds between failed attempts.
 */
module Decorators {
  import opened PyValue

  /** One call of the wrapped function: the value it returned or the exception it raised. */
  datatype Attempt = Returned(value: Value) | Raised(error: string)

  /** `log_step(func)`: the wrapper returns exactly what `func` returns, for every argument. */
  function LogStep<A(!new), R>(func: A -> R): (wrapper: A -> R)
    ensures forall a :: wrapper(a) == func(a)
  {
    a => func(a)
  }

  /**
   * `retry_step(max_retries, delay)(func)(...)`. `call(k)` is what the `k`-th call of `func`
   * (counting from 0) does. Returns the outcome of the wrapper, the number of calls of `func` and
   * the number of sleeps, each of `delay` seconds.
   */
  method RetryStep(maxRetries: int, call: nat -> Attempt) returns (r: Attempt, calls: nat, sleeps: nat)
    // With no attempts allowed, the wrapper returns None without calling func.
    ensures maxRetries <= 0 ==> r == Returned(VNone) && calls == 0 && sleeps == 0
    // At most max_retries calls, with a sleep only between two of them.
    ensures maxRetries > 0 ==> 1 <= calls <= maxRetries && sleeps == calls - 1
    // Every call but the last raised, and the wrapper ends as the last call did.
    ensures forall k :: 0 <= k < calls - 1 ==> call(k).Raised?
    ensures calls > 0 ==> r == call(calls - 1)
    // The first success is returned at once; an exception is re-raised only after the final attempt.
    ensures r.Raised? ==> calls == maxRetries
  {
    calls, sleeps := 0, 0;
    var attempt := 0;
    while attempt < maxRetries
      invariant maxRetries > 0 ==> attempt < maxRetries
      invariant maxRetries <= 0 ==> attempt == 0
      invariant calls == attempt && sleeps == attempt
      invariant forall k :: 0 <= k < attempt ==> call(k).Raised?
    {
      r := call(attempt);
      calls := calls + 1;
      if r.Returned? {
        return;
      }
      if attempt == maxRetries - 1 {
        return;
      }
      sleeps := sleeps + 1;
      attempt := attempt + 1;
    }
    r := Returned(VNone);
  }
}

=== FILE: device_pool.dfy ===
/**
 * The device pool of `rpa/utils/device_manager.py`: a table from device id (an address or serial)
 * to its status and last heartbeat, the allocation and release operations that workers call, and
 * one sequential round of each of the three background loops (health check, reconciliation
 * against the declared device lists, quarantine sweep).
 *
 * The connectivity probe (`u2.connect` followed by reading `d.info`) is the oracle `up`, fixed for
 * the duration of one call; the clock is the integer `now`.
 */
module DevicePool {
  import opened Wrappers
  import Text

  datatype Status = Unavailable | Available | Busy | Allocating

  /** The integer constants of the source's `DeviceStatus`. */
  function StatusCode(s: Status): (c: int)
    ensures 0 <= c <= 3
    ensures c == 0 <==> s == Unavailable
    ensures c == 1 <==> s == Available
    ensures c == 2 <==> s == Busy
  {
    match s
    case Unavailable => 0
    case Available => 1
    case Busy => 2
    case Allocating => 3
  }

  /** One pool entry: `(status, last_heartbeat)`. */
  datatype Entry = Entry(status: Status, heartbeat: int)

  type Pool = map<string, Entry>

  /** Stripped, non-empty pieces of a comma-separated id list. */
  predicate IsId(s: string) {
    s != "" && Text.Strip(s) == s
  }

  /** `[ip.strip() for ip in s.split(',') if ip.strip()]` */
  function ParseIds(csv: string): (ids: seq<string>)
    ensures forall i :: 0 <= i < |ids| ==> IsId(ids[i])
  {
    KeepIds(Text.Split(csv, ","))
  }

  function KeepIds(parts: seq<string>): (ids: seq<string>)
    ensures |ids| <= |parts|
    ensures forall i :: 0 <= i < |ids| ==> IsId(ids[i])
  {
    if parts == [] then []
    else
      var t := Text.Strip(parts[0]);
      StripIdempotent(parts[0]);
      (if t != "" then [t] else []) + KeepIds(parts[1..])
  }

  lemma StripIdempotent(s: string)
    ensures Text.Strip(Text.Strip(s)) == Text.Strip(s)
  {
    var t := Text.Strip(s);
    if t != [] {
      Text.StripUnchanged(t, Text.Whitespace);
    }
  }

  /** No device is caught between the two phases of a claim. */
  ghost predicate Settled(pool: Pool) {
    forall d :: d in pool ==> pool[d].status != Allocating
  }

  /** The only entries that may still be `Allocating` after a call are those that were before it. */
  ghost predicate NoNewAllocating(before: Pool, after: Pool) {
    forall d :: d in after && after[d].status == Allocating ==> d in before && before[d].status == Allocating
  }

  /** Entries of ids outside `ids` are neither added, removed nor changed. */
  ghost predicate SameOutside(before: Pool, after: Pool, ids: seq<string>) {
    forall d :: d !in ids ==> (d in after <==> d in before) && (d in before ==> after[d] == before[d])
  }

  // ---------------------------------------------------------------------------------------------
  // Specification of get_available_device

  /** The first pass: the first candidate that is in the pool, `Available`, and answers the probe. */
  function FirstPass(pool: Pool, ids: seq<string>, up: string -> bool, now: int): (Option<string>, Pool)
    decreases |ids|
  {
    if ids == [] then (None, pool)
    else
      var d := ids[0];
      if d in pool && pool[d].status == Available then
        if up(d) then (Some(d), pool[d := Entry(Busy, now)])
        else FirstPass(pool[d := Entry(Unavailable, now)], ids[1..], up, now)
      else FirstPass(pool, ids[1..], up, now)
  }

  /** The second pass: unknown candidates are added; any that is not `Busy`/`Allocating` is tried. */
  function SecondPass(pool: Pool, ids: seq<string>, up: string -> bool, now: int): (Option<string>, Pool)
    decreases |ids|
  {
    if ids == [] then (None, pool)
    else
      var d := ids[0];
      var p := if d in pool then pool else pool[d := Entry(Unavailable, now)];
      if p[d].status != Busy && p[d].status != Allocating then
        if up(d) then (Some(d), p[d := Entry(Busy, now)])
        else SecondPass(p[d := Entry(Unavailable, now)], ids[1..], up, now)
      else SecondPass(p, ids[1..], up, now)
  }

  /** What `get_available_device` returns and what the pool is afterwards. */
  function Claim(pool: Pool, ids: seq<string>, up: string -> bool, now: int): (Option<string>, Pool) {
    var (r, p) := FirstPass(pool, ids, up, now);
    if r.Some? then (r, p) else SecondPass(p, ids, up, now)
  }

  /** The pool after `release_device`. */
  function Released(pool: Pool, d: string, up: string -> bool, now: int): Pool {
    if d in pool && up(d) then pool[d := Entry(Available, now)] else pool
  }

  // ---------------------------------------------------------------------------------------------
  // Lemmas about the first pass

  /** The first pass returns a candidate it found `Available` and reachable, now `Busy`. */
  lemma {:induction false} FirstPassClaims(pool: Pool, ids: seq<string>, up: string -> bool, now: int)
    ensures var (r, p) := FirstPass(pool, ids, up, now);
      && p.Keys == pool.Keys
      && (r.Some? ==> r.value in ids && r.value in pool && pool[r.value].status == Available
                      && up(r.value) && p[r.value] == Entry(Busy, now))
      && SameOutside(pool, p, ids)
      && NoNewAllocating(pool, p)
      && (r.None? ==> forall d :: d in ids && d in pool ==> p[d].status != Available)
      && (forall d :: d in pool && p[d] != pool[d] ==> pool[d].status == Available)
    decreases |ids|
  {
    if ids != [] {
      var d := ids[0];
      if d in pool && pool[d].status == Available {
        if !up(d) {
          var q := pool[d := Entry(Unavailable, now)];
          FirstPassClaims(q, ids[1..], up, now);
          FirstPassUntouched(q, ids[1..], up, now, d);
        }
      } else {
        FirstPassClaims(pool, ids[1..], up, now);
      }
    }
  }

  /** An entry that is not `Available` is never touched by the first pass. */
  lemma {:induction false} FirstPassUntouched(pool: Pool, ids: seq<string>, up: string -> bool, now: int, d: string)
    requires d in pool && pool[d].status != Available
    ensures var (r, p) := FirstPass(pool, ids, up, now); d in p && p[d] == pool[d] && r != Some(d)
    decreases |ids|
  {
    if ids != [] {
      var e := ids[0];
      if e in pool && pool[e].status == Available {
        if !up(e) {
          FirstPassUntouched(pool[e := Entry(Unavailable, now)], ids[1..], up, now, d);
        }
      } else {
        FirstPassUntouched(pool, ids[1..], up, now, d);
      }
    }
  }

  /** A candidate that answered the probe and was `Available` at the start. */
  ghost predicate Claimable(pool: Pool, d: string, up: string -> bool) {
    d in pool && pool[d].status == Available && up(d)
  }

  /**
   * The first candidate, in list order, that is `Available` and answers the probe is the one the
   * first pass returns; every earlier `Available` candidate has been marked `Unavailable`, and no
   * entry other than those candidates changes.
   */
  lemma {:induction false} FirstPassPicksFirst(pool: Pool, ids: seq<string>, up: string -> bool, now: int, i: nat)
    requires i < |ids| && Claimable(pool, ids[i], up)
    requires forall j :: 0 <= j < i ==> !Claimable(pool, ids[j], up)
    ensures var (r, p) := FirstPass(pool, ids, up, now);
      && r == Some(ids[i])
      && p.Keys == pool.Keys
      && p[ids[i]] == Entry(Busy, now)
      && (forall j :: 0 <= j < i && ids[j] in pool && pool[ids[j]].status == Available ==>
            p[ids[j]] == Entry(Unavailable, now))
      && SameOutside(pool, p, ids[..i + 1])
    decreases i
  {
    var d := ids[0];
    if i > 0 {
      assert ids[1..][..i] == ids[1..i + 1];
      assert ids[1..][i - 1] == ids[i];
      if d in pool && pool[d].status == Available {
        assert !up(d);
        var q := pool[d := Entry(Unavailable, now)];
        forall j | 0 <= j < i - 1 ensures !Claimable(q, ids[1..][j], up) {
          assert ids[1..][j] == ids[j + 1];
          assert !Claimable(pool, ids[j + 1], up);
        }
        FirstPassPicksFirst(q, ids[1..], up, now, i - 1);
        var (r, p) := FirstPass(q, ids[1..], up, now);
        FirstPassUntouched(q, ids[1..], up, now, d);
        forall j | 0 <= j < i && ids[j] in pool && pool[ids[j]].status == Available
          ensures p[ids[j]] == Entry(Unavailable, now)
        {
          if j > 0 && ids[j] != d {
            assert ids[1..][j - 1] == ids[j];
            assert q[ids[j]].status == Available;
          }
        }
      } else {
        forall j | 0 <= j < i - 1 ensures !Claimable(pool, ids[1..][j], up) {
          assert ids[1..][j] == ids[j + 1];
        }
        FirstPassPicksFirst(pool, ids[1..], up, now, i - 1);
        var (r, p) := FirstPass(pool, ids[1..], up, now);
        forall j | 0 <= j < i && ids[j] in pool && pool[ids[j]].status == Available
          ensures p[ids[j]] == Entry(Unavailable, now)
        {
          assert j > 0;
          assert ids[1..][j - 1] == ids[j];
        }
      }
    }
  }

  /** The same statement for `get_available_device` as a whole. */
  lemma ClaimPicksFirst(pool: Pool, ids: seq<string>, up: string -> bool, now: int, i: nat)
    requires i < |ids| && Claimable(pool, ids[i], up)
    requires forall j :: 0 <= j < i ==> !Claimable(pool, ids[j], up)
    ensures var (r, p) := Claim(pool, ids, up, now);
      && r == Some(ids[i])
      && p.Keys == pool.Keys
      && p[ids[i]] == Entry(Busy, now)
      && (forall j :: 0 <= j < i && ids[j] in pool && pool[ids[j]].status == Available ==>
            p[ids[j]] == Entry(Unavailable, now))
      && SameOutside(pool, p, ids[..i + 1])
  {
    FirstPassPicksFirst(pool, ids, up, now, i);
  }

  // ---------------------------------------------------------------------------------------------
  // Lemmas about the second pass and the whole claim

  /** The second pass: what it returns was reachable and not `Busy`/`Allocating` when it was tried. */
  lemma {:induction false} SecondPassClaims(pool: Pool, ids: seq<string>, up: string -> bool, now: int)
    ensures var (r, p) := SecondPass(pool, ids, up, now);
      && (forall d :: d in p <==> d in pool || (d in ids && d in p))
      && (r.Some? ==> r.value in ids && up(r.value) && r.value in p && p[r.value] == Entry(Busy, now)
                      && (r.value in pool ==> pool[r.value].status != Busy && pool[r.value].status != Allocating))
      && SameOutside(pool, p, ids)
      && NoNewAllocating(pool, p)
      && (r.None? ==> forall d :: d in ids ==> d in p && p[d].status != Available)
      && (forall d :: d in pool && (pool[d].status == Busy || pool[d].status == Allocating) ==> p[d] == pool[d])
    decreases |ids|
  {
    if ids != [] {
      var d := ids[0];
      var q := if d in pool then pool else pool[d := Entry(Unavailable, now)];
      if q[d].status != Busy && q[d].status != Allocating {
        if !up(d) {
          SecondPassClaims(q[d := Entry(Unavailable, now)], ids[1..], up, now);
        }
      } else {
        SecondPassClaims(q, ids[1..], up, now);
      }
    }
  }

  /** A candidate the second pass tries: unknown, or known and neither `Busy` nor `Allocating`. */
  predicate Tryable(pool: Pool, d: string) {
    d !in pool || (pool[d].status != Busy && pool[d].status != Allocating)
  }

  /** A first pass that returns nothing keeps the pool's ids and changes no candidate's tryability. */
  lemma {:induction false} FirstPassNoneTryable(pool: Pool, ids: seq<string>, up: string -> bool, now: int)
    ensures var (r, p) := FirstPass(pool, ids, up, now);
      r.None? ==> p.Keys == pool.Keys && forall d :: Tryable(p, d) <==> Tryable(pool, d)
    decreases |ids|
  {
    if ids != [] {
      var d := ids[0];
      if d in pool && pool[d].status == Available {
        if !up(d) {
          FirstPassNoneTryable(pool[d := Entry(Unavailable, now)], ids[1..], up, now);
        }
      } else {
        FirstPassNoneTryable(pool, ids[1..], up, now);
      }
    }
  }

  /** A second pass that returns nothing found no candidate both tryable and answering the probe. */
  lemma {:induction false} SecondPassNone(pool: Pool, ids: seq<string>, up: string -> bool, now: int)
    ensures SecondPass(pool, ids, up, now).0.None? ==> forall d :: d in ids ==> !(Tryable(pool, d) && up(d))
    decreases |ids|
  {
    if ids != [] {
      var d := ids[0];
      var q := if d in pool then pool else pool[d := Entry(Unavailable, now)];
      if q[d].status != Busy && q[d].status != Allocating {
        if !up(d) {
          var q' := q[d := Entry(Unavailable, now)];
          SecondPassNone(q', ids[1..], up, now);
          assert forall e :: e != d ==> (Tryable(q', e) <==> Tryable(pool, e));
          assert forall e :: e in ids ==> e == d || e in ids[1..];
        }
      } else {
        SecondPassNone(q, ids[1..], up, now);
        assert forall e :: e in ids ==> e == d || e in ids[1..];
      }
    }
  }

  /**
   * The first candidate, in list order, that is tryable and answers the probe is the one the
   * second pass returns, now `Busy`; every earlier tryable candidate ends `Unavailable`, and no
   * entry of another id changes.
   */
  lemma {:induction false} SecondPassPicksFirst(pool: Pool, ids: seq<string>, up: string -> bool, now: int, i: nat)
    requires i < |ids| && Tryable(pool, ids[i]) && up(ids[i])
    requires forall j :: 0 <= j < i ==> !(Tryable(pool, ids[j]) && up(ids[j]))
    ensures var (r, p) := SecondPass(pool, ids, up, now);
      && r == Some(ids[i])
      && ids[i] in p && p[ids[i]] == Entry(Busy, now)
      && (forall j :: 0 <= j < i && Tryable(pool, ids[j]) ==> ids[j] in p && p[ids[j]] == Entry(Unavailable, now))
      && SameOutside(pool, p, ids[..i + 1])
    decreases i, 2
  {
    if i > 0 {
      if Tryable(pool, ids[0]) {
        SecondPassTriesFirst(pool, ids, up, now, i);
      } else {
        SecondPassSkipsFirst(pool, ids, up, now, i);
      }
    }
  }

  /** `SecondPassPicksFirst` when the first candidate is tried, fails the probe and is marked `Unavailable`. */
  lemma {:induction false} SecondPassTriesFirst(pool: Pool, ids: seq<string>, up: string -> bool, now: int, i: nat)
    requires 0 < i < |ids| && Tryable(pool, ids[i]) && up(ids[i]) && Tryable(pool, ids[0])
    requires forall j :: 0 <= j < i ==> !(Tryable(pool, ids[j]) && up(ids[j]))
    ensures var (r, p) := SecondPass(pool, ids, up, now);
      && r == Some(ids[i])
      && ids[i] in p && p[ids[i]] == Entry(Busy, now)
      && (forall j :: 0 <= j < i && Tryable(pool, ids[j]) ==> ids[j] in p && p[ids[j]] == Entry(Unavailable, now))
      && SameOutside(pool, p, ids[..i + 1])
    decreases i, 1
  {
    var d := ids[0];
    assert !up(d);
    var q' := pool[d := Entry(Unavailable, now)];
    var q := if d in pool then pool else pool[d := Entry(Unavailable, now)];
    assert q[d := Entry(Unavailable, now)] == q';
    assert SecondPass(pool, ids, up, now) == SecondPass(q', ids[1..], up, now);
    assert ids[1..][..i] == ids[1..i + 1];
    assert ids[1..][i - 1] == ids[i];
    assert forall e :: e != d ==> (Tryable(q', e) <==> Tryable(pool, e));
    forall j | 0 <= j < i - 1 ensures !(Tryable(q', ids[1..][j]) && up(ids[1..][j])) {
      assert ids[1..][j] == ids[j + 1];
    }
    SecondPassPicksFirst(q', ids[1..], up, now, i - 1);
    var p := SecondPass(q', ids[1..], up, now).1;
    TriedEndsUnavailable(q', ids[1..], i - 1, p, d, now);
    forall j | 0 < j < i && Tryable(pool, ids[j]) ensures ids[j] in p && p[ids[j]] == Entry(Unavailable, now) {
      assert ids[1..][j - 1] == ids[j];
    }
    assert ids[..i + 1] == [d] + ids[1..i + 1];
  }

  /** `SecondPassPicksFirst` when the first candidate is `Busy` or `Allocating` and is passed over. */
  lemma {:induction false} SecondPassSkipsFirst(pool: Pool, ids: seq<string>, up: string -> bool, now: int, i: nat)
    requires 0 < i < |ids| && Tryable(pool, ids[i]) && up(ids[i]) && !Tryable(pool, ids[0])
    requires forall j :: 0 <= j < i ==> !(Tryable(pool, ids[j]) && up(ids[j]))
    ensures var (r, p) := SecondPass(pool, ids, up, now);
      && r == Some(ids[i])
      && ids[i] in p && p[ids[i]] == Entry(Busy, now)
      && (forall j :: 0 <= j < i && Tryable(pool, ids[j]) ==> ids[j] in p && p[ids[j]] == Entry(Unavailable, now))
      && SameOutside(pool, p, ids[..i + 1])
    decreases i, 1
  {
    assert SecondPass(pool, ids, up, now) == SecondPass(pool, ids[1..], up, now);
    assert ids[1..][..i] == ids[1..i + 1];
    assert ids[1..][i - 1] == ids[i];
    forall j | 0 <= j < i - 1 ensures !(Tryable(pool, ids[1..][j]) && up(ids[1..][j])) {
      assert ids[1..][j] == ids[j + 1];
    }
    SecondPassPicksFirst(pool, ids[1..], up, now, i - 1);
    var p := SecondPass(pool, ids[1..], up, now).1;
    forall j | 0 < j < i && Tryable(pool, ids[j]) ensures ids[j] in p && p[ids[j]] == Entry(Unavailable, now) {
      assert ids[1..][j - 1] == ids[j];
    }
    assert ids[..i + 1] == [ids[0]] + ids[1..i + 1];
  }

  /**
   * A candidate marked `Unavailable` before the rest of the second pass still is afterwards: either
   * its id is not tried again, or it is tried again and fails once more.
   */
  lemma TriedEndsUnavailable(q: Pool, rest: seq<string>, i: nat, p: Pool, d: string, now: int)
    requires i < |rest| && d in q && q[d] == Entry(Unavailable, now) && rest[i] != d
    requires SameOutside(q, p, rest[..i + 1])
    requires forall j :: 0 <= j < i && Tryable(q, rest[j]) ==> rest[j] in p && p[rest[j]] == Entry(Unavailable, now)
    ensures d in p && p[d] == Entry(Unavailable, now)
  {
    if d in rest[..i + 1] {
      var k :| 0 <= k < i + 1 && rest[..i + 1][k] == d;
      assert rest[k] == d && Tryable(q, rest[k]);
    }
  }

  /**
   * When no candidate is `Available` and answering the probe, `get_available_device` returns the
   * first candidate that is tryable and answers the probe, now `Busy`.
   */
  lemma ClaimFallsBack(pool: Pool, ids: seq<string>, up: string -> bool, now: int, i: nat)
    requires forall j :: 0 <= j < |ids| ==> !Claimable(pool, ids[j], up)
    requires i < |ids| && Tryable(pool, ids[i]) && up(ids[i])
    requires forall j :: 0 <= j < i ==> !(Tryable(pool, ids[j]) && up(ids[j]))
    ensures var (r, p) := Claim(pool, ids, up, now);
      r == Some(ids[i]) && ids[i] in p && p[ids[i]] == Entry(Busy, now)
  {
    FirstPassClaims(pool, ids, up, now);
    FirstPassNoneTryable(pool, ids, up, now);
    var (r1, p1) := FirstPass(pool, ids, up, now);
    SecondPassPicksFirst(p1, ids, up, now, i);
  }

  /**
   * `get_available_device`: a returned id is one of the candidates, it answered the probe, it was
   * not `Busy` or `Allocating` on entry, and it is `Busy` afterwards. When nothing is returned,
   * every candidate is in the pool and none is `Available`, and every candidate either failed the
   * probe or was `Busy` or `Allocating` on entry. Entries of other ids never change, and
   * the call leaves no new entry `Allocating`.
   */
  lemma ClaimSpec(pool: Pool, ids: seq<string>, up: string -> bool, now: int)
    ensures var (r, p) := Claim(pool, ids, up, now);
      && (forall d :: d in p ==> d in pool || d in ids)
      && (r.Some? ==> r.value in ids && up(r.value) && r.value in p && p[r.value] == Entry(Busy, now)
                      && (r.value in pool ==> pool[r.value].status != Busy && pool[r.value].status != Allocating))
      && (r.None? ==> forall d :: d in ids ==> d in p && p[d].status != Available)
      && (r.None? ==> forall d :: d in ids ==> !up(d) || (d in pool && (pool[d].status == Busy || pool[d].status == Allocating)))
      && SameOutside(pool, p, ids)
      && NoNewAllocating(pool, p)
  {
    FirstPassClaims(pool, ids, up, now);
    var (r1, p1) := FirstPass(pool, ids, up, now);
    if r1.None? {
      SecondPassClaims(p1, ids, up, now);
      FirstPassNoneTryable(pool, ids, up, now);
      SecondPassNone(p1, ids, up, now);
    }
  }

  /** A settled pool stays settled under a claim. */
  lemma ClaimKeepsSettled(pool: Pool, ids: seq<string>, up: string -> bool, now: int)
    requires Settled(pool)
    ensures Settled(Claim(pool, ids, up, now).1)
  {
    ClaimSpec(pool, ids, up, now);
  }

  /**
   * Once a device is claimed, a second claim on it alone returns nothing: the pool never hands the
   * same device to two callers between a claim and a release.
   */
  lemma ClaimExclusive(pool: Pool, d: string, up: string -> bool, now: int, later: int)
    requires Claim(pool, [d], up, now).0 == Some(d)
    ensures Claim(Claim(pool, [d], up, now).1, [d], up, later).0 == None
  {
    ClaimSpec(pool, [d], up, now);
    var p := Claim(pool, [d], up, now).1;
    assert p[d].status == Busy;
    ClaimSpec(p, [d], up, later);
  }

  /** Claim, release, claim again: with the device reachable, the second claim returns it again. */
  lemma ClaimReleaseClaim(pool: Pool, d: string, up: string -> bool, t1: int, t2: int, t3: int)
    requires up(d)
    requires d !in pool || (pool[d].status != Busy && pool[d].status != Allocating)
    ensures Claim(pool, [d], up, t1).0 == Some(d)
    ensures var p := Released(Claim(pool, [d], up, t1).1, d, up, t2);
      Claim(p, [d], up, t3).0 == Some(d)
  {
    assert [d][1..] == [];
    if d in pool && pool[d].status == Available {
      FirstPassPicksFirst(pool, [d], up, t1, 0);
    } else {
      assert FirstPass(pool, [d], up, t1) == FirstPass(pool, [], up, t1);
    }
    var p1 := Claim(pool, [d], up, t1).1;
    ClaimSpec(pool, [d], up, t1);
    var p2 := Released(p1, d, up, t2);
    assert p2[d] == Entry(Available, t2);
    assert Claimable(p2, [d][0], up);
    ClaimPicksFirst(p2, [d], up, t3, 0);
  }

  // ---------------------------------------------------------------------------------------------
  // Specifications of the background rounds

  /** The pool after one health-check round. */
  function HealthChecked(pool: Pool, up: string -> bool, now: int): (p: Pool)
    ensures p.Keys == pool.Keys
  {
    map d | d in pool ::
      if pool[d].status == Available || pool[d].status == Unavailable then
        Entry(if up(d) then Available else Unavailable, now)
      else pool[d]
  }

  /**
   * A health-check round leaves `Busy` and `Allocating` entries as they were, sets every other
   * entry by the probe with a fresh heartbeat, and so leaves no new entry `Allocating`.
   */
  lemma HealthCheckedSpec(pool: Pool, up: string -> bool, now: int)
    ensures var p := HealthChecked(pool, up, now);
      && (forall d :: d in pool && (pool[d].status == Busy || pool[d].status == Allocating) ==> p[d] == pool[d])
      && (forall d :: d in pool && (pool[d].status == Available || pool[d].status == Unavailable) ==>
            p[d].heartbeat == now && (p[d].status == Available <==> up(d)) && (p[d].status == Unavailable <==> !up(d)))
      && NoNewAllocating(pool, p)
  {
  }

  /** The ids declared by the flow files; a file that failed to load (`None`) contributes nothing. */
  function DeclaredIds(files: seq<Option<string>>): (ids: seq<string>)
    ensures forall i :: 0 <= i < |ids| ==> IsId(ids[i])
  {
    if files == [] then []
    else (if files[0].Some? then ParseIds(files[0].value) else []) + DeclaredIds(files[1..])
  }

  /** The quarantine map after one sweep: entries older than 600 seconds are dropped. */
  function Swept(quarantine: map<string, int>, now: int): (q: map<string, int>)
    ensures forall d :: d in q <==> d in quarantine && now - quarantine[d] <= 600
    ensures forall d :: d in q ==> q[d] == quarantine[d]
  {
    map d | d in quarantine && !(now - quarantine[d] > 600) :: quarantine[d]
  }

  /** The quarantined ids whose last error is more than 600 seconds old. */
  function Expired(quarantine: map<string, int>, now: int): (ds: set<string>)
    ensures forall d :: d in ds <==> d in quarantine && now - quarantine[d] > 600
  {
    set d | d in quarantine && now - quarantine[d] > 600
  }

  /** The pool after `release_device` of every id in `ds`; releases of distinct ids touch distinct entries. */
  function ReleasedAll(pool: Pool, ds: set<string>, up: string -> bool, now: int): (p: Pool)
    ensures p.Keys == pool.Keys
  {
    map k | k in pool :: if k in ds && up(k) then Entry(Available, now) else pool[k]
  }

  /** Releasing one more id extends the set of released ids by it, in whatever order they come. */
  lemma ReleasedAllStep(pool: Pool, ds: set<string>, d: string, up: string -> bool, now: int)
    ensures Released(ReleasedAll(pool, ds, up, now), d, up, now) == ReleasedAll(pool, ds + {d}, up, now)
  {
  }

  /** Releasing no id leaves the pool as it is. */
  lemma ReleasedNone(pool: Pool, up: string -> bool, now: int)
    ensures ReleasedAll(pool, {}, up, now) == pool
  {
  }

  /**
   * As written the sweep halts after removing one of two or more expired entries: whichever it
   * removes, another expired entry stays quarantined, which a full sweep drops.
   */
  lemma SweepHaltsEarly(quarantine: map<string, int>, now: int, d: string)
    requires d in Expired(quarantine, now) && |Expired(quarantine, now)| >= 2
    ensures exists e :: e in Expired(quarantine, now) && e in quarantine - {d} && e !in Swept(quarantine, now)
  {
    var rest := Expired(quarantine, now) - {d};
    assert |rest| >= 1;
    var e :| e in rest;
  }

  /** The label `get_all_devices` shows; `Allocating` shows as "busy". */
  function StatusLabel(s: Status): (shown: string)
    ensures shown == "unavailable" <==> s == Unavailable
    ensures shown == "available" <==> s == Available
    ensures shown == "busy" <==> (s == Busy || s == Allocating)
  {
    match s
    case Unavailable => "unavailable"
    case Available => "available"
    case _ => "busy"
  }

  datatype DeviceView = DeviceView(status: string, connected: bool, lastHeartbeat: int)

  /** `get_all_devices`: one view per entry, with the seconds since its last heartbeat. */
  function AllDevices(pool: Pool, up: string -> bool, now: int): (v: map<string, DeviceView>)
    ensures v.Keys == pool.Keys
    ensures forall d :: d in v ==> v[d].connected == up(d) && v[d].lastHeartbeat == now - pool[d].heartbeat
    ensures forall d :: d in v ==> (v[d].status == "available" <==> pool[d].status == Available)
  {
    map d | d in pool :: DeviceView(StatusLabel(pool[d].status), up(d), now - pool[d].heartbeat)
  }

  // ---------------------------------------------------------------------------------------------
  // The pool object

  class DeviceManager {
    /** `_devices`: id to `(status, last_heartbeat)`. */
    var devices: Pool
    /** `_error_task_devices`: quarantined id to the time its task failed. */
    var quarantine: map<string, int>

    constructor ()
      ensures devices == map[] && quarantine == map[]
    {
      devices := map[];
      quarantine := map[];
    }

    /** `register_devices`: ids not yet in the pool are added as `Unavailable`; others keep their entry. */
    method RegisterDevices(csv: string, now: int)
      modifies this
      ensures forall d :: d in devices <==> d in old(devices) || d in ParseIds(csv)
      ensures forall d :: d in old(devices) ==> devices[d] == old(devices)[d]
      ensures forall d :: d in devices && d !in old(devices) ==> devices[d] == Entry(Unavailable, now)
      ensures quarantine == old(quarantine)
    {
      var ids := ParseIds(csv);
      AddMissing(ids, now);
    }

    /** The loop of `register_devices` (and the second loop of `_cleanup_devices`). */
    method AddMissing(ids: seq<string>, now: int)
      modifies this
      ensures forall d :: d in devices <==> d in old(devices) || d in ids
      ensures forall d :: d in old(devices) ==> devices[d] == old(devices)[d]
      ensures forall d :: d in devices && d !in old(devices) ==> devices[d] == Entry(Unavailable, now)
      ensures quarantine == old(quarantine)
    {
      for i := 0 to |ids|
        invariant forall d :: d in devices <==> d in old(devices) || d in ids[..i]
        invariant forall d :: d in old(devices) ==> devices[d] == old(devices)[d]
        invariant forall d :: d in devices && d !in old(devices) ==> devices[d] == Entry(Unavailable, now)
        invariant quarantine == old(quarantine)
      {
        assert ids[..i + 1] == ids[..i] + [ids[i]];
        if ids[i] !in devices {
          devices := devices[ids[i] := Entry(Unavailable, now)];
        }
      }
      assert ids[..|ids|] == ids;
    }

    /**
     * `get_available_device`. Each id it tries is first marked `Allocating`, then `Busy` or
     * `Unavailable` after the probe; `marked` collects them, and none is left `Allocating`.
     */
    method GetAvailableDevice(csv: string, now: int, up: string -> bool) returns (r: Option<string>, ghost marked: set<string>)
      modifies this
      ensures (r, devices) == Claim(old(devices), ParseIds(csv), up, now)
      ensures forall d :: d in marked ==> d in devices && (devices[d].status == Busy || devices[d].status == Unavailable)
      ensures quarantine == old(quarantine)
    {
      var ids := ParseIds(csv);
      r, marked := TryAvailable(ids, now, up);
      if r.None? {
        ghost var m2;
        r, m2 := TryAny(ids, now, up);
        marked := marked + m2;
      }
    }

    /** The first pass of `get_available_device` (lines 146-159). */
    method TryAvailable(ids: seq<string>, now: int, up: string -> bool) returns (r: Option<string>, ghost marked: set<string>)
      modifies this
      ensures (r, devices) == FirstPass(old(devices), ids, up, now)
      ensures forall d :: d in marked ==> d in devices && (devices[d].status == Busy || devices[d].status == Unavailable)
      ensures quarantine == old(quarantine)
    {
      marked := {};
      for i := 0 to |ids|
        invariant FirstPass(old(devices), ids, up, now) == FirstPass(devices, ids[i..], up, now)
        invariant forall d :: d in marked ==> d in devices && (devices[d].status == Busy || devices[d].status == Unavailable)
        invariant quarantine == old(quarantine)
      {
        var d := ids[i];
        ghost var before := devices;
        assert ids[i..][0] == d && ids[i..][1..] == ids[i + 1..];
        if d in devices {
          var status := devices[d].status;
          if status == Available {
            devices := devices[d := Entry(Allocating, now)];
            marked := marked + {d};
            if up(d) {
              devices := devices[d := Entry(Busy, now)];
              assert devices == before[d := Entry(Busy, now)];
              r := Some(d);
              return;
            } else {
              devices := devices[d := Entry(Unavailable, now)];
              assert devices == before[d := Entry(Unavailable, now)];
            }
          }
        }
      }
      assert ids[|ids|..] == [];
      r := None;
    }

    /** The second pass of `get_available_device` (lines 162-176). */
    method TryAny(ids: seq<string>, now: int, up: string -> bool) returns (r: Option<string>, ghost marked: set<string>)
      modifies this
      ensures (r, devices) == SecondPass(old(devices), ids, up, now)
      ensures forall d :: d in marked ==> d in devices && (devices[d].status == Busy || devices[d].status == Unavailable)
      ensures forall d :: d in old(devices) && d !in marked ==> d in devices && devices[d] == old(devices)[d]
      ensures quarantine == old(quarantine)
    {
      marked := {};
      for i := 0 to |ids|
        invariant SecondPass(old(devices), ids, up, now) == SecondPass(devices, ids[i..], up, now)
        invariant forall d :: d in marked ==> d in devices && (devices[d].status == Busy || devices[d].status == Unavailable)
        invariant forall d :: d in old(devices) && d !in marked ==> d in devices && devices[d] == old(devices)[d]
        invariant quarantine == old(quarantine)
      {
        var d := ids[i];
        assert ids[i..][0] == d && ids[i..][1..] == ids[i + 1..];
        if d !in devices {
          devices := devices[d := Entry(Unavailable, now)];
        }
        ghost var before := devices;
        var status := devices[d].status;
        if status != Busy && status != Allocating {
          devices := devices[d := Entry(Allocating, now)];
          marked := marked + {d};
          if up(d) {
            devices := devices[d := Entry(Busy, now)];
            assert devices == before[d := Entry(Busy, now)];
            r := Some(d);
            return;
          } else {
            devices := devices[d := Entry(Unavailable, now)];
            assert devices == before[d := Entry(Unavailable, now)];
          }
        }
      }
      assert ids[|ids|..] == [];
      r := None;
    }

    /** `release_device`: a known id that answers the probe becomes `Available`; otherwise nothing changes. */
    method ReleaseDevice(d: string, now: int, up: string -> bool)
      modifies this
      ensures devices == Released(old(devices), d, up, now)
      ensures d in old(devices) && up(d) ==> devices == old(devices)[d := Entry(Available, now)]
      ensures d !in old(devices) || !up(d) ==> devices == old(devices)
      ensures quarantine == old(quarantine)
    {
      if d in devices {
        if up(d) {
          devices := devices[d := Entry(Available, now)];
        }
      }
    }

    /** `add_error_task_device`: the id is quarantined from `now`; the pool itself is untouched. */
    method AddErrorTaskDevice(d: string, now: int)
      modifies this
      ensures quarantine == old(quarantine)[d := now]
      ensures devices == old(devices)
    {
      quarantine := quarantine[d := now];
    }

    /**
     * One round of `_check_devices_health`: `Available` and `Unavailable` entries take the probe's
     * answer and a fresh heartbeat; `Busy` and `Allocating` entries are left alone.
     */
    method HealthRound(now: int, up: string -> bool)
      modifies this
      ensures devices == HealthChecked(old(devices), up, now)
      ensures quarantine == old(quarantine)
    {
      var snapshot := devices;
      var todo := snapshot.Keys;
      while todo != {}
        invariant todo <= snapshot.Keys == devices.Keys
        invariant forall d :: d in snapshot && d !in todo ==> devices[d] == HealthChecked(snapshot, up, now)[d]
        invariant forall d :: d in todo ==> devices[d] == snapshot[d]
        invariant quarantine == old(quarantine) && snapshot == old(devices)
        decreases todo
      {
        var d :| d in todo;
        var status := snapshot[d].status;
        if status == Allocating {
          // skipped: a claim is in progress
        } else if status == Available || status == Unavailable {
          if !up(d) {
            devices := devices[d := Entry(Unavailable, now)];
          } else {
            devices := devices[d := Entry(Available, now)];
          }
        }
        todo := todo - {d};
      }
    }

    /**
     * One round of `_cleanup_devices`: afterwards the pool holds exactly the declared ids; entries
     * that survive keep status and heartbeat, and newly declared ids enter as `Unavailable`.
     */
    method ReconcileRound(files: seq<Option<string>>, now: int)
      modifies this
      ensures forall d :: d in devices <==> d in DeclaredIds(files)
      ensures forall d :: d in devices && d in old(devices) ==> devices[d] == old(devices)[d]
      ensures forall d :: d in devices && d !in old(devices) ==> devices[d] == Entry(Unavailable, now)
      ensures quarantine == old(quarantine)
    {
      var valid := DeclaredIds(files);
      RemoveUndeclared(valid);
      AddMissing(valid, now);
    }

    /** The first loop of `_cleanup_devices`: ids no file declares leave the pool. */
    method RemoveUndeclared(valid: seq<string>)
      modifies this
      ensures forall d :: d in devices <==> d in old(devices) && d in valid
      ensures forall d :: d in devices ==> devices[d] == old(devices)[d]
      ensures quarantine == old(quarantine)
    {
      var current := devices.Keys;
      var todo := current;
      while todo != {}
        invariant todo <= current
        invariant forall d :: d in devices <==> d in current && (d in todo || d in valid)
        invariant forall d :: d in devices ==> devices[d] == old(devices)[d]
        invariant current == old(devices).Keys && quarantine == old(quarantine)
        decreases todo
      {
        var d :| d in todo;
        if d !in valid {
          devices := map k | k in devices && k != d :: devices[k];
        }
        todo := todo - {d};
      }
    }

    /**
     * One round of `_cleanup_error_tasks` as written: the first expired entry is deleted, then
     * `with self._devices:` raises because a manager's dict proxy is no context manager, so no
     * device is released and the cleanup thread ends (`halted`). Key order is not modelled, so
     * the entry deleted is any expired one.
     */
    method SweepRoundAsWritten(now: int) returns (halted: bool)
      modifies this
      ensures halted <==> Expired(old(quarantine), now) != {}
      ensures halted ==> exists d :: d in Expired(old(quarantine), now) && quarantine == old(quarantine) - {d}
      ensures !halted ==> quarantine == old(quarantine)
      ensures devices == old(devices)
    {
      var keys := quarantine.Keys;
      var todo := keys;
      while todo != {}
        invariant todo <= keys && keys == old(quarantine).Keys
        invariant quarantine == old(quarantine) && devices == old(devices)
        invariant forall d :: d in keys - todo ==> d !in Expired(old(quarantine), now)
        decreases todo
      {
        var d :| d in todo;
        var lastError := if d in quarantine then quarantine[d] else 0;
        if now - lastError > 600 {
          if d in quarantine {
            quarantine := quarantine - {d};
          }
          return true;
        }
        todo := todo - {d};
      }
      halted := false;
    }

    /**
     * One round of `_cleanup_error_tasks` as intended: every expired entry is deleted and its
     * device released; the entries that are not expired stay.
     */
    method SweepRound(now: int, up: string -> bool)
      modifies this
      ensures quarantine == Swept(old(quarantine), now)
      ensures devices == ReleasedAll(old(devices), Expired(old(quarantine), now), up, now)
    {
      var keys := quarantine.Keys;
      var todo := keys;
      ReleasedNone(devices, up, now);
      while todo != {}
        invariant todo <= keys
        invariant forall d :: d in quarantine <==> d in keys && (d in todo || now - old(quarantine)[d] <= 600)
        invariant forall d :: d in quarantine ==> quarantine[d] == old(quarantine)[d]
        invariant keys == old(quarantine).Keys
        invariant devices == ReleasedAll(old(devices), Expired(old(quarantine), now) - todo, up, now)
        decreases todo
      {
        var d :| d in todo;
        var lastError := if d in quarantine then quarantine[d] else 0;
        if now - lastError > 600 {
          if d in quarantine {
            quarantine := map k | k in quarantine && k != d :: quarantine[k];
          }
          ReleasedAllStep(old(devices), Expired(old(quarantine), now) - todo, d, up, now);
          ReleaseDevice(d, now, up);
          assert Expired(old(quarantine), now) - todo + {d} == Expired(old(quarantine), now) - (todo - {d});
        } else {
          assert Expired(old(quarantine), now) - todo == Expired(old(quarantine), now) - (todo - {d});
        }
        todo := todo - {d};
      }
    }

    /** `get_all_devices` */
    function AllDeviceViews(now: int, up: string -> bool): map<string, DeviceView>
      reads this
    {
      AllDevices(devices, up, now)
    }
  }
}

=== FILE: find_node_path.dfy ===
/**
 * The path-finding tool: given a UI tree and a text, it lists the nodes whose `text` or
 * `content-desc` equals or contains that text, computes the index path of each, and formats the
 * parameters `GetNodeByPathAction` takes to find that node again.
 */
module FindNodePath {
  import opened Wrappers
  import opened PyValue
  import opened UiTree
  import Text
  import NodeActions

  // ---------------------------------------------------------------------------------------------
  // get_node_path

  /** `int(node.get('index', 0))`: a missing index counts as 0; `None` for a non-integer one. */
  function IndexOf(n: XNode): Option<int> {
    if "index" in n.attrs then Text.ParseInt(n.attrs["index"]) else Some(0)
  }

  /** The indices of a run of nodes, or `None` when one of them is not an integer. */
  function Indices(ns: seq<XNode>): (r: Option<seq<int>>)
    ensures r.Some? <==> forall k :: 0 <= k < |ns| ==> IndexOf(ns[k]).Some?
    ensures r.Some? ==> |r.value| == |ns| && forall k :: 0 <= k < |ns| ==> IndexOf(ns[k]) == Some(r.value[k])
  {
    if ns == [] then Some([])
    else
      var head, rest := IndexOf(ns[0]), Indices(ns[1..]);
      assert forall k :: 1 <= k < |ns| ==> ns[k] == ns[1..][k - 1];
      if head.None? || rest.None? then None
      else Some([head.value] + rest.value)
  }

  /**
   * `get_node_path` for the node at `pos` below `root`: the indices of the nodes from just below
   * the root down to the node, top-down, with the outermost one dropped; `None` stands for the
   * `ValueError` of an index attribute that is not an integer.
   */
  function NodePath(root: XNode, pos: seq<nat>): (r: Option<seq<int>>)
    requires At(root, pos).Some?
    ensures pos == [] ==> r == Some([])
    ensures r.Some? <==> forall k :: 0 <= k < |pos| ==> IndexOf(Chain(root, pos)[k]).Some?
    ensures r.Some? ==> |r.value| == if pos == [] then 0 else |pos| - 1
    ensures r.Some? ==> forall k :: 0 <= k < |r.value| ==> IndexOf(Chain(root, pos)[k + 1]) == Some(r.value[k])
  {
    match Indices(Chain(root, pos))
    case None =>
      assert exists k :: 0 <= k < |pos| && IndexOf(Chain(root, pos)[k]).None?;
      None
    case Some(xs) => if xs == [] then Some([]) else Some(xs[1..])
  }

  /** The loop of `get_node_path`: climb from the node to the root, inserting each index in front. */
  method GetNodePath(root: XNode, pos: seq<nat>) returns (r: Option<seq<int>>)
    requires At(root, pos).Some?
    ensures r == NodePath(root, pos)
  {
    var chain := Chain(root, pos);
    var path: seq<int> := [];
    var d := |chain|;
    while d > 0
      invariant 0 <= d <= |chain|
      invariant Indices(chain[d..]) == Some(path)
    {
      assert chain[d - 1..][1..] == chain[d..];
      var index := IndexOf(chain[d - 1]);
      if index.None? {
        return None;
      }
      path := [index.value] + path;
      d := d - 1;
    }
    assert chain[0..] == chain;
    if path != [] {
      path := path[1..];
    }
    return Some(path);
  }

  // ---------------------------------------------------------------------------------------------
  // find_nodes_by_text

  datatype Kind = Exact | Contains

  /** `(node, attribute, value, match_type)` */
  datatype Match = Match(node: XNode, attribute: string, value: string, kind: Kind)

  /** One attribute checked against the text: equal is an exact match, containing it a contains match. */
  function Check(n: XNode, attribute: string, text: string): (r: seq<Match>)
    ensures |r| <= 1
    ensures r != [] <==> Text.Contains(Attr(n, attribute, ""), text)
    ensures forall m :: m in r ==> m.node == n && m.attribute == attribute && m.value == Attr(n, attribute, "")
    ensures forall m :: m in r ==> (m.kind == Exact <==> m.value == text)
  {
    var v := Attr(n, attribute, "");
    assert v == text ==> Text.StartsWith(v, text);
    if v == text then [Match(n, attribute, v, Exact)]
    else if Text.Contains(v, text) then [Match(n, attribute, v, Contains)]
    else []
  }

  /** The entries one node contributes: at most one for `text`, then at most one for `content-desc`. */
  function NodeMatches(n: XNode, text: string): (r: seq<Match>)
    ensures |r| <= 2
    ensures forall i :: 0 <= i < |r| ==> r[i].attribute == "text" || r[i].attribute == "content-desc"
    ensures forall i, j :: 0 <= i < j < |r| ==> r[i].attribute != r[j].attribute
  {
    Check(n, "text", text) + Check(n, "content-desc", text)
  }

  /** The entries of a run of nodes, node by node. */
  function AllMatches(ns: seq<XNode>, text: string): seq<Match>
    decreases |ns|
  {
    if ns == [] then [] else AllMatches(ns[..|ns| - 1], text) + NodeMatches(ns[|ns| - 1], text)
  }

  /** The nodes tagged `node` in a run. */
  function Tagged(ns: seq<XNode>, tag: string): (r: seq<XNode>)
    ensures forall i :: 0 <= i < |r| ==> r[i].tag == tag && r[i] in ns
  {
    if ns == [] then [] else (if ns[0].tag == tag then [ns[0]] else []) + Tagged(ns[1..], tag)
  }

  /** `root.findall(".//node")` */
  function NodeElements(root: XNode): seq<XNode> {
    Tagged(Descendants(root), "node")
  }

  /** The entries of one kind, in their order. */
  function OfKind(ms: seq<Match>, k: Kind): (r: seq<Match>)
    ensures |r| <= |ms|
    ensures forall i :: 0 <= i < |r| ==> r[i].kind == k
    decreases |ms|
  {
    if ms == [] then []
    else OfKind(ms[..|ms| - 1], k) + (if ms[|ms| - 1].kind == k then [ms[|ms| - 1]] else [])
  }

  /** The exact entries, then the contains entries. */
  function Ranked(ms: seq<Match>): (r: seq<Match>)
    ensures forall i, j :: 0 <= i < j < |r| && r[j].kind == Exact ==> r[i].kind == Exact
  {
    OfKind(ms, Exact) + OfKind(ms, Contains)
  }

  /** One more node adds its own entries at the end. */
  lemma AllMatchesSnoc(ns: seq<XNode>, n: XNode, text: string)
    ensures AllMatches(ns + [n], text) == AllMatches(ns, text) + NodeMatches(n, text)
  {
    assert (ns + [n])[..|ns|] == ns;
  }

  /** The matching loop of `find_nodes_by_text`, appending the text entry, then the content-desc entry. */
  method CollectMatches(nodes: seq<XNode>, text: string) returns (results: seq<Match>)
    ensures results == AllMatches(nodes, text)
  {
    results := [];
    for i := 0 to |nodes|
      invariant results == AllMatches(nodes[..i], text)
    {
      var before := results;
      results := results + Check(nodes[i], "text", text);
      results := results + Check(nodes[i], "content-desc", text);
      assert results == before + NodeMatches(nodes[i], text);
      assert nodes[..i + 1] == nodes[..i] + [nodes[i]];
      AllMatchesSnoc(nodes[..i], nodes[i], text);
    }
    assert nodes[..|nodes|] == nodes;
  }

  /** `find_nodes_by_text`: the matching loop, then exact matches before contains matches. */
  method FindNodesByText(root: XNode, text: string) returns (r: seq<Match>)
    ensures r == Ranked(AllMatches(NodeElements(root), text))
  {
    var results := CollectMatches(NodeElements(root), text);
    r := OfKind(results, Exact) + OfKind(results, Contains);
  }

  /**
   * Every entry names a node of the run, one of the two attributes and that attribute's value; an
   * exact entry's value is the text, a contains entry's value holds the text and differs from it.
   */
  lemma {:induction false} MatchesSound(ns: seq<XNode>, text: string)
    ensures forall m :: m in AllMatches(ns, text) ==>
      && m.node in ns
      && (m.attribute == "text" || m.attribute == "content-desc")
      && m.value == Attr(m.node, m.attribute, "")
      && (m.kind == Exact ==> m.value == text)
      && (m.kind == Contains ==> Text.Contains(m.value, text) && m.value != text)
    decreases |ns|
  {
    if ns != [] {
      var init, last := ns[..|ns| - 1], ns[|ns| - 1];
      MatchesSound(init, text);
      forall m | m in AllMatches(ns, text)
        ensures m.node in ns
        ensures m.attribute == "text" || m.attribute == "content-desc"
        ensures m.value == Attr(m.node, m.attribute, "")
        ensures m.kind == Exact ==> m.value == text
        ensures m.kind == Contains ==> Text.Contains(m.value, text) && m.value != text
      {
        if m in AllMatches(init, text) {
          assert m.node in init;
        } else {
          assert m in Check(last, "text", text) || m in Check(last, "content-desc", text);
        }
      }
    }
  }

  /** Filtering by kind distributes over concatenation. */
  lemma {:induction false} OfKindAppend(a: seq<Match>, b: seq<Match>, k: Kind)
    ensures OfKind(a + b, k) == OfKind(a, k) + OfKind(b, k)
    decreases |b|
  {
    if b == [] {
      assert a + b == a;
    } else {
      var b', last := b[..|b| - 1], b[|b| - 1];
      var tail := if last.kind == k then [last] else [];
      calc {
        OfKind(a + b, k);
        { assert a + b == (a + b') + [last]; OfKindSnoc(a + b', last, k); }
        OfKind(a + b', k) + tail;
        { OfKindAppend(a, b', k); }
        (OfKind(a, k) + OfKind(b', k)) + tail;
        OfKind(a, k) + (OfKind(b', k) + tail);
        { assert b' + [last] == b; OfKindSnoc(b', last, k); }
        OfKind(a, k) + OfKind(b, k);
      }
    }
  }

  /** Filtering a run with one more entry at its end. */
  lemma OfKindSnoc(ms: seq<Match>, m: Match, k: Kind)
    ensures OfKind(ms + [m], k) == OfKind(ms, k) + (if m.kind == k then [m] else [])
  {
    assert (ms + [m])[..|ms|] == ms;
  }

  /** Filtering a filtered run again keeps it whole for its own kind and empties it for the other. */
  lemma {:induction false} OfKindTwice(ms: seq<Match>, k: Kind, k': Kind)
    ensures OfKind(OfKind(ms, k), k') == if k == k' then OfKind(ms, k) else []
    decreases |ms|
  {
    if ms != [] {
      var init, last := ms[..|ms| - 1], ms[|ms| - 1];
      OfKindTwice(init, k, k');
      var tail := if last.kind == k then [last] else [];
      OfKindAppend(OfKind(init, k), tail, k');
    }
  }

  /** The ranking keeps the relative order of the exact entries and of the contains entries. */
  lemma RankedKeepsOrder(ms: seq<Match>, k: Kind)
    ensures OfKind(Ranked(ms), k) == OfKind(ms, k)
  {
    OfKindAppend(OfKind(ms, Exact), OfKind(ms, Contains), k);
    OfKindTwice(ms, Exact, k);
    OfKindTwice(ms, Contains, k);
  }

  /** The ranking loses and adds no entry. */
  lemma {:induction false} RankedPermutes(ms: seq<Match>)
    ensures multiset(Ranked(ms)) == multiset(ms)
    decreases |ms|
  {
    if ms != [] {
      var init, last := ms[..|ms| - 1], ms[|ms| - 1];
      RankedPermutes(init);
      assert ms == init + [last];
    }
  }

  // ---------------------------------------------------------------------------------------------
  // format_node_info

  /** The characters `re.escape` puts a backslash in front of. */
  const Special: set<char> := {'(', ')', '[', ']', '{', '}', '?', '*', '+', '-', '|', '^', '$', '\\',
    '.', '&', '~', '#', ' ', '\t', '\n', '\r', '\U{000B}', '\U{000C}'}

  /** `re.escape(s)` */
  function Escape(s: string): (r: string)
    ensures |s| <= |r| <= 2 * |s|
  {
    if s == [] then [] else (if s[0] in Special then ['\\', s[0]] else [s[0]]) + Escape(s[1..])
  }

  /** Reading an escaped string back: a backslash stands for the character after it. */
  function Unescape(s: string): string
    decreases |s|
  {
    if s == [] then []
    else if s[0] == '\\' && |s| >= 2 then [s[1]] + Unescape(s[2..])
    else [s[0]] + Unescape(s[1..])
  }

  /** Escaping loses nothing: the escaped text reads back as the original. */
  lemma {:induction false} UnescapeEscape(s: string)
    ensures Unescape(Escape(s)) == s
    decreases |s|
  {
    if s != [] {
      UnescapeEscape(s[1..]);
      var e := Escape(s);
      if s[0] in Special {
        assert e == ['\\', s[0]] + Escape(s[1..]);
        assert e[2..] == Escape(s[1..]);
      } else {
        assert e == [s[0]] + Escape(s[1..]);
        assert e[1..] == Escape(s[1..]);
      }
    }
  }

  /** The index path as the list of ints `format_node_info` puts in its dictionary. */
  function IntValues(ns: seq<int>): (r: seq<Value>)
    ensures |r| == |ns| && forall k :: 0 <= k < |ns| ==> r[k] == VInt(ns[k])
  {
    seq(|ns|, k requires 0 <= k < |ns| => VInt(ns[k]))
  }

  /** The pattern `format_node_info` anchors the value with, or `None` for another match type. */
  function PatternFor(value: string, matchType: string): (r: Value)
    ensures matchType == "exact" ==>
      (r.VStr? && |r.s| >= 2 && r.s[0] == '^' && r.s[|r.s| - 1] == '$' && Unescape(r.s[1..|r.s| - 1]) == value)
    ensures matchType == "contains" ==>
      (r.VStr? && |r.s| >= 4 && r.s[..2] == ".*" && r.s[|r.s| - 2..] == ".*" && Unescape(r.s[2..|r.s| - 2]) == value)
    ensures matchType != "exact" && matchType != "contains" ==> r == VNone
  {
    UnescapeEscape(value);
    if matchType == "exact" then
      var p := "^" + Escape(value) + "$";
      assert p[1..|p| - 1] == Escape(value);
      VStr(p)
    else if matchType == "contains" then
      var p := ".*" + Escape(value) + ".*";
      assert p[2..|p| - 2] == Escape(value);
      VStr(p)
    else VNone
  }

  /** `format_node_info`: the parameters of a get-node-by-path step that finds the match again. */
  function FormatNodeInfo(attribute: string, value: string, matchType: string, path: seq<int>, package: string)
    : (r: map<string, Value>)
    ensures r.Keys == {"package", "index_path", "attributes", "pattern", "matched_value", "match_type"}
    ensures r["attributes"] == VList([VStr(attribute)]) && Len(r["attributes"]) == Some(1)
    ensures r["index_path"] == VList(IntValues(path)) && r["package"] == VStr(package)
    ensures r["pattern"] == PatternFor(value, matchType) && r["matched_value"] == VStr(value)
    ensures "save_to" !in r
  {
    map["package" := VStr(package), "index_path" := VList(IntValues(path)), "attributes" := VList([VStr(attribute)]),
        "pattern" := PatternFor(value, matchType), "matched_value" := VStr(value), "match_type" := VStr(matchType)]
  }

  // ---------------------------------------------------------------------------------------------
  // The tool and the action agree

  /**
   * The path below `n` can be walked back by index: each node on it carries an index attribute
   * written as `str` writes its integer, and is the first of its siblings with that index.
   */
  predicate Walkable(n: XNode, pos: seq<nat>)
    decreases |pos|
  {
    pos != [] ==>
      && pos[0] < |n.children|
      && var c := n.children[pos[0]];
      && "index" in c.attrs && IndexOf(c).Some? && Text.IntToString(IndexOf(c).value) == c.attrs["index"]
      && NodeActions.FirstIndexed(n.children, Some(c.attrs["index"])) == Some(pos[0])
      && Walkable(c, pos[1..])
  }

  /** On a walkable path, the indices the tool collects lead the fixed walk back to the node. */
  lemma {:induction false} ResolveIndices(n: XNode, pos: seq<nat>)
    requires Walkable(n, pos)
    ensures At(n, pos).Some? && Indices(Chain(n, pos)).Some?
    ensures NodeActions.Resolve(n, IntValues(Indices(Chain(n, pos)).value)) == At(n, pos)
    decreases |pos|
  {
    if pos != [] {
      var c := n.children[pos[0]];
      var i := WalkableStep(n, pos);
      ResolveIndices(c, pos[1..]);
      var rest := Indices(Chain(c, pos[1..])).value;
      ChainCons(n, pos);
      IndicesCons(c, Chain(c, pos[1..]));
      IntValuesCons(i, rest);
      ResolveStep(n, pos[0], VInt(i), IntValues(rest));
    }
  }

  lemma IntValuesCons(i: int, rest: seq<int>)
    ensures IntValues([i] + rest) == [VInt(i)] + IntValues(rest)
  {
    var a, b := IntValues([i] + rest), [VInt(i)] + IntValues(rest);
    assert |a| == |b|;
    forall k | 0 <= k < |a| ensures a[k] == b[k] {
      if k > 0 {
        assert ([i] + rest)[k] == rest[k - 1];
      }
    }
  }

  /** One level of a walkable path: the child's index, and that it is the first child with it. */
  lemma WalkableStep(n: XNode, pos: seq<nat>) returns (i: int)
    requires pos != [] && Walkable(n, pos)
    ensures pos[0] < |n.children| && IndexOf(n.children[pos[0]]) == Some(i)
    ensures NodeActions.FirstIndexed(n.children, Str(VInt(i))) == Some(pos[0])
    ensures Walkable(n.children[pos[0]], pos[1..])
  {
    i := IndexOf(n.children[pos[0]]).value;
  }

  /** One level of the way down: the chain starts with the child, and the walk goes on from it. */
  lemma ChainCons(n: XNode, pos: seq<nat>)
    requires pos != [] && pos[0] < |n.children| && At(n.children[pos[0]], pos[1..]).Some?
    ensures At(n, pos) == At(n.children[pos[0]], pos[1..])
    ensures Chain(n, pos) == [n.children[pos[0]]] + Chain(n.children[pos[0]], pos[1..])
  {
  }

  lemma IndicesCons(c: XNode, ns: seq<XNode>)
    requires IndexOf(c).Some? && Indices(ns).Some?
    ensures Indices([c] + ns) == Some([IndexOf(c).value] + Indices(ns).value)
  {
    assert ([c] + ns)[0] == c && ([c] + ns)[1..] == ns;
  }

  lemma ResolveStep(n: XNode, j: nat, t: Value, rest: seq<Value>)
    requires NodeActions.FirstIndexed(n.children, Str(t)) == Some(j)
    ensures j < |n.children| && NodeActions.Resolve(n, [t] + rest) == NodeActions.Resolve(n.children[j], rest)
  {
    assert ([t] + rest)[0] == t && ([t] + rest)[1..] == rest;
  }

  /**
   * The path the tool computes for a node below a walkable top node leads the fixed walk from that
   * top node back to the node.
   */
  lemma NodePathResolves(root: XNode, pos: seq<nat>)
    requires pos != [] && pos[0] < |root.children| && IndexOf(root.children[pos[0]]).Some?
    requires Walkable(root.children[pos[0]], pos[1..])
    ensures At(root, pos).Some? && NodePath(root, pos).Some?
    ensures NodeActions.Resolve(root.children[pos[0]], IntValues(NodePath(root, pos).value)) == At(root, pos)
  {
    var top := root.children[pos[0]];
    ResolveIndices(top, pos[1..]);
    assert At(top, pos[1..]) == At(root, pos);
    assert Chain(root, pos) == [top] + Chain(top, pos[1..]);
    var rest := Indices(Chain(top, pos[1..])).value;
    assert Indices(Chain(root, pos)) == Some([IndexOf(top).value] + rest);
  }

  /**
   * The tool's output finds its node: for a node two or more levels below the root whose path is
   * walkable from the first node of its package, and whose value the pattern oracle accepts, the
   * parameters `format_node_info` builds make `GetNodeByPathAction` return that value.
   */
  lemma FormattedInfoFindsNode(root: XNode, pos: seq<nat>, attribute: string, matchType: string, rx: (string, string) -> bool)
    requires |pos| >= 2 && pos[0] < |root.children| && IndexOf(root.children[pos[0]]).Some?
    requires Walkable(root.children[pos[0]], pos[1..])
    requires At(root, pos).Some?
    requires Attr(At(root, pos).value, "package", "") != []
    requires NodeActions.PackageNodes(root, VStr(Attr(At(root, pos).value, "package", ""))) != []
    requires NodeActions.PackageNodes(root, VStr(Attr(At(root, pos).value, "package", "")))[0] == root.children[pos[0]]
    requires PatternFor(Attr(At(root, pos).value, attribute, ""), matchType).VStr? ==>
      rx(PatternFor(Attr(At(root, pos).value, attribute, ""), matchType).s, Attr(At(root, pos).value, attribute, ""))
    ensures NodePath(root, pos).Some?
    ensures NodeActions.ByPath(FormatNodeInfo(attribute, Attr(At(root, pos).value, attribute, ""), matchType,
      NodePath(root, pos).value, Attr(At(root, pos).value, "package", "")), root, rx)
      == NodeActions.Found(VStr(Attr(At(root, pos).value, attribute, "")))
  {
    var node := At(root, pos).value;
    var value := Attr(node, attribute, "");
    NodePathResolves(root, pos);
    var rest := NodePath(root, pos).value;
    var params := FormatNodeInfo(attribute, value, matchType, rest, Attr(node, "package", ""));
    var path := IntValues(rest);
    assert path != [] && path[0] == VInt(rest[0]);
    assert NodeActions.PathList(params["index_path"]) == Some([VList(path)]);
    assert Get(params, "package", VNone) == VStr(Attr(node, "package", ""));
    assert Get(params, "attributes", VList([VStr("text"), VStr("content-desc")])) == VList([VStr(attribute)]);
    assert Get(params, "pattern", VNone) == PatternFor(value, matchType);
    FormattedValue(node, attribute, matchType, rx);
    NodeActions.ByPathFindsResolved(params, root, rx, path);
  }

  /** The one attribute the tool asks for is read from the node and passes the pattern the oracle accepts. */
  lemma FormattedValue(node: XNode, attribute: string, matchType: string, rx: (string, string) -> bool)
    requires PatternFor(Attr(node, attribute, ""), matchType).VStr? ==>
      rx(PatternFor(Attr(node, attribute, ""), matchType).s, Attr(node, attribute, ""))
    ensures NodeActions.PathValue(node, VList([VStr(attribute)]), PatternFor(Attr(node, attribute, ""), matchType), rx)
      == Some(VStr(Attr(node, attribute, "")))
  {
    assert Elements(VList([VStr(attribute)])) == Some([VStr(attribute)]);
  }
}

=== FILE: flow_actions.dfy ===
/**
 * `LoopAction`: runs its nested steps up to `max_iterations` times. A step runs unless one of its
 * `variables` conditions fails; after each full pass the `step_result` break conditions may stop the
 * loop; any exception inside an iteration ends the action with `False`.
 *
 * The bot's `_resolve_variable` and `_execute_action` are parameters (`resolve`, `exec`);
 * `_save_step_result` / `_get_step_result` read and write the bot's result store.
 */
module FlowActions {
  import opened Wrappers
  import opened PyValue
  import opened BotStore

  /** The name a nested step without `name` is saved under. */
  const UnnamedStep: string := "未命名步骤"

  /** The bound used when `max_iterations` is not given. */
  const DefaultMaxIterations: int := 100

  /** The part of the bot an action sees: its variables and its step results. */
  datatype Store = Store(variables: map<Value, Value>, results: map<Value, Value>)

  /** What `bot._execute_action(action, params)` did, and the bot's stores afterwards. */
  datatype Effect = Raised(after: Store) | Returned(result: Value, after: Store)

  /** One call of `_execute_action`: the step's name and its action type. */
  datatype Run = Run(name: Value, action: Value)

  /** Where a stretch of work stopped: normally or by an exception, the stores, the calls made. */
  datatype Pass = Pass(ok: bool, store: Store, trace: seq<Run>)

  /** The end of the whole loop, with the number of iterations started. */
  datatype LoopEnd = LoopEnd(ok: bool, store: Store, trace: seq<Run>, iterations: nat)

  /** How `execute` ends: with its boolean, or by letting `int(max_iterations)` raise. */
  datatype Outcome = Done(success: bool) | ConversionError

  // ---------------------------------------------------------------------------------------------
  // Conditions

  /**
   * Reading one condition of a scan for conditions of type `kind`: `Some(true)` when it is such a
   * condition and the stored value under its `key` entry compares to its `value` entry as
   * `stopOnEqual` says; `Some(false)` when it is of another type or does not stop the scan;
   * `None` when subscripting it raises.
   */
  function Stops(c: Value, kind: string, key: string, store: map<Value, Value>, stopOnEqual: bool): Option<bool> {
    if !c.VDict? || "type" !in c.entries then None
    else if c.entries["type"] != VStr(kind) then Some(false)
    else if key !in c.entries || "value" !in c.entries then None
    else Some((Lookup(store, c.entries[key]) == c.entries["value"]) == stopOnEqual)
  }

  /**
   * A `for condition in ...: ... break` scan: `Some(true)` when some condition stops it,
   * `Some(false)` when none does, `None` when a condition raises before that.
   */
  function FirstStop(cs: seq<Value>, kind: string, key: string, store: map<Value, Value>, stopOnEqual: bool): (r: Option<bool>)
    ensures (forall i :: 0 <= i < |cs| ==> Stops(cs[i], kind, key, store, stopOnEqual) == Some(false)) ==> r == Some(false)
  {
    if cs == [] then Some(false)
    else match Stops(cs[0], kind, key, store, stopOnEqual)
      case None => None
      case Some(true) => Some(true)
      case Some(false) => FirstStop(cs[1..], kind, key, store, stopOnEqual)
  }

  /** The scan reaches condition `i` and that condition stops it. */
  predicate StopsAt(cs: seq<Value>, i: nat, kind: string, key: string, store: map<Value, Value>, stopOnEqual: bool) {
    && i < |cs|
    && Stops(cs[i], kind, key, store, stopOnEqual) == Some(true)
    && forall j :: 0 <= j < i ==> Stops(cs[j], kind, key, store, stopOnEqual) == Some(false)
  }

  /** A scan that stops, stops at some condition that it reaches. */
  lemma {:induction false} FirstStopFound(cs: seq<Value>, kind: string, key: string, store: map<Value, Value>, stopOnEqual: bool)
    requires FirstStop(cs, kind, key, store, stopOnEqual) == Some(true)
    ensures exists i: nat :: StopsAt(cs, i, kind, key, store, stopOnEqual)
  {
    if Stops(cs[0], kind, key, store, stopOnEqual) != Some(true) {
      FirstStopFound(cs[1..], kind, key, store, stopOnEqual);
      var i: nat :| StopsAt(cs[1..], i, kind, key, store, stopOnEqual);
      forall j | 0 <= j < i + 1 ensures Stops(cs[j], kind, key, store, stopOnEqual) == Some(false) {
        if j > 0 { assert cs[j] == cs[1..][j - 1]; }
      }
      assert StopsAt(cs, i + 1, kind, key, store, stopOnEqual);
    } else {
      assert StopsAt(cs, 0, kind, key, store, stopOnEqual);
    }
  }

  /** A condition that the scan reaches and that stops it makes the scan stop. */
  lemma {:induction false} FirstStopOf(cs: seq<Value>, i: nat, kind: string, key: string, store: map<Value, Value>, stopOnEqual: bool)
    requires StopsAt(cs, i, kind, key, store, stopOnEqual)
    ensures FirstStop(cs, kind, key, store, stopOnEqual) == Some(true)
  {
    if i > 0 {
      assert Stops(cs[0], kind, key, store, stopOnEqual) == Some(false);
      forall j | 0 <= j < i - 1 ensures Stops(cs[1..][j], kind, key, store, stopOnEqual) == Some(false) {
        assert cs[1..][j] == cs[j + 1];
      }
      assert cs[1..][i - 1] == cs[i];
      FirstStopOf(cs[1..], i - 1, kind, key, store, stopOnEqual);
    }
  }

  /** A scan that does not stop and does not raise has passed every condition. */
  lemma {:induction false} FirstStopNoStop(cs: seq<Value>, kind: string, key: string, store: map<Value, Value>, stopOnEqual: bool)
    requires FirstStop(cs, kind, key, store, stopOnEqual) == Some(false)
    ensures forall i :: 0 <= i < |cs| ==> Stops(cs[i], kind, key, store, stopOnEqual) == Some(false)
  {
    if cs != [] {
      FirstStopNoStop(cs[1..], kind, key, store, stopOnEqual);
      forall i | 0 < i < |cs| ensures Stops(cs[i], kind, key, store, stopOnEqual) == Some(false) {
        assert cs[i] == cs[1..][i - 1];
      }
    }
  }

  /**
   * Whether a nested step runs (lines 27-40): `Some(false)` when a `variables` condition names a
   * variable whose value differs from the expected one; conditions of other types are ignored.
   */
  function ShouldExecute(conditions: Value, variables: map<Value, Value>): (r: Option<bool>)
    ensures !Truthy(conditions) ==> r == Some(true)
  {
    if !Truthy(conditions) then Some(true)
    else match Elements(conditions)
      case None => None
      case Some(cs) =>
        match FirstStop(cs, "variables", "variable", variables, false)
        case None => None
        case Some(skip) => Some(!skip)
  }

  /** A `variables` condition whose variable holds another value than the expected one (unset reading as None). */
  predicate Unmet(c: Value, variables: map<Value, Value>) {
    && c.VDict?
    && Get(c.entries, "type", VNone) == VStr("variables")
    && "variable" in c.entries && "value" in c.entries
    && Lookup(variables, c.entries["variable"]) != c.entries["value"]
  }

  /** An unmet condition is exactly one that stops the scan for `variables` conditions. */
  lemma UnmetStops(c: Value, variables: map<Value, Value>)
    ensures Unmet(c, variables) <==> Stops(c, "variables", "variable", variables, false) == Some(true)
  {
  }

  /** The scan of `ShouldExecute` stops exactly at an unmet condition it reaches. */
  lemma ScanStopsAtUnmet(cs: seq<Value>, variables: map<Value, Value>)
    ensures FirstStop(cs, "variables", "variable", variables, false) == Some(true) <==>
      exists i :: 0 <= i < |cs| && Unmet(cs[i], variables)
        && forall j :: 0 <= j < i ==> Stops(cs[j], "variables", "variable", variables, false) == Some(false)
  {
    if FirstStop(cs, "variables", "variable", variables, false) == Some(true) {
      FirstStopFound(cs, "variables", "variable", variables, false);
      var i: nat :| StopsAt(cs, i, "variables", "variable", variables, false);
      UnmetStops(cs[i], variables);
    }
    if exists i :: 0 <= i < |cs| && Unmet(cs[i], variables)
        && forall j :: 0 <= j < i ==> Stops(cs[j], "variables", "variable", variables, false) == Some(false) {
      var i :| 0 <= i < |cs| && Unmet(cs[i], variables)
        && forall j :: 0 <= j < i ==> Stops(cs[j], "variables", "variable", variables, false) == Some(false);
      UnmetStops(cs[i], variables);
      FirstStopOf(cs, i, "variables", "variable", variables, false);
    }
  }

  /**
   * The skip rule of lines 28-40 for a non-empty condition list: the step is skipped exactly when
   * the scan reaches an unmet `variables` condition, every earlier condition passing.
   */
  lemma ShouldExecuteSkip(conditions: Value, variables: map<Value, Value>)
    requires Truthy(conditions) && Elements(conditions).Some?
    ensures var cs := Elements(conditions).value;
      ShouldExecute(conditions, variables) == Some(false) <==>
        exists i :: 0 <= i < |cs| && Unmet(cs[i], variables)
          && forall j :: 0 <= j < i ==> Stops(cs[j], "variables", "variable", variables, false) == Some(false)
  {
    ScanStopsAtUnmet(Elements(conditions).value, variables);
  }

  /** The run rule of lines 28-40 for a non-empty condition list: the step runs exactly when every condition passes. */
  lemma ShouldExecuteRun(conditions: Value, variables: map<Value, Value>)
    requires Truthy(conditions) && Elements(conditions).Some?
    ensures var cs := Elements(conditions).value;
      ShouldExecute(conditions, variables) == Some(true) <==>
        forall i :: 0 <= i < |cs| ==> Stops(cs[i], "variables", "variable", variables, false) == Some(false)
  {
    var cs := Elements(conditions).value;
    if FirstStop(cs, "variables", "variable", variables, false) == Some(false) {
      FirstStopNoStop(cs, "variables", "variable", variables, false);
    }
  }

  /** Conditions of types other than `variables` are ignored: a list of only those never skips the step. */
  lemma ShouldExecuteIgnoresOtherTypes(conditions: Value, variables: map<Value, Value>)
    requires Elements(conditions).Some?
    requires var cs := Elements(conditions).value;
      forall i :: 0 <= i < |cs| ==> cs[i].VDict? && "type" in cs[i].entries && cs[i].entries["type"] != VStr("variables")
    ensures ShouldExecute(conditions, variables) == Some(true)
  {
  }

  /** Whether the break conditions stop the loop (lines 55-69); other types are ignored. */
  function ShouldBreak(breakConditions: Option<seq<Value>>, results: map<Value, Value>): Option<bool> {
    match breakConditions
    case None => None
    case Some(cs) => FirstStop(cs, "step_result", "step", results, true)
  }

  // ---------------------------------------------------------------------------------------------
  // One nested step, one pass over the steps, the loop

  /** The name and action type a nested step is logged and saved under. */
  function RunOf(step: map<string, Value>): Run {
    Run(Get(step, "name", VStr(UnnamedStep)), Get(step, "action", VNone))
  }

  /** `{key: bot._resolve_variable(value) for key, value in params.items()}` */
  function Resolved(params: map<string, Value>, variables: map<Value, Value>, resolve: (map<Value, Value>, Value) -> Value): (r: map<string, Value>)
    ensures r.Keys == params.Keys
  {
    map k | k in params :: resolve(variables, params[k])
  }

  /**
   * One nested step (lines 23-52). A step that calls no action changes nothing, in particular a
   * skipped one saves no result; one that calls its action makes exactly one call, and when the
   * call returns, the result is saved under the step's name.
   */
  function Step(step: Value, st: Store, resolve: (map<Value, Value>, Value) -> Value, exec: (Value, map<string, Value>, Store) -> Effect): (p: Pass)
    ensures |p.trace| <= 1
    ensures p.trace == [] ==> p.store == st
    ensures p.trace != [] ==> step.VDict? && p.trace == [RunOf(step.entries)]
    ensures p.ok && p.trace != [] ==> p.trace[0].name in p.store.results
    // A step whose conditions fail is skipped: no call, no change, and the pass goes on.
    ensures step.VDict? && ShouldExecute(Get(step.entries, "conditions", VList([])), st.variables) == Some(false) ==>
      p == Pass(true, st, [])
    // A call is made only when the conditions hold, with the resolved params; the stores become
    // the action's, and the value it returns is saved under the step's name.
    ensures p.trace != [] ==>
      && ShouldExecute(Get(step.entries, "conditions", VList([])), st.variables) == Some(true)
      && Get(step.entries, "params", VDict(map[])).VDict?
      && var e := exec(p.trace[0].action, Resolved(Get(step.entries, "params", VDict(map[])).entries, st.variables, resolve), st);
         && (p.ok <==> e.Returned?)
         && (e.Returned? ==> p.store == Store(e.after.variables, e.after.results[p.trace[0].name := e.result]))
         && (e.Raised? ==> p.store == e.after)
    // Conversely, a step whose conditions hold and whose params are a dict makes its call.
    ensures (step.VDict? && ShouldExecute(Get(step.entries, "conditions", VList([])), st.variables) == Some(true)
      && Get(step.entries, "params", VDict(map[])).VDict?) ==> p.trace == [RunOf(step.entries)]
    // A step that is not a dict, conditions that raise, or params without `items()` raise before any call.
    ensures !step.VDict? ==> p == Pass(false, st, [])
    ensures step.VDict? && ShouldExecute(Get(step.entries, "conditions", VList([])), st.variables).None? ==>
      p == Pass(false, st, [])
    ensures (step.VDict? && ShouldExecute(Get(step.entries, "conditions", VList([])), st.variables) == Some(true)
      && !Get(step.entries, "params", VDict(map[])).VDict?) ==> p == Pass(false, st, [])
  {
    if !step.VDict? then Pass(false, st, [])
    else
      var m := step.entries;
      match ShouldExecute(Get(m, "conditions", VList([])), st.variables)
      case None => Pass(false, st, [])
      case Some(go) =>
        if !go then Pass(true, st, [])
        else
          var params := Get(m, "params", VDict(map[]));
          if !params.VDict? then Pass(false, st, [])
          else
            var run := RunOf(m);
            match exec(run.action, Resolved(params.entries, st.variables, resolve), st)
            case Raised(after) => Pass(false, after, [run])
            case Returned(result, after) =>
              Pass(true, Store(after.variables, after.results[run.name := result]), [run])
  }

  /** The steps of one iteration, in list order, after the work `acc` already done. */
  function Steps(steps: seq<Value>, st: Store, acc: seq<Run>, resolve: (map<Value, Value>, Value) -> Value, exec: (Value, map<string, Value>, Store) -> Effect): (p: Pass)
    ensures |acc| <= |p.trace| <= |acc| + |steps| && p.trace[..|acc|] == acc
  {
    if steps == [] then Pass(true, st, acc)
    else
      var q := Step(steps[0], st, resolve, exec);
      if !q.ok then Pass(false, q.store, acc + q.trace)
      else Steps(steps[1..], q.store, acc + q.trace, resolve, exec)
  }

  /**
   * The `while` loop from iteration `done` on (lines 16-73): it stops at the bound, after a pass the
   * break conditions stop, or with `False` at the first exception.
   */
  function Iterations(max: int, done: nat, steps: Option<seq<Value>>, breaks: Option<seq<Value>>, st: Store, acc: seq<Run>,
                      resolve: (map<Value, Value>, Value) -> Value, exec: (Value, map<string, Value>, Store) -> Effect): (e: LoopEnd)
    ensures max <= done ==> e == LoopEnd(true, st, acc, done)
    ensures done < max ==> done < e.iterations <= max
    ensures |acc| <= |e.trace| && e.trace[..|acc|] == acc
    decreases max - done
  {
    if max <= done then LoopEnd(true, st, acc, done)
    else if steps.None? then LoopEnd(false, st, acc, done + 1)
    else
      var p := Steps(steps.value, st, acc, resolve, exec);
      if !p.ok then LoopEnd(false, p.store, p.trace, done + 1)
      else match ShouldBreak(breaks, p.store.results)
        case None => LoopEnd(false, p.store, p.trace, done + 1)
        case Some(true) => LoopEnd(true, p.store, p.trace, done + 1)
        case Some(false) => Iterations(max, done + 1, steps, breaks, p.store, p.trace, resolve, exec)
  }

  /** `LoopAction.execute` as a whole: its outcome and where the loop ended. */
  function Loop(params: map<string, Value>, st: Store, resolve: (map<Value, Value>, Value) -> Value, exec: (Value, map<string, Value>, Store) -> Effect): (r: (Outcome, LoopEnd))
    ensures r.0 == ConversionError ==> r.1 == LoopEnd(false, st, [], 0)
    ensures r.0.Done? ==> r.0.success == r.1.ok
  {
    match ToInt(Get(params, "max_iterations", VInt(DefaultMaxIterations)))
    case None => (ConversionError, LoopEnd(false, st, [], 0))
    case Some(max) =>
      var e := Iterations(max, 0, Elements(Get(params, "steps", VList([]))),
                          Elements(Get(params, "break_conditions", VList([]))), st, [], resolve, exec);
      (Done(e.ok), e)
  }

  // ---------------------------------------------------------------------------------------------
  // Properties

  /** At most `max_iterations` iterations run; a bound of 0 or less runs none and returns True. */
  lemma LoopBound(params: map<string, Value>, st: Store, resolve: (map<Value, Value>, Value) -> Value, exec: (Value, map<string, Value>, Store) -> Effect)
    requires ToInt(Get(params, "max_iterations", VInt(DefaultMaxIterations))).Some?
    ensures var max := ToInt(Get(params, "max_iterations", VInt(DefaultMaxIterations))).value;
      var r := Loop(params, st, resolve, exec);
      && (max <= 0 ==> r == (Done(true), LoopEnd(true, st, [], 0)))
      && (max > 0 ==> 1 <= r.1.iterations <= max)
  {
  }

  /**
   * The break conditions are read only after a full pass: the first iteration always runs all
   * steps (or stops at an exception, returning False), and its work is the start of the loop's.
   */
  lemma FirstIteration(max: int, xs: seq<Value>, breaks: Option<seq<Value>>, st: Store,
                       resolve: (map<Value, Value>, Value) -> Value, exec: (Value, map<string, Value>, Store) -> Effect)
    requires max >= 1
    ensures var p := Steps(xs, st, [], resolve, exec);
      var e := Iterations(max, 0, Some(xs), breaks, st, [], resolve, exec);
      && (!p.ok ==> e == LoopEnd(false, p.store, p.trace, 1))
      && (p.ok && ShouldBreak(breaks, p.store.results) == Some(true) ==> e == LoopEnd(true, p.store, p.trace, 1))
      && |p.trace| <= |e.trace| && e.trace[..|p.trace|] == p.trace
  {
  }

  /** A step that always runs: a dict without conditions whose params are a dict. */
  predicate Unconditional(step: Value) {
    step.VDict? && "conditions" !in step.entries && Get(step.entries, "params", VDict(map[])).VDict?
  }

  /** An unconditional step whose action returns runs once and succeeds. */
  lemma UnconditionalStep(step: Value, st: Store,
                          resolve: (map<Value, Value>, Value) -> Value, exec: (Value, map<string, Value>, Store) -> Effect)
    requires Unconditional(step)
    requires forall a, ps, s :: exec(a, ps, s).Returned?
    ensures var q := Step(step, st, resolve, exec); q.ok && q.trace == [RunOf(step.entries)]
  {
  }

  /**
   * Executed steps run in list order: when every step is unconditional and no action raises, one
   * pass calls each step's action once, in list order.
   */
  lemma {:induction false} PassInOrder(xs: seq<Value>, st: Store, acc: seq<Run>,
                                       resolve: (map<Value, Value>, Value) -> Value, exec: (Value, map<string, Value>, Store) -> Effect)
    requires forall i :: 0 <= i < |xs| ==> Unconditional(xs[i])
    requires forall a, ps, s :: exec(a, ps, s).Returned?
    ensures var p := Steps(xs, st, acc, resolve, exec);
      && p.ok
      && |p.trace| == |acc| + |xs|
      && (forall i :: 0 <= i < |xs| ==> xs[i].VDict? && p.trace[|acc| + i] == RunOf(xs[i].entries))
  {
    if xs != [] {
      var q := Step(xs[0], st, resolve, exec);
      UnconditionalStep(xs[0], st, resolve, exec);
      var acc' := acc + q.trace;
      assert forall i :: 0 <= i < |xs| - 1 ==> xs[1..][i] == xs[i + 1];
      PassInOrder(xs[1..], q.store, acc', resolve, exec);
      var p := Steps(xs, st, acc, resolve, exec);
      assert p == Steps(xs[1..], q.store, acc', resolve, exec);
      assert p.trace[..|acc'|] == acc';
      forall i | 0 <= i < |xs| ensures p.trace[|acc| + i] == RunOf(xs[i].entries) {
        if i == 0 {
          assert p.trace[|acc|] == acc'[|acc|];
        } else {
          assert xs[i] == xs[1..][i - 1];
        }
      }
    }
  }

  /** A pass over `a + b` is the pass over `a`, continued over `b` unless a step of `a` raised. */
  lemma {:induction false} StepsAppend(a: seq<Value>, b: seq<Value>, st: Store, acc: seq<Run>,
                                       resolve: (map<Value, Value>, Value) -> Value, exec: (Value, map<string, Value>, Store) -> Effect)
    ensures var p := Steps(a, st, acc, resolve, exec);
      Steps(a + b, st, acc, resolve, exec) == if p.ok then Steps(b, p.store, p.trace, resolve, exec) else p
    decreases |a|
  {
    if a == [] {
      assert a + b == b;
    } else {
      assert (a + b)[0] == a[0];
      assert (a + b)[1..] == a[1..] + b;
      var q := Step(a[0], st, resolve, exec);
      if q.ok {
        StepsAppend(a[1..], b, q.store, acc + q.trace, resolve, exec);
      }
    }
  }

  /**
   * Step `i` runs on the stores the steps before it left, only when none of them raised, and its
   * call (if any) comes after theirs.
   */
  lemma StepsSnoc(xs: seq<Value>, i: nat, st: Store, acc: seq<Run>,
                  resolve: (map<Value, Value>, Value) -> Value, exec: (Value, map<string, Value>, Store) -> Effect)
    requires i < |xs|
    ensures var pre := Steps(xs[..i], st, acc, resolve, exec);
      var q := Step(xs[i], pre.store, resolve, exec);
      Steps(xs[..i + 1], st, acc, resolve, exec) == if pre.ok then Pass(q.ok, q.store, pre.trace + q.trace) else pre
  {
    assert xs[..i + 1] == xs[..i] + [xs[i]];
    StepsAppend(xs[..i], [xs[i]], st, acc, resolve, exec);
    assert [xs[i]][1..] == [];
  }

  /** A pass stops at the first step that raises: no later step runs or changes anything. */
  lemma StopsAtFirstRaise(xs: seq<Value>, i: nat, st: Store, acc: seq<Run>,
                          resolve: (map<Value, Value>, Value) -> Value, exec: (Value, map<string, Value>, Store) -> Effect)
    requires i < |xs| && Steps(xs[..i], st, acc, resolve, exec).ok
    requires !Step(xs[i], Steps(xs[..i], st, acc, resolve, exec).store, resolve, exec).ok
    ensures var pre := Steps(xs[..i], st, acc, resolve, exec);
      var q := Step(xs[i], pre.store, resolve, exec);
      Steps(xs, st, acc, resolve, exec) == Pass(false, q.store, pre.trace + q.trace)
  {
    StepsSnoc(xs, i, st, acc, resolve, exec);
    assert xs == xs[..i + 1] + xs[i + 1..];
    StepsAppend(xs[..i + 1], xs[i + 1..], st, acc, resolve, exec);
  }

  /** Every index in `idx` shifted by one. */
  function Shifted(idx: seq<nat>): (r: seq<nat>)
    ensures |r| == |idx| && forall j :: 0 <= j < |idx| ==> r[j] == idx[j] + 1
  {
    seq(|idx|, j requires 0 <= j < |idx| => idx[j] + 1)
  }

  /** The calls of a pass after `acc` are those of steps `idx` of the list, each once, in list order. */
  ghost predicate CallsOf(xs: seq<Value>, acc: seq<Run>, trace: seq<Run>, idx: seq<nat>) {
    && |acc| + |idx| == |trace|
    && (forall j :: 0 <= j < |idx| ==> idx[j] < |xs| && xs[idx[j]].VDict? && trace[|acc| + j] == RunOf(xs[idx[j]].entries))
    && (forall j, l :: 0 <= j < l < |idx| ==> idx[j] < idx[l])
  }

  /**
   * The calls a pass makes are the steps' own `(name, action)` records, one per executed step,
   * in list order; nothing else enters the log.
   */
  lemma {:induction false} CallsInOrder(xs: seq<Value>, st: Store, acc: seq<Run>,
                                        resolve: (map<Value, Value>, Value) -> Value, exec: (Value, map<string, Value>, Store) -> Effect)
    ensures var p := Steps(xs, st, acc, resolve, exec);
      p.trace[..|acc|] == acc && exists idx: seq<nat> :: CallsOf(xs, acc, p.trace, idx)
    decreases |xs|
  {
    var p := Steps(xs, st, acc, resolve, exec);
    if xs == [] {
      assert CallsOf(xs, acc, p.trace, []);
    } else {
      var q := Step(xs[0], st, resolve, exec);
      var acc' := acc + q.trace;
      var head: seq<nat> := if q.trace == [] then [] else [0];
      assert q.trace != [] ==> xs[0].VDict? && q.trace == [RunOf(xs[0].entries)];
      if !q.ok {
        assert p == Pass(false, q.store, acc');
        CallsHead(xs, acc, q.trace, head);
      } else {
        assert p == Steps(xs[1..], q.store, acc', resolve, exec);
        CallsInOrder(xs[1..], q.store, acc', resolve, exec);
        var idx' :| CallsOf(xs[1..], acc', p.trace, idx');
        CallsCons(xs, acc, q.trace, p.trace, head, idx');
      }
    }
  }

  /** The calls of the first step alone. */
  lemma CallsHead(xs: seq<Value>, acc: seq<Run>, first: seq<Run>, head: seq<nat>)
    requires xs != [] && head == (if first == [] then [] else [0])
    requires first != [] ==> xs[0].VDict? && first == [RunOf(xs[0].entries)]
    ensures CallsOf(xs, acc, acc + first, head)
  {
  }

  /** The calls of the first step followed by those of the rest of the list. */
  lemma CallsCons(xs: seq<Value>, acc: seq<Run>, first: seq<Run>, trace: seq<Run>, head: seq<nat>, idx': seq<nat>)
    requires xs != [] && head == (if first == [] then [] else [0])
    requires first != [] ==> xs[0].VDict? && first == [RunOf(xs[0].entries)]
    requires CallsOf(xs[1..], acc + first, trace, idx')
    requires trace[..|acc + first|] == acc + first
    ensures CallsOf(xs, acc, trace, head + Shifted(idx'))
  {
    var idx := head + Shifted(idx');
    forall j | 0 <= j < |idx|
      ensures idx[j] < |xs| && xs[idx[j]].VDict? && trace[|acc| + j] == RunOf(xs[idx[j]].entries)
    {
      if j < |head| {
        assert trace[|acc|] == (acc + first)[|acc|];
      } else {
        var j' := j - |head|;
        assert idx[j] == idx'[j'] + 1 && xs[idx[j]] == xs[1..][idx'[j']];
        assert |acc| + j == |acc + first| + j';
      }
    }
  }

  /**
   * The value saved under a step's name is what its action returned: when the steps before the last
   * did not raise and the last one called its action and returned, the pass ends with the action's
   * stores plus that value under the step's name.
   */
  lemma PassSavesLast(xs: seq<Value>, st: Store, acc: seq<Run>,
                      resolve: (map<Value, Value>, Value) -> Value, exec: (Value, map<string, Value>, Store) -> Effect)
    requires xs != []
    ensures var pre := Steps(xs[..|xs| - 1], st, acc, resolve, exec);
      var last := xs[|xs| - 1];
      var q := Step(last, pre.store, resolve, exec);
      pre.ok && q.ok && q.trace != [] ==>
        && last.VDict?
        && var e := exec(RunOf(last.entries).action, Resolved(Get(last.entries, "params", VDict(map[])).entries, pre.store.variables, resolve), pre.store);
           && e.Returned?
           && Steps(xs, st, acc, resolve, exec).store == Store(e.after.variables, e.after.results[RunOf(last.entries).name := e.result])
  {
    StepsSnoc(xs, |xs| - 1, st, acc, resolve, exec);
    assert xs[..|xs|] == xs;
  }

  /**
   * The loop's state after `k` iterations that each completed their pass and were not stopped by
   * the break conditions; `None` when one of them ended the loop.
   */
  function Continued(k: nat, steps: seq<Value>, breaks: Option<seq<Value>>, st: Store, acc: seq<Run>,
                     resolve: (map<Value, Value>, Value) -> Value, exec: (Value, map<string, Value>, Store) -> Effect): (r: Option<Pass>)
    ensures r.Some? ==> r.value.ok && |acc| <= |r.value.trace| && r.value.trace[..|acc|] == acc
    ensures r.Some? && k > 0 ==> ShouldBreak(breaks, r.value.store.results) == Some(false)
    decreases k
  {
    if k == 0 then Some(Pass(true, st, acc))
    else match Continued(k - 1, steps, breaks, st, acc, resolve, exec)
      case None => None
      case Some(c) =>
        var p := Steps(steps, c.store, c.trace, resolve, exec);
        assert p.trace[..|acc|] == p.trace[..|c.trace|][..|acc|];
        if p.ok && ShouldBreak(breaks, p.store.results) == Some(false) then Some(p) else None
  }

  /** After `k` continuing iterations the loop goes on from their state, its iteration count at `k`. */
  lemma {:induction false} IterationsFrom(max: int, k: nat, steps: seq<Value>, breaks: Option<seq<Value>>, st: Store, acc: seq<Run>,
                                          resolve: (map<Value, Value>, Value) -> Value, exec: (Value, map<string, Value>, Store) -> Effect)
    requires k <= max && Continued(k, steps, breaks, st, acc, resolve, exec).Some?
    ensures var c := Continued(k, steps, breaks, st, acc, resolve, exec).value;
      Iterations(max, 0, Some(steps), breaks, st, acc, resolve, exec) == Iterations(max, k, Some(steps), breaks, c.store, c.trace, resolve, exec)
    decreases k
  {
    if k > 0 {
      IterationsFrom(max, k - 1, steps, breaks, st, acc, resolve, exec);
    }
  }

  /**
   * How iteration `k + 1` ends the loop, for any `k`: its pass runs in full on the state the earlier
   * iterations left, and only then are the break conditions read. A pass that raises ends the loop
   * with False, break conditions that hold end it with True, break conditions that raise end it
   * with False, and a pass at the bound whose break conditions do not hold ends it with True; in
   * every case no further iteration starts.
   */
  lemma IterationOutcome(max: int, k: nat, steps: seq<Value>, breaks: Option<seq<Value>>, st: Store, acc: seq<Run>,
                         resolve: (map<Value, Value>, Value) -> Value, exec: (Value, map<string, Value>, Store) -> Effect)
    requires k < max && Continued(k, steps, breaks, st, acc, resolve, exec).Some?
    ensures var c := Continued(k, steps, breaks, st, acc, resolve, exec).value;
      var p := Steps(steps, c.store, c.trace, resolve, exec);
      var e := Iterations(max, 0, Some(steps), breaks, st, acc, resolve, exec);
      && (!p.ok ==> e == LoopEnd(false, p.store, p.trace, k + 1))
      && (p.ok && ShouldBreak(breaks, p.store.results) == Some(true) ==> e == LoopEnd(true, p.store, p.trace, k + 1))
      && (p.ok && ShouldBreak(breaks, p.store.results).None? ==> e == LoopEnd(false, p.store, p.trace, k + 1))
      && (k + 1 == max && p.ok && ShouldBreak(breaks, p.store.results) == Some(false) ==> e == LoopEnd(true, p.store, p.trace, max))
  {
    IterationsFrom(max, k, steps, breaks, st, acc, resolve, exec);
  }

  // ---------------------------------------------------------------------------------------------
  // The action itself

  /** The condition scans of lines 30-37 and 56-65: one loop, read-only. */
  method ScanConditions(cs: seq<Value>, kind: string, key: string, store: map<Value, Value>, stopOnEqual: bool) returns (r: Option<bool>)
    ensures r == FirstStop(cs, kind, key, store, stopOnEqual)
  {
    for i := 0 to |cs|
      invariant FirstStop(cs, kind, key, store, stopOnEqual) == FirstStop(cs[i..], kind, key, store, stopOnEqual)
    {
      assert cs[i..][1..] == cs[i + 1..];
      var c := cs[i];
      if !c.VDict? || "type" !in c.entries {
        return None;
      }
      if c.entries["type"] == VStr(kind) {
        if key !in c.entries || "value" !in c.entries {
          return None;
        }
        if (Lookup(store, c.entries[key]) == c.entries["value"]) == stopOnEqual {
          return Some(true);
        }
      }
    }
    r := Some(false);
  }

  /** One nested step on the bot; `ok` is false when it raised. */
  method RunStep(bot: Bot, step: Value, resolve: (map<Value, Value>, Value) -> Value, exec: (Value, map<string, Value>, Store) -> Effect)
      returns (ok: bool, ghost runs: seq<Run>)
    modifies bot
    ensures Pass(ok, Store(bot.variables, bot.results), runs) == Step(step, Store(old(bot.variables), old(bot.results)), resolve, exec)
  {
    runs := [];
    if !step.VDict? {
      return false, runs;
    }
    var m := step.entries;
    var run := RunOf(m);
    var conditions := Get(m, "conditions", VList([]));
    if Truthy(conditions) {
      var cs := Elements(conditions);
      if cs.None? {
        return false, runs;
      }
      var skip := ScanConditions(cs.value, "variables", "variable", bot.variables, false);
      if skip.None? {
        return false, runs;
      }
      if skip.value {
        return true, runs;
      }
    }
    var params := Get(m, "params", VDict(map[]));
    if !params.VDict? {
      return false, runs;
    }
    var resolved := Resolved(params.entries, bot.variables, resolve);
    var effect := exec(run.action, resolved, Store(bot.variables, bot.results));
    bot.variables, bot.results := effect.after.variables, effect.after.results;
    runs := [run];
    if effect.Raised? {
      return false, runs;
    }
    bot.SaveStepResult(run.name, effect.result);
    ok := true;
  }

  /** One pass over the nested steps (lines 21-52), stopping at the first failure. */
  method RunPass(bot: Bot, xs: seq<Value>, ghost acc: seq<Run>, resolve: (map<Value, Value>, Value) -> Value,
                 exec: (Value, map<string, Value>, Store) -> Effect)
      returns (ok: bool, ghost trace: seq<Run>)
    modifies bot
    ensures Pass(ok, Store(bot.variables, bot.results), trace) == Steps(xs, Store(old(bot.variables), old(bot.results)), acc, resolve, exec)
  {
    trace := acc;
    ghost var pass := Steps(xs, Store(bot.variables, bot.results), trace, resolve, exec);
    for i := 0 to |xs|
      invariant pass == Steps(xs[i..], Store(bot.variables, bot.results), trace, resolve, exec)
    {
      assert xs[i..][1..] == xs[i + 1..];
      var stepOk, runs := RunStep(bot, xs[i], resolve, exec);
      trace := trace + runs;
      if !stepOk {
        return false, trace;
      }
    }
    ok := true;
  }

  /** `LoopAction.execute` on the bot. */
  method Execute(bot: Bot, params: map<string, Value>, resolve: (map<Value, Value>, Value) -> Value, exec: (Value, map<string, Value>, Store) -> Effect)
      returns (r: Outcome, ghost trace: seq<Run>, ghost iterations: nat)
    modifies bot
    ensures (r, LoopEnd(r == Done(true), Store(bot.variables, bot.results), trace, iterations))
      == Loop(params, Store(old(bot.variables), old(bot.results)), resolve, exec)
  {
    trace, iterations := [], 0;
    var bound := ToInt(Get(params, "max_iterations", VInt(DefaultMaxIterations)));
    if bound.None? {
      return ConversionError, trace, iterations;
    }
    var max := bound.value;
    var steps := Elements(Get(params, "steps", VList([])));
    var breaks := Elements(Get(params, "break_conditions", VList([])));
    ghost var goal := Iterations(max, 0, steps, breaks, Store(bot.variables, bot.results), [], resolve, exec);
    var iteration := 0;
    while iteration < max
      invariant goal == Iterations(max, iteration, steps, breaks, Store(bot.variables, bot.results), trace, resolve, exec)
      invariant iterations == iteration
      decreases max - iteration
    {
      iteration := iteration + 1;
      iterations := iteration;
      if steps.None? {
        return Done(false), trace, iterations;
      }
      var ok;
      ok, trace := RunPass(bot, steps.value, trace, resolve, exec);
      if !ok {
        return Done(false), trace, iterations;
      }
      if breaks.None? {
        return Done(false), trace, iterations;
      }
      var stop := ScanConditions(breaks.value, "step_result", "step", bot.results, true);
      if stop.None? {
        return Done(false), trace, iterations;
      }
      if stop.value {
        break;
      }
    }
    r := Done(true);
  }
}

=== FILE: node_actions.dfy ===
/**
 * The node actions: `GetNodeDescendantsContentAction` (content of the nodes inside a rectangle,
 * lowest drawing order first), the selector and click point of `WaitAndClickNodeAction`, and the
 * index-path walk of `GetNodeByPathAction`. The hierarchy is a `UiTree.XNode`; `rx(pattern, text)`
 * stands for `re.match`.
 */
module NodeActions {
  import opened Wrappers
  import opened PyValue
  import opened Bounds
  import opened UiTree
  import opened BotStore
  import DataActions
  import Text

  // ---------------------------------------------------------------------------------------------
  // GetNodeDescendantsContentAction

  /** A value `int >= v` can compare with: integers and booleans; anything else raises `TypeError`. */
  function NumOf(v: Value): Option<int> {
    match v
    case VInt(i) => Some(i)
    case VBool(b) => Some(if b then 1 else 0)
    case _ => None
  }

  /** `node_bounds.get(key, 0)` */
  function Edge(node: map<string, int>, key: string): int {
    if key in node then node[key] else 0
  }

  /** The `k`-th comparison of `_check_node_in_bounds`: left and top at least, right and bottom at most. */
  function EdgeHolds(node: map<string, int>, t: seq<Value>, k: nat): Option<bool>
    requires k < 4
  {
    if k >= |t| then None
    else match NumOf(t[k])
      case None => None
      case Some(b) =>
        Some(if k == 0 then Edge(node, "left") >= b
             else if k == 1 then Edge(node, "top") >= b
             else if k == 2 then Edge(node, "right") <= b
             else Edge(node, "bottom") <= b)
  }

  /** The `and` chain from comparison `k` on: the first false or raising comparison ends it with False. */
  function EdgesFrom(node: map<string, int>, t: seq<Value>, k: nat): bool
    requires k <= 4
    decreases 4 - k
  {
    if k == 4 then true
    else match EdgeHolds(node, t, k)
      case Some(true) => EdgesFrom(node, t, k + 1)
      case _ => false
  }

  /**
   * `_check_node_in_bounds`: the node lies inside the target `[L, T, R, B]`, that is left >= L,
   * top >= T, right <= R and bottom <= B, missing node keys reading 0; a target that is not a list
   * of at least four numbers gives False.
   */
  function InBounds(node: map<string, int>, target: Value): (r: bool)
    ensures r <==>
      && target.VList? && |target.items| >= 4
      && (forall k :: 0 <= k < 4 ==> NumOf(target.items[k]).Some?)
      && Edge(node, "left") >= NumOf(target.items[0]).value
      && Edge(node, "top") >= NumOf(target.items[1]).value
      && Edge(node, "right") <= NumOf(target.items[2]).value
      && Edge(node, "bottom") <= NumOf(target.items[3]).value
  {
    match target
    case VList(t) => EdgesFrom(node, t, 0)
    case _ => false
  }

  /** The `node_bounds` dictionary built from a parsed bounds string. */
  function EdgeMap(r: Rect): map<string, int> {
    map["left" := r.left, "top" := r.top, "right" := r.right, "bottom" := r.bottom]
  }

  /** What the collection loop does with one node. */
  datatype Verdict = Skip | Keep(order: int, content: string) | Fails

  /**
   * One iteration of `_collect_nodes_in_bounds`: nodes with a missing or unparsable bounds string,
   * outside the target, with an empty content-desc or a content-desc the pattern rejects are
   * skipped; a truthy non-string pattern or an unparsable drawing-order raises, which ends the
   * whole collection; the rest are kept with their drawing order (default 0).
   */
  function Classify(n: XNode, target: Value, pattern: Value, rx: (string, string) -> bool): (v: Verdict)
    ensures v.Keep? ==>
      && ParseNodeBounds(Attr(n, "bounds", "")).Some?
      && InBounds(EdgeMap(ParseNodeBounds(Attr(n, "bounds", "")).value), target)
      && v.content == Attr(n, "content-desc", "") && v.content != ""
      && (Truthy(pattern) ==> pattern.VStr? && rx(pattern.s, v.content))
      && Text.ParseInt(Attr(n, "drawing-order", "0")) == Some(v.order)
    ensures v.Fails? ==>
      && Attr(n, "content-desc", "") != ""
      && ((Truthy(pattern) && !pattern.VStr?) || Text.ParseInt(Attr(n, "drawing-order", "0")).None?)
  {
    var b := Attr(n, "bounds", "");
    if b == "" then Skip
    else match ParseNodeBounds(b)
      case None => Skip
      case Some(rect) =>
        if !InBounds(EdgeMap(rect), target) then Skip
        else
          var content := Attr(n, "content-desc", "");
          if content == "" then Skip
          else if Truthy(pattern) && !pattern.VStr? then Fails
          else if Truthy(pattern) && !rx(pattern.s, content) then Skip
          else match Text.ParseInt(Attr(n, "drawing-order", "0"))
            case None => Fails
            case Some(o) => Keep(o, content)
  }

  /** A kept node passed every filter; a node that raises has a content-desc and a bad pattern or order. */
  /** The kept pairs after one more node: the node's verdict extends, keeps or ends the collection. */
  function Extend(kept: Option<seq<(int, string)>>, v: Verdict): Option<seq<(int, string)>> {
    match kept
    case None => None
    case Some(ks) =>
      match v
      case Skip => Some(ks)
      case Keep(o, c) => Some(ks + [(o, c)])
      case Fails => None
  }

  /** The verdict of the collection loop on each node, for one target and pattern. */
  function Classifier(target: Value, pattern: Value, rx: (string, string) -> bool): XNode -> Verdict {
    n => Classify(n, target, pattern, rx)
  }

  lemma ClassifierApplies(target: Value, pattern: Value, rx: (string, string) -> bool, n: XNode)
    ensures Classifier(target, pattern, rx)(n) == Classify(n, target, pattern, rx)
  {
  }

  /** The kept `(drawing order, content)` pairs of `nodes` in order; `None` when one of them raises. */
  function Kept(nodes: seq<XNode>, classify: XNode -> Verdict): Option<seq<(int, string)>>
    decreases |nodes|
  {
    if nodes == [] then Some([])
    else Extend(Kept(nodes[..|nodes| - 1], classify), classify(nodes[|nodes| - 1]))
  }

  /** One step of the collection loop. */
  lemma KeptStep(nodes: seq<XNode>, i: nat, classify: XNode -> Verdict)
    requires i < |nodes|
    ensures Kept(nodes[..i + 1], classify) == Extend(Kept(nodes[..i], classify), classify(nodes[i]))
  {
    assert nodes[..i + 1][..i] == nodes[..i];
  }

  /** Once a node has raised, no later node brings the collection back. */
  lemma {:induction false} KeptFailsForever(nodes: seq<XNode>, i: nat, classify: XNode -> Verdict)
    requires i <= |nodes| && Kept(nodes[..i], classify).None?
    ensures Kept(nodes, classify).None?
    decreases |nodes| - i
  {
    if i < |nodes| {
      assert nodes[..i + 1][..i] == nodes[..i];
      KeptFailsForever(nodes, i + 1, classify);
    } else {
      assert nodes[..i] == nodes;
    }
  }

  /** Every kept pair comes from a node the loop keeps, and carries that node's order and content. */
  lemma {:induction false} KeptSound(nodes: seq<XNode>, classify: XNode -> Verdict)
    requires Kept(nodes, classify).Some?
    ensures var ks := Kept(nodes, classify).value;
      forall j :: 0 <= j < |ks| ==> exists i :: 0 <= i < |nodes| && classify(nodes[i]) == Keep(ks[j].0, ks[j].1)
    decreases |nodes|
  {
    if nodes != [] {
      var init := nodes[..|nodes| - 1];
      KeptSound(init, classify);
      var ks := Kept(nodes, classify).value;
      var ks0 := Kept(init, classify).value;
      forall j | 0 <= j < |ks|
        ensures exists i :: 0 <= i < |nodes| && classify(nodes[i]) == Keep(ks[j].0, ks[j].1)
      {
        if j < |ks0| {
          var i :| 0 <= i < |init| && classify(init[i]) == Keep(ks0[j].0, ks0[j].1);
          assert nodes[i] == init[i];
        } else {
          assert classify(nodes[|nodes| - 1]) == Keep(ks[j].0, ks[j].1);
        }
      }
    }
  }

  /** The smallest drawing order among the kept pairs (`min(order_groups.keys())`). */
  function MinOrder(ks: seq<(int, string)>): (m: int)
    requires ks != []
    ensures exists j :: 0 <= j < |ks| && ks[j].0 == m
    ensures forall j :: 0 <= j < |ks| ==> m <= ks[j].0
  {
    if |ks| == 1 then ks[0].0
    else
      var m := MinOrder(ks[..|ks| - 1]);
      assert forall j :: 0 <= j < |ks| - 1 ==> ks[..|ks| - 1][j] == ks[j];
      if ks[|ks| - 1].0 < m then ks[|ks| - 1].0 else m
  }

  /** The contents kept with drawing order `o`, in traversal order. */
  function ContentsAt(ks: seq<(int, string)>, o: int): (r: seq<string>)
    ensures |r| <= |ks|
  {
    if ks == [] then []
    else ContentsAt(ks[..|ks| - 1], o) + (if ks[|ks| - 1].0 == o then [ks[|ks| - 1].1] else [])
  }

  /** Each content listed under an order was kept with that order. */
  lemma {:induction false} ContentsAtSound(ks: seq<(int, string)>, o: int)
    ensures forall c :: c in ContentsAt(ks, o) ==> (o, c) in ks
  {
    if ks != [] {
      ContentsAtSound(ks[..|ks| - 1], o);
      assert forall p :: p in ks[..|ks| - 1] ==> p in ks;
    }
  }

  /** Every content kept with order `o` is listed under it. */
  lemma {:induction false} ContentsAtComplete(ks: seq<(int, string)>, o: int)
    ensures forall c :: (o, c) in ks ==> c in ContentsAt(ks, o)
  {
    if ks != [] {
      ContentsAtComplete(ks[..|ks| - 1], o);
      assert ks == ks[..|ks| - 1] + [ks[|ks| - 1]];
    }
  }

  /**
   * What `_collect_nodes_in_bounds` returns: the contents of the kept nodes whose drawing order
   * is the smallest kept, in traversal order; `[]` when nothing is kept or a node raises.
   */
  function Collected(nodes: seq<XNode>, target: Value, pattern: Value, rx: (string, string) -> bool): seq<string> {
    match Kept(nodes, Classifier(target, pattern, rx))
    case None => []
    case Some(ks) => if ks == [] then [] else ContentsAt(ks, MinOrder(ks))
  }

  /**
   * The collected contents are exactly the kept contents of the smallest drawing order: each one
   * comes from a kept node of that order, no kept node has a smaller order, and every kept node of
   * that order is listed.
   */
  lemma CollectedMinimal(nodes: seq<XNode>, target: Value, pattern: Value, rx: (string, string) -> bool)
    requires Kept(nodes, Classifier(target, pattern, rx)).Some? && Kept(nodes, Classifier(target, pattern, rx)).value != []
    ensures var ks := Kept(nodes, Classifier(target, pattern, rx)).value;
      var m := MinOrder(ks);
      && Collected(nodes, target, pattern, rx) != []
      && (forall c :: c in Collected(nodes, target, pattern, rx) <==> (m, c) in ks)
      && (forall j :: 0 <= j < |ks| ==> m <= ks[j].0)
  {
    var ks := Kept(nodes, Classifier(target, pattern, rx)).value;
    var m := MinOrder(ks);
    ContentsAtSound(ks, m);
    ContentsAtComplete(ks, m);
    var j :| 0 <= j < |ks| && ks[j].0 == m;
    assert (m, ks[j].1) in ks;
  }

  /**
   * `groups` lists the contents of `ks` under each drawing order, has a group exactly for each
   * order that occurs in `ks`, and `orders` holds its keys.
   */
  predicate Grouped(groups: map<int, seq<string>>, orders: seq<int>, ks: seq<(int, string)>) {
    GroupKeys(groups, orders, ks) && (forall o :: o in groups ==> groups[o] == ContentsAt(ks, o))
  }

  /** The key part of `Grouped`. */
  predicate GroupKeys(groups: map<int, seq<string>>, orders: seq<int>, ks: seq<(int, string)>) {
    && (forall o :: o in groups ==> o in orders)
    && (forall o :: o in orders ==> o in groups)
    && (forall j :: 0 <= j < |ks| ==> ks[j].0 in groups)
    && (forall k :: k in orders ==> exists j :: 0 <= j < |ks| && ks[j].0 == k)
  }

  /** An order that was never kept has an empty list. */
  lemma {:induction false} ContentsAtAbsent(ks: seq<(int, string)>, o: int)
    requires forall j :: 0 <= j < |ks| ==> ks[j].0 != o
    ensures ContentsAt(ks, o) == []
  {
    if ks != [] {
      ContentsAtAbsent(ks[..|ks| - 1], o);
    }
  }

  lemma GroupKeysAppend(groups: map<int, seq<string>>, orders: seq<int>, ks: seq<(int, string)>, o: int, c: string)
    requires GroupKeys(groups, orders, ks)
    ensures GroupKeys(groups[o := (if o in groups then groups[o] else []) + [c]],
                      if o in groups then orders else orders + [o], ks + [(o, c)])
  {
    var g' := groups[o := (if o in groups then groups[o] else []) + [c]];
    var os' := if o in groups then orders else orders + [o];
    var ks' := ks + [(o, c)];
    assert ks'[|ks|].0 == o;
    assert forall j :: 0 <= j < |ks| ==> ks'[j] == ks[j];
    forall k | k in os' ensures exists j :: 0 <= j < |ks'| && ks'[j].0 == k {
      if k in orders {
        var j :| 0 <= j < |ks| && ks[j].0 == k;
        assert ks'[j].0 == k;
      }
    }
  }

  /** Appending a kept content to its group, opening the group when needed, keeps the grouping. */
  lemma GroupedAppend(groups: map<int, seq<string>>, orders: seq<int>, ks: seq<(int, string)>, o: int, c: string)
    requires Grouped(groups, orders, ks)
    ensures Grouped(groups[o := (if o in groups then groups[o] else []) + [c]],
                    if o in groups then orders else orders + [o], ks + [(o, c)])
  {
    GroupKeysAppend(groups, orders, ks, o, c);
    AppendKept(ks, o, c);
    if o !in groups {
      ContentsAtAbsent(ks, o);
    }
  }

  /** `groups.setdefault(order, []).append(content)`, with the order of first insertion kept in `orders`. */
  method AddToGroup(groups: map<int, seq<string>>, orders: seq<int>, ghost ks: seq<(int, string)>, o: int, c: string)
    returns (groups': map<int, seq<string>>, orders': seq<int>, ghost ks': seq<(int, string)>)
    requires Grouped(groups, orders, ks)
    ensures ks' == ks + [(o, c)] && Grouped(groups', orders', ks')
    ensures o in groups ==> orders' == orders
    ensures o !in groups ==> orders' == orders + [o]
  {
    GroupedAppend(groups, orders, ks, o, c);
    orders' := if o in groups then orders else orders + [o];
    groups' := groups[o := (if o in groups then groups[o] else []) + [c]];
    ks' := ks + [(o, c)];
  }

  /**
   * The body of the collection loop for one node: a kept node joins its group, a skipped one
   * changes nothing, and one that raises ends the collection.
   */
  method CollectNode(n: XNode, target: Value, pattern: Value, rx: (string, string) -> bool,
                     groups: map<int, seq<string>>, orders: seq<int>, ghost ks: seq<(int, string)>)
    returns (failed: bool, groups': map<int, seq<string>>, orders': seq<int>, ghost ks': seq<(int, string)>)
    requires Grouped(groups, orders, ks)
    ensures failed <==> Extend(Some(ks), Classify(n, target, pattern, rx)).None?
    ensures !failed ==> Extend(Some(ks), Classify(n, target, pattern, rx)) == Some(ks')
    ensures Grouped(groups', orders', ks')
  {
    var verdict := Classify(n, target, pattern, rx);
    failed, groups', orders', ks' := verdict.Fails?, groups, orders, ks;
    if verdict.Keep? {
      groups', orders', ks' := AddToGroup(groups, orders, ks, verdict.order, verdict.content);
    }
  }

  /**
   * The loop of `_collect_nodes_in_bounds`: the kept contents grouped by drawing order, with the
   * dictionary's keys in insertion order; `failed` when a node raises.
   */
  method GroupByOrder(nodes: seq<XNode>, target: Value, pattern: Value, rx: (string, string) -> bool)
    returns (failed: bool, groups: map<int, seq<string>>, orders: seq<int>, ghost ks: seq<(int, string)>)
    ensures failed <==> Kept(nodes, Classifier(target, pattern, rx)).None?
    ensures !failed ==> Kept(nodes, Classifier(target, pattern, rx)) == Some(ks)
    ensures Grouped(groups, orders, ks)
  {
    groups, orders, ks := map[], [], [];
    ghost var classify := Classifier(target, pattern, rx);
    var i := 0;
    while i < |nodes|
      invariant 0 <= i <= |nodes|
      invariant Kept(nodes[..i], classify) == Some(ks)
      invariant Grouped(groups, orders, ks)
    {
      ClassifierApplies(target, pattern, rx, nodes[i]);
      KeptStep(nodes, i, classify);
      failed, groups, orders, ks := CollectNode(nodes[i], target, pattern, rx, groups, orders, ks);
      if failed {
        KeptFailsForever(nodes, i + 1, classify);
        return;
      }
      i := i + 1;
    }
    assert nodes[..|nodes|] == nodes;
    failed := false;
  }

  /** `_collect_nodes_in_bounds`: the group of the smallest drawing order, or [] when there is none. */
  method CollectNodesInBounds(nodes: seq<XNode>, target: Value, pattern: Value, rx: (string, string) -> bool) returns (r: seq<string>)
    ensures r == Collected(nodes, target, pattern, rx)
  {
    var failed, groups, orders, ks := GroupByOrder(nodes, target, pattern, rx);
    if failed {
      return [];
    }
    if ks != [] {
      assert ks[0].0 in groups;
    }
    if orders == [] {
      return [];
    }
    var m := MinOf(orders);
    assert m == MinOrder(ks) by {
      var j :| 0 <= j < |ks| && ks[j].0 == MinOrder(ks);
      assert MinOrder(ks) in orders;
      var j' :| 0 <= j' < |ks| && ks[j'].0 == m;
    }
    r := groups[m];
  }

  /** Appending a kept pair extends the list of its own order and leaves the other orders alone. */
  lemma AppendKept(ks: seq<(int, string)>, o: int, c: string)
    ensures forall o' :: ContentsAt(ks + [(o, c)], o') == ContentsAt(ks, o') + (if o' == o then [c] else [])
    ensures forall j :: 0 <= j < |ks| ==> (ks + [(o, c)])[j] == ks[j]
  {
    assert (ks + [(o, c)])[..|ks|] == ks;
  }

  /** `min(keys)` over the non-empty list of drawing orders. */
  method MinOf(keys: seq<int>) returns (m: int)
    requires |keys| > 0
    ensures m in keys && forall k :: k in keys ==> m <= k
  {
    m := keys[0];
    var i := 1;
    while i < |keys|
      invariant 1 <= i <= |keys|
      invariant m in keys && forall j :: 0 <= j < i ==> m <= keys[j]
    {
      if keys[i] < m {
        m := keys[i];
      }
      i := i + 1;
    }
  }

  /** Python's `str` of each collected content, as stored in a variable. */
  function Strs(cs: seq<string>): (r: seq<Value>)
    ensures |r| == |cs| && forall i :: 0 <= i < |cs| ==> r[i] == VStr(cs[i])
  {
    if cs == [] then [] else [VStr(cs[0])] + Strs(cs[1..])
  }

  /** The nodes the action's XPath selects: every node below the root carrying a content-desc. */
  function Selected(root: XNode): seq<XNode> {
    WithAttr(Descendants(root), "content-desc")
  }

  /**
   * `GetNodeDescendantsContentAction.execute`: a missing `bounds` or one whose length is not 4
   * returns [] and writes nothing; otherwise the collected contents, also stored under `save_to`
   * when that key is given.
   */
  method GetNodeDescendantsContent(bot: Bot, params: map<string, Value>, root: XNode, rx: (string, string) -> bool)
    returns (r: seq<string>)
    modifies bot
    ensures var bounds := Get(params, "bounds", VNone);
      !Truthy(bounds) || Len(bounds) != Some(4) ==> r == [] && bot.variables == old(bot.variables)
    ensures var bounds := Get(params, "bounds", VNone);
      Truthy(bounds) && Len(bounds) == Some(4) ==>
        && r == Collected(Selected(root), bounds, Get(params, "content_desc_pattern", VNone), rx)
        && bot.variables == if "save_to" in params then old(bot.variables)[params["save_to"] := VList(Strs(r))] else old(bot.variables)
    ensures bot.results == old(bot.results)
  {
    var bounds := Get(params, "bounds", VNone);
    if !Truthy(bounds) || Len(bounds) != Some(4) {
      return [];
    }
    r := CollectNodesInBounds(Selected(root), bounds, Get(params, "content_desc_pattern", VNone), rx);
    if "save_to" in params {
      bot.SetVariable(params["save_to"], VList(Strs(r)));
    }
  }

  // ---------------------------------------------------------------------------------------------
  // WaitAndClickNodeAction

  /** The uiautomator selector keyword `_build_selector` uses. */
  datatype Field = ByText | ByTextContains | ByDescription | ByDescriptionContains

  datatype Selector = Selector(field: Field, value: Value)

  /**
   * `_build_selector`: locating by 'text' or 'description', matching exactly for 'exact' and by
   * containment for any other match type; any other `locate_by` raises `ValueError`.
   */
  function BuildSelector(locateBy: Value, text: Value, matchType: Value): (r: Result<Selector, string>)
    ensures r.Ok? <==> locateBy == VStr("text") || locateBy == VStr("description")
    ensures r.Ok? ==> r.value.value == text
    ensures r.Ok? ==> ((r.value.field == ByText || r.value.field == ByTextContains) <==> locateBy == VStr("text"))
    ensures r.Ok? ==> ((r.value.field == ByText || r.value.field == ByDescription) <==> matchType == VStr("exact"))
  {
    if locateBy == VStr("text") then
      Ok(Selector(if matchType == VStr("exact") then ByText else ByTextContains, text))
    else if locateBy == VStr("description") then
      Ok(Selector(if matchType == VStr("exact") then ByDescription else ByDescriptionContains, text))
    else Err("ValueError")
  }

  /** The text to look for: `params['text']` (default ""), read from a variable when it mentions `${`. */
  function NodeText(params: map<string, Value>, variables: map<Value, Value>): Value {
    var text := Get(params, "text", VStr(""));
    if text.VStr? && DataActions.MentionsReference(text.s) then DataActions.Referenced(text.s, variables) else text
  }

  /** The click point for an element's reported bounds, missing edges reading 0. */
  function NodeCentre(b: map<string, int>): (p: Point)
    ensures Edge(b, "left") <= Edge(b, "right") ==> Edge(b, "left") <= p.x <= Edge(b, "right")
    ensures Edge(b, "top") <= Edge(b, "bottom") ==> Edge(b, "top") <= p.y <= Edge(b, "bottom")
  {
    Centre(Rect(Edge(b, "left"), Edge(b, "top"), Edge(b, "right"), Edge(b, "bottom")))
  }

  /** The first poll at which the element exists. */
  function FirstHit<T>(polls: seq<Option<T>>): (r: Option<nat>)
    ensures r.Some? ==> r.value < |polls| && polls[r.value].Some? && forall j :: 0 <= j < r.value ==> polls[j].None?
    ensures r.None? ==> forall j :: 0 <= j < |polls| ==> polls[j].None?
  {
    if polls == [] then None
    else if polls[0].Some? then Some(0)
    else match FirstHit(polls[1..])
      case None => None
      case Some(k) => Some(k + 1)
  }

  /**
   * `WaitAndClickNodeAction.execute`. `polls` holds, for each check made before the timeout, the
   * element's bounds when it exists and `None` when it does not. An empty text returns False
   * without polling; otherwise the action clicks the centre of the element at the first poll that
   * finds it and returns True, or returns False when no poll does or the selector cannot be built.
   * A truthy `save_to` receives the returned boolean.
   */
  method WaitAndClickNode(bot: Bot, params: map<string, Value>, polls: seq<Option<map<string, int>>>)
    returns (ok: bool, tap: Option<Point>)
    modifies bot
    ensures var text := NodeText(params, old(bot.variables));
      ok <==> Truthy(text) && BuildSelector(Get(params, "locate_by", VStr("text")), text, Get(params, "match_type", VStr("exact"))).Ok?
                            && FirstHit(polls).Some?
    ensures ok ==> tap == Some(NodeCentre(polls[FirstHit(polls).value].value))
    ensures !ok ==> tap.None?
    ensures Truthy(Get(params, "save_to", VNone)) ==> bot.variables == old(bot.variables)[params["save_to"] := VBool(ok)]
    ensures !Truthy(Get(params, "save_to", VNone)) ==> bot.variables == old(bot.variables)
    ensures bot.results == old(bot.results)
  {
    var saveTo := Get(params, "save_to", VNone);
    var text := NodeText(params, bot.variables);
    if !Truthy(text) {
      if Truthy(saveTo) {
        bot.SetVariable(saveTo, VBool(false));
      }
      return false, None;
    }
    var selector := BuildSelector(Get(params, "locate_by", VStr("text")), text, Get(params, "match_type", VStr("exact")));
    var i := 0;
    while i < |polls|
      invariant 0 <= i <= |polls|
      invariant selector.Err? || forall j :: 0 <= j < i ==> polls[j].None?
      invariant bot.variables == old(bot.variables) && bot.results == old(bot.results)
    {
      if selector.Ok? && polls[i].Some? {
        assert FirstHit(polls) == Some(i);
        tap := Some(NodeCentre(polls[i].value));
        if Truthy(saveTo) {
          bot.SetVariable(saveTo, VBool(true));
        }
        return true, tap;
      }
      i := i + 1;
    }
    if Truthy(saveTo) {
      bot.SetVariable(saveTo, VBool(false));
    }
    return false, None;
  }

  // ---------------------------------------------------------------------------------------------
  // GetNodeByPathAction

  /** `child.get("index") == str(target)`; a list or dict target matches no child. */
  predicate HasIndex(c: XNode, key: Option<string>) {
    key.Some? && "index" in c.attrs && c.attrs["index"] == key.value
  }

  /** The position of the first child whose `index` attribute is `key`. */
  function FirstIndexed(children: seq<XNode>, key: Option<string>): (r: Option<nat>)
    ensures r.Some? ==> r.value < |children| && HasIndex(children[r.value], key)
    ensures r.Some? ==> forall j :: 0 <= j < r.value ==> !HasIndex(children[j], key)
    ensures r.None? ==> forall j :: 0 <= j < |children| ==> !HasIndex(children[j], key)
  {
    if children == [] then None
    else if HasIndex(children[0], key) then Some(0)
    else match FirstIndexed(children[1..], key)
      case None => None
      case Some(j) => Some(j + 1)
  }

  /** The inner loop of the walk: scan the children for the first one with the index. */
  method FindIndexedChild(children: seq<XNode>, key: Option<string>) returns (r: Option<nat>)
    ensures r == FirstIndexed(children, key)
  {
    var j := 0;
    while j < |children|
      invariant 0 <= j <= |children|
      invariant forall k :: 0 <= k < j ==> !HasIndex(children[k], key)
    {
      if HasIndex(children[j], key) {
        return Some(j);
      }
      j := j + 1;
    }
    return None;
  }

  /**
   * The state of the walk: the current node and the `found` flag, which Python keeps from one
   * path to the next and which is unbound (`None` here) until a first child scan assigns it.
   */
  datatype Walk = Walk(node: XNode, found: Option<bool>)

  /**
   * One index path walked as written: at each target, stop when the current node has no children
   * (leaving `found` as it was), stop with `found` False when no child carries the index, and
   * otherwise move to that child with `found` True.
   */
  function WalkPath(w: Walk, targets: seq<Value>): (r: Walk)
    ensures targets == [] ==> r == w
    ensures r.found == w.found || r.found == Some(false) || r.found == Some(true)
    decreases |targets|
  {
    if targets == [] || w.node.children == [] then w
    else match FirstIndexed(w.node.children, Str(targets[0]))
      case None => Walk(w.node, Some(false))
      case Some(j) => WalkPath(Walk(w.node.children[j], Some(true)), targets[1..])
  }

  /** The walk over one index path, as the nested loops of the action perform it. */
  method WalkIndexPath(start: XNode, found0: Option<bool>, targets: seq<Value>) returns (node: XNode, found: Option<bool>)
    ensures Walk(node, found) == WalkPath(Walk(start, found0), targets)
  {
    node, found := start, found0;
    var k := 0;
    while k < |targets|
      invariant 0 <= k <= |targets|
      invariant WalkPath(Walk(node, found), targets[k..]) == WalkPath(Walk(start, found0), targets)
    {
      if node.children == [] {
        return;
      }
      var j := FindIndexedChild(node.children, Str(targets[k]));
      assert targets[k..][1..] == targets[k + 1..];
      if j.None? {
        return node, Some(false);
      }
      node, found := node.children[j.value], Some(true);
      k := k + 1;
    }
  }

  /**
   * The index path with the walk fixed: every target must be matched by a child, and a path that
   * outruns the tree resolves to nothing.
   */
  function Resolve(n: XNode, targets: seq<Value>): Option<XNode>
    decreases |targets|
  {
    if targets == [] then Some(n)
    else match FirstIndexed(n.children, Str(targets[0]))
      case None => None
      case Some(j) => Resolve(n.children[j], targets[1..])
  }

  /** Each step of `pos` goes to a child carrying the index its target asks for. */
  predicate IndexedAlong(n: XNode, pos: seq<nat>, targets: seq<Value>)
    decreases |pos|
  {
    |pos| == |targets| &&
    (pos != [] ==>
      pos[0] < |n.children| && HasIndex(n.children[pos[0]], Str(targets[0]))
      && IndexedAlong(n.children[pos[0]], pos[1..], targets[1..]))
  }

  /**
   * What the fixed walk promises: the node it resolves to sits exactly `|targets|` levels below
   * `n`, and each node on the way carries the index its target asks for.
   */
  lemma {:induction false} ResolveReachesPathEnd(n: XNode, targets: seq<Value>)
    requires Resolve(n, targets).Some?
    ensures exists pos :: IndexedAlong(n, pos, targets) && At(n, pos) == Resolve(n, targets)
    decreases |targets|
  {
    if targets == [] {
      assert IndexedAlong(n, [], targets) && At(n, []) == Some(n);
    } else {
      var j := FirstIndexed(n.children, Str(targets[0])).value;
      var c := n.children[j];
      ResolveReachesPathEnd(c, targets[1..]);
      var pos' :| IndexedAlong(c, pos', targets[1..]) && At(c, pos') == Resolve(c, targets[1..]);
      var pos := [j] + pos';
      assert pos[1..] == pos';
      assert IndexedAlong(n, pos, targets) && At(n, pos) == Resolve(n, targets);
    }
  }

  /** Where the fixed walk resolves a non-empty path, the walk as written reaches the same node. */
  lemma {:induction false} WalkAgreesWithResolve(n: XNode, found: Option<bool>, targets: seq<Value>)
    requires targets != [] && Resolve(n, targets).Some?
    ensures WalkPath(Walk(n, found), targets) == Walk(Resolve(n, targets).value, Some(true))
    decreases |targets|
  {
    var j := FirstIndexed(n.children, Str(targets[0])).value;
    if |targets| > 1 {
      WalkAgreesWithResolve(n.children[j], Some(true), targets[1..]);
    }
  }

  /**
   * The walk as written reports a node for a path that runs past a leaf: under a node whose only
   * child has index "0" and no children, the path [0, 3] stops at that child with `found` still
   * True, so its attributes are returned, although the fixed walk resolves the path to nothing.
   */
  lemma WalkStopsAtLeaf()
    ensures var leaf := XNode("node", map["index" := "0"], []);
      var top := XNode("node", map[], [leaf]);
      && WalkPath(Walk(top, None), [VInt(0), VInt(3)]) == Walk(leaf, Some(true))
      && Resolve(top, [VInt(0), VInt(3)]) == None
  {
    var leaf := XNode("node", map["index" := "0"], []);
    var top := XNode("node", map[], [leaf]);
    Text.IntToStringShape(0);
    assert Str(VInt(0)) == Some("0");
    assert FirstIndexed(top.children, Str(VInt(0))) == Some(0);
    assert [VInt(0), VInt(3)][1..] == [VInt(3)];
  }

  /**
   * One requested attribute: `current_node.get(attributes[0], "")`, kept only when a truthy
   * pattern matches it; a pattern that is not a string makes `re.match` raise.
   */
  function SingleValue(node: XNode, name: Value, pattern: Value, rx: (string, string) -> bool): (r: Option<Value>)
    ensures r.Some? ==> r.value.VStr? && Some(r.value.s) == AttrValue(node, name)
    ensures r.Some? && Truthy(pattern) ==> pattern.VStr? && rx(pattern.s, r.value.s)
    ensures r.None? && AttrValue(node, name).Some? ==> Truthy(pattern)
  {
    match AttrValue(node, name)
    case None => None
    case Some(v) => if Truthy(pattern) && (!pattern.VStr? || !rx(pattern.s, v)) then None else Some(VStr(v))
  }

  /**
   * What a found node yields as written; `None` means the path is skipped. Because `execute`
   * imports `re` inside its own body, `re` is a local name there that only the one-attribute
   * branch binds, so the pattern check for several attributes always raises and skips the path.
   */
  function PathValue(node: XNode, attributes: Value, pattern: Value, rx: (string, string) -> bool): (r: Option<Value>)
    ensures r.Some? ==> Len(attributes).Some? && Elements(attributes).Some?
    ensures r.Some? && Len(attributes) == Some(1) ==> r.value.VStr?
    ensures r.Some? && Len(attributes) != Some(1) ==> r.value.VDict?
    ensures Truthy(pattern) && Len(attributes).Some? && Len(attributes).value >= 2 ==> r.None?
    ensures !Truthy(pattern) && Len(attributes) != Some(1) ==>
      (r.Some? <==> Elements(attributes).Some? && AttrDict(node, Elements(attributes).value).Some?)
  {
    match Len(attributes)
    case None => None
    case Some(n) =>
      match Elements(attributes)
      case None => None
      case Some(names) =>
        if n == 1 then
          if |names| != 1 then None else SingleValue(node, names[0], pattern, rx)
        else match AttrDict(node, names)
          case None => None
          case Some(d) => if Truthy(pattern) && n > 0 then None else Some(VDict(d))
  }

  /** What a found node yields once `re` is bound for both branches. */
  function PathValueFixed(node: XNode, attributes: Value, pattern: Value, rx: (string, string) -> bool): (r: Option<Value>)
    ensures
      (Truthy(pattern) && pattern.VStr? && Len(attributes).Some? && Len(attributes).value >= 2
       && Elements(attributes).Some? && AttrDict(node, Elements(attributes).value).Some?) ==>
        && Elements(attributes).value[0].VStr?
        && (r.Some? <==> rx(pattern.s, Attr(node, Elements(attributes).value[0].s, "")))
        && (r.Some? ==> r == Some(VDict(AttrDict(node, Elements(attributes).value).value)))
  {
    match Len(attributes)
    case None => None
    case Some(n) =>
      match Elements(attributes)
      case None => None
      case Some(names) =>
        if n == 1 then
          if |names| != 1 then None else SingleValue(node, names[0], pattern, rx)
        else match AttrDict(node, names)
          case None => None
          case Some(d) =>
            if Truthy(pattern) && n > 0 && names != [] then
              if !pattern.VStr? || !rx(pattern.s, Attr(node, names[0].s, "")) then None else Some(VDict(d))
            else Some(VDict(d))
  }

  /** The fix changes nothing but a pattern checked against several attributes. */
  lemma PathValueFixedAgrees(node: XNode, attributes: Value, pattern: Value, rx: (string, string) -> bool)
    requires !Truthy(pattern) || Len(attributes).None? || Len(attributes).value < 2
    ensures PathValueFixed(node, attributes, pattern, rx) == PathValue(node, attributes, pattern, rx)
  {
    if Len(attributes) == Some(0) && Elements(attributes).Some? {
      assert Elements(attributes).value == [];
    }
  }

  /** `node.get(name, "")`: strings look the attribute up, other scalars find none, lists and dicts raise. */
  function AttrValue(node: XNode, name: Value): Option<string> {
    match name
    case VStr(a) => Some(Attr(node, a, ""))
    case VList(_) => None
    case VDict(_) => None
    case _ => Some("")
  }

  /**
   * `{attr: node.get(attr, "") for attr in attributes}` for string names; a name that is not a
   * string gives `None`.
   */
  function AttrDict(node: XNode, names: seq<Value>): (r: Option<map<string, Value>>)
    ensures r.Some? <==> forall i :: 0 <= i < |names| ==> names[i].VStr?
    ensures r.Some? ==> forall a :: a in r.value <==> VStr(a) in names
    ensures r.Some? ==> forall a :: a in r.value ==> r.value[a] == VStr(Attr(node, a, ""))
    decreases |names|
  {
    if names == [] then Some(map[])
    else match AttrDict(node, names[..|names| - 1])
      case None => None
      case Some(m) =>
        var last := names[|names| - 1];
        assert names == names[..|names| - 1] + [last];
        if last.VStr? then Some(m[last.s := VStr(Attr(node, last.s, ""))]) else None
  }

  /** The loop that builds the attribute dictionary. */
  method ReadAttributes(node: XNode, names: seq<Value>) returns (r: Option<map<string, Value>>)
    ensures r == AttrDict(node, names)
  {
    var d: map<string, Value> := map[];
    var i := 0;
    while i < |names|
      invariant 0 <= i <= |names|
      invariant AttrDict(node, names[..i]) == Some(d)
    {
      AttrDictStep(node, names, i);
      if !names[i].VStr? {
        AttrDictStaysNone(node, names, i + 1);
        return None;
      }
      d := d[names[i].s := VStr(Attr(node, names[i].s, ""))];
      i := i + 1;
    }
    assert names[..|names|] == names;
    return Some(d);
  }

  /** One more name: a string adds its entry, anything else rules the dictionary out. */
  lemma AttrDictStep(node: XNode, names: seq<Value>, i: nat)
    requires i < |names| && AttrDict(node, names[..i]).Some?
    ensures AttrDict(node, names[..i + 1]) ==
      if names[i].VStr? then Some(AttrDict(node, names[..i]).value[names[i].s := VStr(Attr(node, names[i].s, ""))]) else None
  {
    assert names[..i + 1][..i] == names[..i];
  }

  /** A non-string name anywhere in a prefix rules out the whole dictionary. */
  lemma AttrDictStaysNone(node: XNode, names: seq<Value>, i: nat)
    requires i <= |names| && AttrDict(node, names[..i]).None?
    ensures AttrDict(node, names).None?
  {
    var k :| 0 <= k < i && !names[..i][k].VStr?;
    assert !names[k].VStr?;
  }

  /** The list of index paths: a list whose first item is not a list, or a string, is one path. */
  function PathList(indexPaths: Value): (r: Option<seq<Value>>)
    requires Truthy(indexPaths)
    ensures indexPaths.VList? && indexPaths.items[0].VList? ==> r == Some(indexPaths.items)
    ensures indexPaths.VList? && !indexPaths.items[0].VList? ==> r == Some([indexPaths])
    ensures r.Some? ==> r.value != [] && (indexPaths.VList? || indexPaths.VStr?)
  {
    match indexPaths
    case VList(xs) => if xs[0].VList? then Some(xs) else Some([indexPaths])
    case VStr(_) => Some([indexPaths])
    case _ => None
  }

  /** The paths tried in order from the first package node, `found` carried from one to the next. */
  function FromPaths(paths: seq<Value>, start: XNode, found: Option<bool>, attributes: Value, pattern: Value,
                     rx: (string, string) -> bool): Option<Value>
    decreases |paths|
  {
    if paths == [] then None
    else match Elements(paths[0])
      case None => FromPaths(paths[1..], start, found, attributes, pattern, rx)
      case Some(targets) =>
        var w := WalkPath(Walk(start, found), targets);
        var v := if w.found == Some(true) then PathValue(w.node, attributes, pattern, rx) else None;
        if v.Some? then v else FromPaths(paths[1..], start, w.found, attributes, pattern, rx)
  }

  /**
   * One path of the loop: the value it yields, if any, and the `found` flag it leaves for the next
   * path. A path that cannot be iterated raises inside the per-path handler and leaves `found` as
   * it was.
   */
  function PathYield(path: Value, start: XNode, found: Option<bool>, attributes: Value, pattern: Value,
                     rx: (string, string) -> bool): (Option<Value>, Option<bool>)
  {
    match Elements(path)
    case None => (None, found)
    case Some(targets) =>
      var w := WalkPath(Walk(start, found), targets);
      (if w.found == Some(true) then PathValue(w.node, attributes, pattern, rx) else None, w.found)
  }

  /** The `found` flag the first `k` paths leave behind. */
  function Carried(paths: seq<Value>, k: nat, start: XNode, found: Option<bool>, attributes: Value, pattern: Value,
                   rx: (string, string) -> bool): Option<bool>
    requires k <= |paths|
    decreases k
  {
    if k == 0 then found
    else Carried(paths[1..], k - 1, start, PathYield(paths[0], start, found, attributes, pattern, rx).1, attributes, pattern, rx)
  }

  /** The value path `k` yields when it is reached with the flag the earlier paths leave. */
  function Yield(paths: seq<Value>, k: nat, start: XNode, found: Option<bool>, attributes: Value, pattern: Value,
                 rx: (string, string) -> bool): Option<Value>
    requires k < |paths|
  {
    PathYield(paths[k], start, Carried(paths, k, start, found, attributes, pattern, rx), attributes, pattern, rx).0
  }

  /** Path `k` yields a value and no earlier path does. */
  predicate FirstYield(paths: seq<Value>, k: nat, start: XNode, found: Option<bool>, attributes: Value, pattern: Value,
                       rx: (string, string) -> bool)
  {
    && k < |paths|
    && Yield(paths, k, start, found, attributes, pattern, rx).Some?
    && forall j :: 0 <= j < k ==> Yield(paths, j, start, found, attributes, pattern, rx).None?
  }

  /** Dropping the first path shifts the flags and yields of the others by one. */
  lemma YieldTail(paths: seq<Value>, j: nat, start: XNode, found: Option<bool>, attributes: Value, pattern: Value,
                  rx: (string, string) -> bool)
    requires 0 < j < |paths|
    ensures Yield(paths, j, start, found, attributes, pattern, rx)
      == Yield(paths[1..], j - 1, start, PathYield(paths[0], start, found, attributes, pattern, rx).1, attributes, pattern, rx)
  {
    assert paths[1..][j - 1] == paths[j];
  }

  /** The loop over the paths, one path at a time. */
  lemma FromPathsStep(paths: seq<Value>, start: XNode, found: Option<bool>, attributes: Value, pattern: Value,
                      rx: (string, string) -> bool)
    requires paths != []
    ensures var y := PathYield(paths[0], start, found, attributes, pattern, rx);
      FromPaths(paths, start, found, attributes, pattern, rx)
        == if y.0.Some? then y.0 else FromPaths(paths[1..], start, y.1, attributes, pattern, rx)
  {
  }

  /** The paths yield the value of the first path that yields one, `found` carried as the loop carries it. */
  lemma {:induction false} FromPathsFirstYield(paths: seq<Value>, k: nat, start: XNode, found: Option<bool>,
                                               attributes: Value, pattern: Value, rx: (string, string) -> bool)
    requires FirstYield(paths, k, start, found, attributes, pattern, rx)
    ensures FromPaths(paths, start, found, attributes, pattern, rx) == Yield(paths, k, start, found, attributes, pattern, rx)
    decreases k
  {
    var y := PathYield(paths[0], start, found, attributes, pattern, rx);
    FromPathsStep(paths, start, found, attributes, pattern, rx);
    assert Yield(paths, 0, start, found, attributes, pattern, rx) == y.0;
    if k > 0 {
      FirstYieldTail(paths, k, start, found, attributes, pattern, rx);
      FromPathsFirstYield(paths[1..], k - 1, start, y.1, attributes, pattern, rx);
    }
  }

  /** A later first yield is a first yield of the remaining paths, one position earlier. */
  lemma FirstYieldTail(paths: seq<Value>, k: nat, start: XNode, found: Option<bool>,
                       attributes: Value, pattern: Value, rx: (string, string) -> bool)
    requires 0 < k && FirstYield(paths, k, start, found, attributes, pattern, rx)
    ensures var y := PathYield(paths[0], start, found, attributes, pattern, rx);
      && y.0.None?
      && FirstYield(paths[1..], k - 1, start, y.1, attributes, pattern, rx)
      && Yield(paths[1..], k - 1, start, y.1, attributes, pattern, rx) == Yield(paths, k, start, found, attributes, pattern, rx)
  {
    var y := PathYield(paths[0], start, found, attributes, pattern, rx);
    assert Yield(paths, 0, start, found, attributes, pattern, rx) == y.0;
    forall j | 0 <= j < k - 1 ensures Yield(paths[1..], j, start, y.1, attributes, pattern, rx).None? {
      YieldTail(paths, j + 1, start, found, attributes, pattern, rx);
    }
    YieldTail(paths, k, start, found, attributes, pattern, rx);
  }

  /** The paths yield nothing exactly when no path yields a value. */
  lemma {:induction false} FromPathsNoYield(paths: seq<Value>, start: XNode, found: Option<bool>,
                                            attributes: Value, pattern: Value, rx: (string, string) -> bool)
    ensures FromPaths(paths, start, found, attributes, pattern, rx).None? <==>
      forall j :: 0 <= j < |paths| ==> Yield(paths, j, start, found, attributes, pattern, rx).None?
    decreases |paths|
  {
    if paths != [] {
      var y := PathYield(paths[0], start, found, attributes, pattern, rx);
      FromPathsStep(paths, start, found, attributes, pattern, rx);
      assert Yield(paths, 0, start, found, attributes, pattern, rx) == y.0;
      FromPathsNoYield(paths[1..], start, y.1, attributes, pattern, rx);
      forall j | 0 < j < |paths|
        ensures Yield(paths, j, start, found, attributes, pattern, rx) == Yield(paths[1..], j - 1, start, y.1, attributes, pattern, rx)
      {
        YieldTail(paths, j, start, found, attributes, pattern, rx);
      }
      if forall j :: 0 <= j < |paths| ==> Yield(paths, j, start, found, attributes, pattern, rx).None? {
        forall j | 0 <= j < |paths[1..]| ensures Yield(paths[1..], j, start, y.1, attributes, pattern, rx).None? {
          assert Yield(paths, j + 1, start, found, attributes, pattern, rx).None?;
        }
      }
    }
  }

  /** What `GetNodeByPathAction.execute` does: return a value a path found, return a fallback, or raise. */
  datatype PathOutcome = Found(value: Value) | Fallback(value: Value) | Raises(error: string)

  /** The nodes below the root whose `package` attribute is `str(package)`, in document order. */
  function PackageNodes(root: XNode, package: Value): seq<XNode> {
    match Str(package)
    case None => []
    case Some(p) => WithAttrValue(Descendants(root), "package", p)
  }

  /**
   * `GetNodeByPathAction.execute`: a missing `package` or `index_path`, or a path list whose
   * first item cannot be read, makes the error handler read `attributes` before it is bound and
   * raise; with no package node the result is {}; otherwise the value of the first path that
   * resolves and passes the pattern, or else "" for one attribute and {} for several.
   */
  function ByPath(params: map<string, Value>, root: XNode, rx: (string, string) -> bool): (r: PathOutcome)
    ensures !Truthy(Get(params, "package", VNone)) ==> r == Raises("UnboundLocalError")
    ensures !Truthy(Get(params, "index_path", VList([]))) ==> r == Raises("UnboundLocalError")
    ensures r.Found? ==> PackageNodes(root, Get(params, "package", VNone)) != []
    ensures r.Fallback? ==> r.value == VDict(map[]) || r.value == VStr("")
    ensures r.Fallback? && PackageNodes(root, Get(params, "package", VNone)) == [] ==> r.value == VDict(map[])
    ensures r.Fallback? && PackageNodes(root, Get(params, "package", VNone)) != [] ==>
      var n := Len(Get(params, "attributes", VList([VStr("text"), VStr("content-desc")])));
      n.Some? && r.value == if n.value > 1 then VDict(map[]) else VStr("")
    ensures
      && Truthy(Get(params, "package", VNone))
      && Truthy(Get(params, "index_path", VList([])))
      && PathList(Get(params, "index_path", VList([]))).Some?
      && PackageNodes(root, Get(params, "package", VNone)) == []
      ==> r == Fallback(VDict(map[]))
  {
    var package := Get(params, "package", VNone);
    var indexPaths := Get(params, "index_path", VList([]));
    if !Truthy(package) || !Truthy(indexPaths) then Raises("UnboundLocalError")
    else match PathList(indexPaths)
      case None => Raises("UnboundLocalError")
      case Some(paths) =>
        var attributes := Get(params, "attributes", VList([VStr("text"), VStr("content-desc")]));
        var pattern := Get(params, "pattern", VNone);
        var pkgs := PackageNodes(root, package);
        if pkgs == [] then Fallback(VDict(map[]))
        else match FromPaths(paths, pkgs[0], None, attributes, pattern, rx)
          case Some(v) => Found(v)
          case None =>
            match Len(attributes)
            case None => Raises("TypeError")
            case Some(n) => Fallback(if n > 1 then VDict(map[]) else VStr(""))
  }

  /** The value a found node yields, the attribute dictionary built by its loop. */
  method ReadPathValue(node: XNode, attributes: Value, pattern: Value, rx: (string, string) -> bool) returns (r: Option<Value>)
    ensures r == PathValue(node, attributes, pattern, rx)
  {
    var n, names := Len(attributes), Elements(attributes);
    if n.None? || names.None? {
      return None;
    }
    if n.value == 1 {
      if |names.value| != 1 {
        return None;
      }
      return SingleValue(node, names.value[0], pattern, rx);
    }
    var d := ReadAttributes(node, names.value);
    if d.None? || (Truthy(pattern) && n.value > 0) {
      return None;
    }
    return Some(VDict(d.value));
  }

  /**
   * `GetNodeByPathAction.execute`: try the index paths in order from the first package node and
   * store the first value found under `save_to`.
   */
  method GetNodeByPath(bot: Bot, params: map<string, Value>, root: XNode, rx: (string, string) -> bool)
    returns (r: PathOutcome)
    modifies bot
    ensures r == ByPath(params, root, rx)
    ensures bot.variables ==
      if r.Found? && "save_to" in params then old(bot.variables)[params["save_to"] := r.value] else old(bot.variables)
    ensures bot.results == old(bot.results)
  {
    var package := Get(params, "package", VNone);
    var indexPaths := Get(params, "index_path", VList([]));
    if !Truthy(package) || !Truthy(indexPaths) {
      return Raises("UnboundLocalError");
    }
    var pathList := PathList(indexPaths);
    if pathList.None? {
      return Raises("UnboundLocalError");
    }
    var paths := pathList.value;
    var attributes := Get(params, "attributes", VList([VStr("text"), VStr("content-desc")]));
    var pattern := Get(params, "pattern", VNone);
    var pkgs := PackageNodes(root, package);
    if pkgs == [] {
      return Fallback(VDict(map[]));
    }
    var start := pkgs[0];
    var found: Option<bool> := None;
    var k := 0;
    while k < |paths|
      invariant 0 <= k <= |paths|
      invariant FromPaths(paths[k..], start, found, attributes, pattern, rx) == FromPaths(paths, start, None, attributes, pattern, rx)
      invariant bot.variables == old(bot.variables) && bot.results == old(bot.results)
    {
      assert paths[k..][1..] == paths[k + 1..];
      var targets := Elements(paths[k]);
      if targets.Some? {
        var node, f := WalkIndexPath(start, found, targets.value);
        found := f;
        if found == Some(true) {
          var v := ReadPathValue(node, attributes, pattern, rx);
          if v.Some? {
            r := Found(v.value);
            if "save_to" in params {
              bot.SetVariable(params["save_to"], r.value);
            }
            return;
          }
        }
      }
      k := k + 1;
    }
    var n := Len(attributes);
    if n.None? {
      return Raises("TypeError");
    }
    return Fallback(if n.value > 1 then VDict(map[]) else VStr(""));
  }

  /**
   * When the first index path names a node that exists and that node yields a value, the action
   * finds that value, whatever paths follow.
   */
  lemma ByPathFindsResolved(params: map<string, Value>, root: XNode, rx: (string, string) -> bool, path: seq<Value>)
    requires Truthy(Get(params, "package", VNone))
    requires Truthy(Get(params, "index_path", VList([]))) && path != []
    requires PathList(Get(params, "index_path", VList([]))).Some?
    requires PathList(Get(params, "index_path", VList([]))).value[0] == VList(path)
    requires PackageNodes(root, params["package"]) != []
    requires Resolve(PackageNodes(root, params["package"])[0], path).Some?
    ensures var node := Resolve(PackageNodes(root, params["package"])[0], path).value;
      var v := PathValue(node, Get(params, "attributes", VList([VStr("text"), VStr("content-desc")])), Get(params, "pattern", VNone), rx);
      v.Some? ==> ByPath(params, root, rx) == Found(v.value)
  {
    var start := PackageNodes(root, params["package"])[0];
    var paths := PathList(Get(params, "index_path", VList([]))).value;
    var attributes := Get(params, "attributes", VList([VStr("text"), VStr("content-desc")]));
    var pattern := Get(params, "pattern", VNone);
    var node := Resolve(start, path).value;
    if PathValue(node, attributes, pattern, rx).Some? {
      FirstPathFinds(paths, start, path, attributes, pattern, rx);
      assert Get(params, "package", VNone) == params["package"];
    }
  }

  /** The parameters under which the action reaches its loop over the paths. */
  predicate ReachesPaths(params: map<string, Value>, root: XNode) {
    && Truthy(Get(params, "package", VNone))
    && Truthy(Get(params, "index_path", VList([])))
    && PathList(Get(params, "index_path", VList([]))).Some?
    && PackageNodes(root, Get(params, "package", VNone)) != []
  }

  /**
   * Past the checks, the action returns the value of the first path that yields one, each path
   * walked from the first package node with `found` carried from the earlier paths.
   */
  lemma ByPathFirstYield(params: map<string, Value>, root: XNode, rx: (string, string) -> bool, k: nat)
    requires ReachesPaths(params, root)
    requires FirstYield(PathList(Get(params, "index_path", VList([]))).value, k,
                        PackageNodes(root, Get(params, "package", VNone))[0], None,
                        Get(params, "attributes", VList([VStr("text"), VStr("content-desc")])), Get(params, "pattern", VNone), rx)
    ensures ByPath(params, root, rx) == Found(Yield(PathList(Get(params, "index_path", VList([]))).value, k,
                        PackageNodes(root, Get(params, "package", VNone))[0], None,
                        Get(params, "attributes", VList([VStr("text"), VStr("content-desc")])), Get(params, "pattern", VNone), rx).value)
  {
    FromPathsFirstYield(PathList(Get(params, "index_path", VList([]))).value, k,
                        PackageNodes(root, Get(params, "package", VNone))[0], None,
                        Get(params, "attributes", VList([VStr("text"), VStr("content-desc")])), Get(params, "pattern", VNone), rx);
  }

  /**
   * Past the checks, the action finds nothing exactly when no path yields a value; it then returns
   * {} for several attributes and "" otherwise (raising when `attributes` has no length).
   */
  lemma ByPathNoYield(params: map<string, Value>, root: XNode, rx: (string, string) -> bool)
    requires ReachesPaths(params, root)
    ensures var paths := PathList(Get(params, "index_path", VList([]))).value;
      var start := PackageNodes(root, Get(params, "package", VNone))[0];
      var attributes := Get(params, "attributes", VList([VStr("text"), VStr("content-desc")]));
      var none := forall j :: 0 <= j < |paths| ==> Yield(paths, j, start, None, attributes, Get(params, "pattern", VNone), rx).None?;
      && (!ByPath(params, root, rx).Found? <==> none)
      && (none && Len(attributes).None? ==> ByPath(params, root, rx) == Raises("TypeError"))
      && (none && Len(attributes).Some? ==>
            ByPath(params, root, rx) == Fallback(if Len(attributes).value > 1 then VDict(map[]) else VStr("")))
  {
    FromPathsNoYield(PathList(Get(params, "index_path", VList([]))).value,
                     PackageNodes(root, Get(params, "package", VNone))[0], None,
                     Get(params, "attributes", VList([VStr("text"), VStr("content-desc")])), Get(params, "pattern", VNone), rx);
  }

  /** A first path that resolves to a node with a value is the one the paths yield. */
  lemma FirstPathFinds(paths: seq<Value>, start: XNode, path: seq<Value>, attributes: Value, pattern: Value,
                       rx: (string, string) -> bool)
    requires paths != [] && paths[0] == VList(path) && path != [] && Resolve(start, path).Some?
    requires PathValue(Resolve(start, path).value, attributes, pattern, rx).Some?
    ensures FromPaths(paths, start, None, attributes, pattern, rx) == PathValue(Resolve(start, path).value, attributes, pattern, rx)
  {
    WalkAgreesWithResolve(start, None, path);
    assert Elements(paths[0]) == Some(path);
  }

  /** No path yields a value when several attributes are asked for under a pattern. */
  lemma {:induction false} SeveralAttributesSkipEveryPath(paths: seq<Value>, start: XNode, found: Option<bool>,
                                                          attributes: Value, pattern: Value, rx: (string, string) -> bool)
    requires Truthy(pattern) && Len(attributes).Some? && Len(attributes).value >= 2
    ensures FromPaths(paths, start, found, attributes, pattern, rx).None?
    decreases |paths|
  {
    if paths != [] {
      match Elements(paths[0])
      case None => SeveralAttributesSkipEveryPath(paths[1..], start, found, attributes, pattern, rx);
      case Some(targets) =>
        var w := WalkPath(Walk(start, found), targets);
        SeveralAttributesSkipEveryPath(paths[1..], start, w.found, attributes, pattern, rx);
    }
  }

  /**
   * As written, a pattern together with two or more attributes never lets the action find a
   * node: it falls back to {} (or raises) whatever the tree holds.
   */
  lemma SeveralAttributesNeverFound(params: map<string, Value>, root: XNode, rx: (string, string) -> bool)
    requires Truthy(Get(params, "pattern", VNone))
    requires var attributes := Get(params, "attributes", VList([VStr("text"), VStr("content-desc")]));
      Len(attributes).Some? && Len(attributes).value >= 2
    ensures !ByPath(params, root, rx).Found?
  {
    var package := Get(params, "package", VNone);
    var indexPaths := Get(params, "index_path", VList([]));
    if Truthy(package) && Truthy(indexPaths) && PathList(indexPaths).Some? && PackageNodes(root, package) != [] {
      SeveralAttributesSkipEveryPath(PathList(indexPaths).value, PackageNodes(root, package)[0], None,
        Get(params, "attributes", VList([VStr("text"), VStr("content-desc")])), Get(params, "pattern", VNone), rx);
    }
  }
}

=== FILE: ocr_actions.dfy ===
/**
 * `OCRActions.handle_popups_until_target`: sort the popup configurations by priority, then poll
 * screenshots until the target text is recognised, tapping on the way the first configured
 * button of each popup that shows. Screenshots, OCR and the tap command are inputs: the lines
 * recognised in each round, a `scale` function for the screenshot helper's coordinate mapping,
 * and a `tapOk` oracle for whether the tap command succeeds.
 */
module OcrActions {
  import opened Wrappers
  import opened PyValue
  import Text
  import OcrHelper
  import Bounds

  /** A popup configuration: `name`, `patterns`, optional `action` and `priority`. */
  type Config = map<string, Value>

  // ---------------------------------------------------------------------------------------------
  // popups.sort(key=lambda x: x.get('priority', 999))

  /** `x.get('priority', 999)` as an integer; `Orderable` rules out other priorities. */
  function Priority(popup: Config): int {
    match Get(popup, "priority", VInt(999))
    case VInt(i) => i
    case VBool(b) => if b then 1 else 0
    case _ => 999
  }

  /** The sort key can be computed for every popup: each is a dict, so `x.get` exists. */
  predicate AllDicts(popups: seq<Value>) {
    forall i :: 0 <= i < |popups| ==> popups[i].VDict?
  }

  /**
   * The sort can run: every popup is a dict, and when two or more have to be compared every
   * priority is an integer (or a bool, which Python compares as one).
   */
  predicate Orderable(popups: seq<Value>) {
    && AllDicts(popups)
    && (|popups| >= 2 ==> forall i :: 0 <= i < |popups| ==>
          var p := Get(popups[i].entries, "priority", VInt(999)); p.VInt? || p.VBool?)
  }

  function Configs(popups: seq<Value>): (r: seq<Config>)
    requires forall i :: 0 <= i < |popups| ==> popups[i].VDict?
    ensures |r| == |popups| && forall i :: 0 <= i < |popups| ==> r[i] == popups[i].entries
  {
    seq(|popups|, i requires 0 <= i < |popups| => popups[i].entries)
  }

  /** `x` placed after every element whose priority is not greater than its own. */
  function Insert(s: seq<Config>, x: Config): (r: seq<Config>)
    ensures multiset(r) == multiset(s) + multiset{x}
    decreases |s|
  {
    if s == [] then [x]
    else if Priority(x) < Priority(s[0]) then [x] + s
    else
      assert s == [s[0]] + s[1..];
      [s[0]] + Insert(s[1..], x)
  }

  /** Python's stable sort by priority, as insertion of each popup in turn. */
  function SortByPriority(xs: seq<Config>): (r: seq<Config>)
    ensures multiset(r) == multiset(xs)
    decreases |xs|
  {
    if xs == [] then []
    else
      assert xs == xs[..|xs| - 1] + [xs[|xs| - 1]];
      Insert(SortByPriority(xs[..|xs| - 1]), xs[|xs| - 1])
  }

  predicate Sorted(s: seq<Config>) {
    forall i, j :: 0 <= i < j < |s| ==> Priority(s[i]) <= Priority(s[j])
  }

  /** The popups of one priority, in their order. */
  function WithPriority(s: seq<Config>, k: int): seq<Config>
    decreases |s|
  {
    if s == [] then [] else (if Priority(s[0]) == k then [s[0]] else []) + WithPriority(s[1..], k)
  }

  lemma {:induction false} WithPriorityAppend(a: seq<Config>, b: seq<Config>, k: int)
    ensures WithPriority(a + b, k) == WithPriority(a, k) + WithPriority(b, k)
    decreases |a|
  {
    if a == [] {
      assert a + b == b;
    } else {
      assert a + b == [a[0]] + (a[1..] + b);
      assert a == [a[0]] + a[1..];
      WithPriorityCons(a[0], a[1..] + b, k);
      WithPriorityCons(a[0], a[1..], k);
      WithPriorityAppend(a[1..], b, k);
    }
  }

  lemma WithPriorityCons(a: Config, t: seq<Config>, k: int)
    ensures WithPriority([a] + t, k) == (if Priority(a) == k then [a] else []) + WithPriority(t, k)
  {
    assert ([a] + t)[0] == a && ([a] + t)[1..] == t;
  }

  /** No popup of a run has a priority as low as `k`. */
  lemma {:induction false} WithPriorityNone(s: seq<Config>, k: int)
    requires forall i :: 0 <= i < |s| ==> Priority(s[i]) > k
    ensures WithPriority(s, k) == []
    decreases |s|
  {
    if s != [] {
      WithPriorityNone(s[1..], k);
    }
  }

  lemma {:induction false} InsertSorted(s: seq<Config>, x: Config)
    requires Sorted(s)
    ensures Sorted(Insert(s, x))
    decreases |s|
  {
    if s == [] {
    } else if Priority(x) < Priority(s[0]) {
      SortedCons(x, s);
    } else {
      SortedTail(s);
      InsertSorted(s[1..], x);
      InsertBounded(s[1..], x, Priority(s[0]));
      SortedCons(s[0], Insert(s[1..], x));
    }
  }

  /** No popup of `s` has a priority below `b`. */
  predicate AtLeast(s: seq<Config>, b: int) {
    forall i :: 0 <= i < |s| ==> b <= Priority(s[i])
  }

  lemma SortedCons(h: Config, t: seq<Config>)
    requires Sorted(t) && AtLeast(t, Priority(h))
    ensures Sorted([h] + t)
  {
    var r := [h] + t;
    forall i, j | 0 <= i < j < |r| ensures Priority(r[i]) <= Priority(r[j]) {
      assert r[j] == t[j - 1];
      if i > 0 {
        assert r[i] == t[i - 1];
      }
    }
  }

  lemma InsertBounded(s: seq<Config>, x: Config, b: int)
    requires AtLeast(s, b) && b <= Priority(x)
    ensures AtLeast(Insert(s, x), b)
  {
    var r := Insert(s, x);
    forall i | 0 <= i < |r| ensures b <= Priority(r[i]) {
      assert r[i] in multiset(r);
      assert r[i] in multiset(s) || r[i] == x;
    }
  }

  lemma {:induction false} InsertStable(s: seq<Config>, x: Config, k: int)
    requires Sorted(s)
    ensures WithPriority(Insert(s, x), k) == WithPriority(s, k) + WithPriority([x], k)
    decreases |s|
  {
    WithPriorityCons(x, [], k);
    assert [x] + [] == [x];
    if s == [] {
    } else if Priority(x) < Priority(s[0]) {
      InsertFrontStable(s, x, k);
    } else {
      SortedTail(s);
      InsertStable(s[1..], x, k);
      InsertBehindStable(s[0], s[1..], Insert(s[1..], x), x, k);
      assert [s[0]] + s[1..] == s;
    }
  }

  lemma SortedTail(s: seq<Config>)
    requires Sorted(s) && s != []
    ensures Sorted(s[1..])
  {
    forall i, j | 0 <= i < j < |s| - 1 ensures Priority(s[1..][i]) <= Priority(s[1..][j]) {
      assert s[1..][i] == s[i + 1] && s[1..][j] == s[j + 1];
    }
  }

  /** A popup that goes behind the head leaves the head where it was. */
  lemma InsertBehindStable(head: Config, rest: seq<Config>, t: seq<Config>, x: Config, k: int)
    requires WithPriority(t, k) == WithPriority(rest, k) + WithPriority([x], k)
    ensures WithPriority([head] + t, k) == WithPriority([head] + rest, k) + WithPriority([x], k)
  {
    WithPriorityCons(head, t, k);
    WithPriorityCons(head, rest, k);
  }

  /** A popup that goes in front keeps its place among those of its own priority. */
  lemma InsertFrontStable(s: seq<Config>, x: Config, k: int)
    requires Sorted(s) && s != [] && Priority(x) < Priority(s[0])
    ensures WithPriority([x] + s, k) == (if Priority(x) == k then [x] else []) + WithPriority(s, k)
    ensures Priority(x) == k ==> WithPriority(s, k) == []
  {
    WithPriorityCons(x, s, k);
    if Priority(x) == k {
      WithPriorityNone(s, k);
    }
  }

  /** The sorted popups are in ascending priority. */
  lemma {:induction false} SortSorted(xs: seq<Config>)
    ensures Sorted(SortByPriority(xs))
    decreases |xs|
  {
    if xs != [] {
      SortSorted(xs[..|xs| - 1]);
      InsertSorted(SortByPriority(xs[..|xs| - 1]), xs[|xs| - 1]);
    }
  }

  /** The sort is stable: popups of equal priority keep their configured order. */
  lemma {:induction false} SortStable(xs: seq<Config>, k: int)
    ensures WithPriority(SortByPriority(xs), k) == WithPriority(xs, k)
    decreases |xs|
  {
    if xs != [] {
      var init, last := xs[..|xs| - 1], xs[|xs| - 1];
      SortStable(init, k);
      SortSorted(init);
      InsertStable(SortByPriority(init), last, k);
      assert xs == init + [last];
      WithPriorityAppend(init, [last], k);
    }
  }

  // ---------------------------------------------------------------------------------------------
  // _click_ocr_result

  /** `int(v)` on a float: truncation toward zero. */
  function Trunc(v: real): (r: int)
    ensures v >= 0.0 ==> r as real <= v < r as real + 1.0
    ensures v < 0.0 ==> r as real - 1.0 < v <= r as real
  {
    if v >= 0.0 then v.Floor else -((-v).Floor)
  }

  /** `(a + b) // 2` on floats: the floor of the midpoint, still a float. */
  function HalfFloor(sum: real): (c: real)
    ensures 2.0 * c <= sum < 2.0 * c + 2.0
    ensures c == c.Floor as real
  {
    (sum / 2.0).Floor as real
  }

  /**
   * The tap `_click_ocr_result` sends for a result box: the floor midpoint of its first and third
   * corners, mapped to the screen by `scale`, shifted by the screenshot region's top-left corner
   * when a region is given, and truncated to integers; `None` for the `IndexError` of a box with
   * fewer than three corners or a region with fewer than two numbers.
   */
  function ClickPoint(box: seq<(real, real)>, region: seq<int>, scale: (real, real) -> (real, real)): (r: Option<Bounds.Point>)
    ensures r.Some? <==> |box| >= 3 && (region == [] || |region| >= 2)
    ensures r.Some? && region == [] ==>
      var c := scale(HalfFloor(box[0].0 + box[2].0), HalfFloor(box[0].1 + box[2].1));
      r.value == Bounds.Point(Trunc(c.0), Trunc(c.1))
  {
    if |box| < 3 then None
    else
      var c := scale(HalfFloor(box[0].0 + box[2].0), HalfFloor(box[0].1 + box[2].1));
      if region == [] then Some(Bounds.Point(Trunc(c.0), Trunc(c.1)))
      else if |region| < 2 then None
      else Some(Bounds.Point(Trunc(c.0 + region[0] as real), Trunc(c.1 + region[1] as real)))
  }

  /**
   * A region moves the tap by its top-left corner: for screen coordinates and a region corner
   * that are not negative, the tap is the region-less tap plus `(region[0], region[1])`.
   */
  lemma ClickShift(box: seq<(real, real)>, region: seq<int>, scale: (real, real) -> (real, real))
    requires |box| >= 3 && |region| >= 2 && region[0] >= 0 && region[1] >= 0
    requires var c := scale(HalfFloor(box[0].0 + box[2].0), HalfFloor(box[0].1 + box[2].1)); c.0 >= 0.0 && c.1 >= 0.0
    ensures ClickPoint(box, region, scale).value.x == ClickPoint(box, [], scale).value.x + region[0]
    ensures ClickPoint(box, region, scale).value.y == ClickPoint(box, [], scale).value.y + region[1]
  {
  }

  /**
   * With the identity mapping and no region, the tap lies inside the box horizontally and
   * vertically when its first corner is the top-left one and the coordinates are not negative.
   */
  lemma ClickInsideBox(box: seq<(real, real)>, scale: (real, real) -> (real, real))
    requires |box| >= 3 && 0.0 <= box[0].0 <= box[2].0 && 0.0 <= box[0].1 <= box[2].1
    requires forall a: real, b: real :: scale(a, b) == (a, b)
    ensures var p := ClickPoint(box, [], scale).value;
      box[0].0.Floor <= p.x && p.x as real <= box[2].0 && box[0].1.Floor <= p.y && p.y as real <= box[2].1
  {
  }

  // ---------------------------------------------------------------------------------------------
  // Matching a popup

  /**
   * `text in patterns`: an element of a list, a substring of a string, a key of a dict; `None`
   * for the `TypeError` of patterns of another type.
   */
  function Member(text: string, patterns: Value): Option<bool> {
    match patterns
    case VList(xs) => Some(VStr(text) in xs)
    case VStr(s) => Some(Text.Contains(s, text))
    case VDict(m) => Some(text in m)
    case _ => None
  }

  /** `[r for r in all_results if r['text'] in patterns]`; `None` when the membership test raises. */
  function MatchedResults(lines: seq<OcrHelper.Line>, patterns: Value): (r: Option<seq<OcrHelper.Line>>)
    ensures lines != [] ==> (r.Some? <==> patterns.VList? || patterns.VStr? || patterns.VDict?)
    ensures r.Some? ==> forall l :: l in r.value <==> l in lines && Member(l.text, patterns) == Some(true)
    ensures r.Some? ==> |r.value| <= |lines|
    decreases |lines|
  {
    if lines == [] then Some([])
    else
      var last := lines[|lines| - 1];
      assert lines == lines[..|lines| - 1] + [last];
      match (MatchedResults(lines[..|lines| - 1], patterns), Member(last.text, patterns))
      case (Some(ms), Some(b)) => Some(ms + if b then [last] else [])
      case _ => None
  }

  /** The positions of the lines whose text is in `patterns`, in increasing order. */
  function Hits(lines: seq<OcrHelper.Line>, patterns: Value): (idx: seq<nat>)
    ensures forall k :: 0 <= k < |idx| ==> idx[k] < |lines|
    ensures forall k, l :: 0 <= k < l < |idx| ==> idx[k] < idx[l]
    ensures forall i :: 0 <= i < |lines| ==> (i in idx <==> Member(lines[i].text, patterns) == Some(true))
    decreases |lines|
  {
    if lines == [] then []
    else
      var n := |lines| - 1;
      var init := Hits(lines[..n], patterns);
      assert forall i :: 0 <= i < n ==> lines[..n][i] == lines[i];
      init + if Member(lines[n].text, patterns) == Some(true) then [n] else []
  }

  /**
   * The comprehension keeps OCR order and multiplicity: its result is exactly the lines at the
   * positions whose text is in `patterns`, in increasing position order.
   */
  lemma {:induction false} MatchedResultsInOrder(lines: seq<OcrHelper.Line>, patterns: Value)
    ensures MatchedResults(lines, patterns).Some? ==> OcrHelper.Picks(MatchedResults(lines, patterns).value, lines, Hits(lines, patterns))
    decreases |lines|
  {
    if lines != [] && MatchedResults(lines, patterns).Some? {
      var n := |lines| - 1;
      MatchedResultsInOrder(lines[..n], patterns);
      OcrHelper.PicksSnoc(MatchedResults(lines[..n], patterns).value, lines, Hits(lines[..n], patterns), Member(lines[n].text, patterns) == Some(true));
    }
  }

  /** The first matched result whose text is `pattern`. */
  function FirstLine(matched: seq<OcrHelper.Line>, pattern: Value): (r: Option<OcrHelper.Line>)
    ensures r.Some? ==> exists i :: (0 <= i < |matched| && matched[i] == r.value && VStr(r.value.text) == pattern
      && forall j :: 0 <= j < i ==> VStr(matched[j].text) != pattern)
    ensures r.None? ==> forall j :: 0 <= j < |matched| ==> VStr(matched[j].text) != pattern
    decreases |matched|
  {
    if matched == [] then None
    else if VStr(matched[0].text) == pattern then
      assert matched[0] == matched[0];
      Some(matched[0])
    else
      var r := FirstLine(matched[1..], pattern);
      assert forall j :: 1 <= j < |matched| ==> matched[j] == matched[1..][j - 1];
      r
  }

  /**
   * The `click_first` target: the first result for the earliest pattern, in pattern order, that
   * has a result at all.
   */
  function Target(pats: seq<Value>, matched: seq<OcrHelper.Line>): (r: Option<OcrHelper.Line>)
    ensures r.Some? ==> exists p :: (0 <= p < |pats| && FirstLine(matched, pats[p]) == r
      && forall q :: 0 <= q < p ==> FirstLine(matched, pats[q]).None?)
    ensures r.None? ==> forall q :: 0 <= q < |pats| ==> FirstLine(matched, pats[q]).None?
    decreases |pats|
  {
    if pats == [] then None
    else match FirstLine(matched, pats[0])
      case Some(l) =>
        assert FirstLine(matched, pats[0]) == Some(l);
        Some(l)
      case None =>
        var r := Target(pats[1..], matched);
        assert forall q :: 1 <= q < |pats| ==> pats[q] == pats[1..][q - 1];
        r
  }

  /** The nested loops of `click_first`: patterns outside, matched results inside, first hit wins. */
  method SelectTarget(pats: seq<Value>, matched: seq<OcrHelper.Line>) returns (target: Option<OcrHelper.Line>)
    ensures target == Target(pats, matched)
  {
    var p := 0;
    while p < |pats|
      invariant 0 <= p <= |pats|
      invariant Target(pats[p..], matched) == Target(pats, matched)
    {
      var i := 0;
      while i < |matched|
        invariant 0 <= i <= |matched|
        invariant FirstLine(matched[i..], pats[p]) == FirstLine(matched, pats[p])
      {
        assert matched[i..][1..] == matched[i + 1..];
        if VStr(matched[i].text) == pats[p] {
          assert pats[p..][0] == pats[p];
          return Some(matched[i]);
        }
        i := i + 1;
      }
      assert pats[p..][0] == pats[p] && pats[p..][1..] == pats[p + 1..];
      p := p + 1;
    }
    return None;
  }

  // ---------------------------------------------------------------------------------------------
  // One polling round

  /** What a round ends in: the target is on screen, the popups were polled, or a step raised. */
  datatype Round = TargetSeen | Polled(handled: bool, taps: seq<Bounds.Point>) | Raised(error: string)

  /**
   * One popup of the round: a popup that shows on screen needs a `name`; with `click_first` its
   * target is tapped, and the popup counts as handled when the tap command succeeds; any other
   * action taps nothing.
   */
  function PopupStep(popup: Config, handled: bool, taps: seq<Bounds.Point>, lines: seq<OcrHelper.Line>, region: seq<int>,
                     scale: (real, real) -> (real, real), tapOk: Bounds.Point -> bool): (r: Round)
    ensures !r.TargetSeen?
    ensures r.Polled? ==> (r == Polled(handled, taps)
      || (|r.taps| == |taps| + 1 && r.taps[..|taps|] == taps && r.handled == (handled || tapOk(r.taps[|taps|]))))
    ensures Get(popup, "action", VStr("click_first")) != VStr("click_first") && r.Polled? ==> r == Polled(handled, taps)
    ensures "patterns" !in popup ==> r == Raised("KeyError")
    // A popup on screen with `click_first` taps the point of the target the patterns pick, or finds
    // none and taps nothing; a popup not on screen is passed over.
    ensures "patterns" in popup ==>
      var m := MatchedResults(OcrHelper.Extracted(lines, [], []), popup["patterns"]);
      (m == Some([]) ==> r == Polled(handled, taps))
    ensures "patterns" in popup && "name" in popup && Get(popup, "action", VStr("click_first")) == VStr("click_first") ==>
      var m := MatchedResults(OcrHelper.Extracted(lines, [], []), popup["patterns"]);
      var ps := Elements(popup["patterns"]);
      (m.Some? && m.value != [] && ps.Some? ==>
        match Target(ps.value, m.value)
        case None => r == Polled(handled, taps)
        case Some(t) =>
          match ClickPoint(t.box, region, scale)
          case None => r == Raised("IndexError")
          case Some(p) => r == Polled(handled || tapOk(p), taps + [p]))
  {
    if "patterns" !in popup then Raised("KeyError")
    else
      var patterns := popup["patterns"];
      var action := Get(popup, "action", VStr("click_first"));
      match MatchedResults(OcrHelper.Extracted(lines, [], []), patterns)
      case None => Raised("TypeError")
      case Some(matched) =>
        if matched == [] then Polled(handled, taps)
        else if "name" !in popup then Raised("KeyError")
        else if action != VStr("click_first") then Polled(handled, taps)
        else match Elements(patterns)
          case None => Raised("TypeError")
          case Some(pats) =>
            match Target(pats, matched)
            case None => Polled(handled, taps)
            case Some(t) =>
              match ClickPoint(t.box, region, scale)
              case None => Raised("IndexError")
              case Some(p) =>
                assert (taps + [p])[..|taps|] == taps;
                Polled(handled || tapOk(p), taps + [p])
  }

  /** The popups of a round in turn, without stopping after a handled one. */
  function Steps(popups: seq<Config>, lines: seq<OcrHelper.Line>, region: seq<int>,
                 scale: (real, real) -> (real, real), tapOk: Bounds.Point -> bool): (r: Round)
    ensures !r.TargetSeen?
    decreases |popups|
  {
    if popups == [] then Polled(false, [])
    else
      var before := Steps(popups[..|popups| - 1], lines, region, scale, tapOk);
      if !before.Polled? then before
      else PopupStep(popups[|popups| - 1], before.handled, before.taps, lines, region, scale, tapOk)
  }

  /** A round counts as handled exactly when one of the taps it sent succeeded. */
  lemma {:induction false} HandledIffTapSucceeded(popups: seq<Config>, lines: seq<OcrHelper.Line>, region: seq<int>,
                                                  scale: (real, real) -> (real, real), tapOk: Bounds.Point -> bool)
    ensures var r := Steps(popups, lines, region, scale, tapOk);
      r.Polled? ==> (r.handled <==> exists i :: 0 <= i < |r.taps| && tapOk(r.taps[i]))
    decreases |popups|
  {
    if popups != [] {
      var before := Steps(popups[..|popups| - 1], lines, region, scale, tapOk);
      HandledIffTapSucceeded(popups[..|popups| - 1], lines, region, scale, tapOk);
      if before.Polled? {
        StepKeepsHandled(popups[|popups| - 1], before.handled, before.taps, lines, region, scale, tapOk);
      }
    }
  }

  lemma StepKeepsHandled(popup: Config, handled: bool, taps: seq<Bounds.Point>, lines: seq<OcrHelper.Line>, region: seq<int>,
                         scale: (real, real) -> (real, real), tapOk: Bounds.Point -> bool)
    requires handled <==> exists i :: 0 <= i < |taps| && tapOk(taps[i])
    ensures var r := PopupStep(popup, handled, taps, lines, region, scale, tapOk);
      r.Polled? ==> (r.handled <==> exists i :: 0 <= i < |r.taps| && tapOk(r.taps[i]))
  {
    var r := PopupStep(popup, handled, taps, lines, region, scale, tapOk);
    if r.Polled? && r != Polled(handled, taps) {
      assert forall i :: 0 <= i < |taps| ==> r.taps[i] == taps[i];
    }
  }

  /** Without a `click_first` popup a round taps nothing. */
  lemma {:induction false} OnlyClickFirstTaps(popups: seq<Config>, lines: seq<OcrHelper.Line>, region: seq<int>,
                                              scale: (real, real) -> (real, real), tapOk: Bounds.Point -> bool)
    requires forall i :: 0 <= i < |popups| ==> Get(popups[i], "action", VStr("click_first")) != VStr("click_first")
    ensures var r := Steps(popups, lines, region, scale, tapOk); r.Polled? ==> r == Polled(false, [])
    decreases |popups|
  {
    if popups != [] {
      OnlyClickFirstTaps(popups[..|popups| - 1], lines, region, scale, tapOk);
    }
  }

  /**
   * One attempt of the polling loop: the target text is looked for first, and only when it is
   * not on screen are the popups polled.
   */
  function RoundOf(popups: seq<Config>, lines: seq<OcrHelper.Line>, target: Value, region: seq<int>,
                   scale: (real, real) -> (real, real), tapOk: Bounds.Point -> bool): (r: Round)
    ensures r == TargetSeen <==> OcrHelper.Extracted(lines, [target], []) != []
  {
    if OcrHelper.Extracted(lines, [target], []) != [] then TargetSeen
    else Steps(popups, lines, region, scale, tapOk)
  }

  /** The body of the polling loop, with its `popup_handled` flag and the taps it sends. */
  method PopupRound(popups: seq<Config>, lines: seq<OcrHelper.Line>, target: Value, region: seq<int>,
                    scale: (real, real) -> (real, real), tapOk: Bounds.Point -> bool) returns (r: Round)
    ensures r == RoundOf(popups, lines, target, region, scale, tapOk)
  {
    var targetResults := OcrHelper.ExtractText(lines, [target], []);
    if targetResults != [] {
      return TargetSeen;
    }
    var handled := false;
    var taps: seq<Bounds.Point> := [];
    for k := 0 to |popups|
      invariant Steps(popups[..k], lines, region, scale, tapOk) == Polled(handled, taps)
    {
      assert popups[..k + 1][..k] == popups[..k] && popups[..k + 1][k] == popups[k];
      var step := PollPopup(popups[k], handled, taps, lines, region, scale, tapOk);
      assert Steps(popups[..k + 1], lines, region, scale, tapOk) == step;
      if step.Raised? {
        AbortedRoundStays(popups, k + 1, lines, region, scale, tapOk);
        return step;
      }
      handled, taps := step.handled, step.taps;
    }
    assert popups[..|popups|] == popups;
    return Polled(handled, taps);
  }

  /** One popup of the round body: its patterns, its on-screen matches and its action. */
  method PollPopup(popup: Config, handled: bool, taps: seq<Bounds.Point>, lines: seq<OcrHelper.Line>, region: seq<int>,
                   scale: (real, real) -> (real, real), tapOk: Bounds.Point -> bool) returns (r: Round)
    ensures r == PopupStep(popup, handled, taps, lines, region, scale, tapOk)
  {
    if "patterns" !in popup {
      return Raised("KeyError");
    }
    var patterns := popup["patterns"];
    var action := Get(popup, "action", VStr("click_first"));
    var allResults := OcrHelper.ExtractText(lines, [], []);
    var matched := MatchedResults(allResults, patterns);
    if matched.None? {
      return Raised("TypeError");
    }
    if matched.value == [] {
      return Polled(handled, taps);
    }
    if "name" !in popup {
      return Raised("KeyError");
    }
    if action != VStr("click_first") {
      return Polled(handled, taps);
    }
    var pats := Elements(patterns);
    if pats.None? {
      return Raised("TypeError");
    }
    var target := SelectTarget(pats.value, matched.value);
    if target.None? {
      return Polled(handled, taps);
    }
    var p := ClickPoint(target.value.box, region, scale);
    if p.None? {
      return Raised("IndexError");
    }
    return Polled(handled || tapOk(p.value), taps + [p.value]);
  }

  /** Once a popup raises, the rest of the round does not run. */
  lemma {:induction false} AbortedRoundStays(popups: seq<Config>, k: nat, lines: seq<OcrHelper.Line>, region: seq<int>,
                                             scale: (real, real) -> (real, real), tapOk: Bounds.Point -> bool)
    requires k <= |popups| && Steps(popups[..k], lines, region, scale, tapOk).Raised?
    ensures Steps(popups, lines, region, scale, tapOk) == Steps(popups[..k], lines, region, scale, tapOk)
    decreases |popups| - k
  {
    if k < |popups| {
      assert popups[..k + 1][..k] == popups[..k];
      AbortedRoundStays(popups, k + 1, lines, region, scale, tapOk);
    } else {
      assert popups[..k] == popups;
    }
  }

  // ---------------------------------------------------------------------------------------------
  // handle_popups_until_target

  /**
   * The rounds in turn, `round` giving the outcome of one screenshot's round, until one sees the
   * target (True) or raises; False once the time is up.
   */
  function UntilTarget(round: seq<OcrHelper.Line> -> Round, screens: seq<seq<OcrHelper.Line>>): (r: Result<bool, string>)
    ensures screens == [] ==> r == Ok(false)
    decreases |screens|
  {
    if screens == [] then Ok(false)
    else
      var outcome := round(screens[0]);
      if outcome.TargetSeen? then Ok(true)
      else if outcome.Raised? then Err(outcome.error)
      else UntilTarget(round, screens[1..])
  }

  /**
   * The handler returns True exactly when some screenshot shows the target and every earlier
   * round polled the popups without raising.
   */
  lemma {:induction false} TrueIffTargetSeen(round: seq<OcrHelper.Line> -> Round, screens: seq<seq<OcrHelper.Line>>)
    ensures UntilTarget(round, screens) == Ok(true)
      <==> exists i :: 0 <= i < |screens| && round(screens[i]) == TargetSeen && forall j :: 0 <= j < i ==> round(screens[j]).Polled?
    decreases |screens|
  {
    if screens != [] && round(screens[0]).Polled? {
      TrueIffTargetSeen(round, screens[1..]);
      assert forall j :: 1 <= j < |screens| ==> screens[j] == screens[1..][j - 1];
      if UntilTarget(round, screens[1..]) == Ok(true) {
        var i :| 0 <= i < |screens| - 1 && round(screens[1..][i]) == TargetSeen
          && forall j :: 0 <= j < i ==> round(screens[1..][j]).Polled?;
        assert round(screens[i + 1]) == TargetSeen;
      }
    } else if screens != [] && round(screens[0]).TargetSeen? {
      assert round(screens[0]) == TargetSeen;
    }
  }

  /** An error in a round ends the handler with that error. */
  lemma {:induction false} RaisedEndsHandler(round: seq<OcrHelper.Line> -> Round, screens: seq<seq<OcrHelper.Line>>, k: nat)
    requires k < |screens| && round(screens[k]).Raised?
    requires forall j :: 0 <= j < k ==> round(screens[j]).Polled?
    ensures UntilTarget(round, screens) == Err(round(screens[k]).error)
    decreases k
  {
    if k > 0 {
      assert forall j :: 0 <= j < k - 1 ==> screens[1..][j] == screens[j + 1];
      RaisedEndsHandler(round, screens[1..], k - 1);
    }
  }

  /** `screenshot_region` as the list of integers the tap arithmetic adds; [] when it is not given. */
  function RegionOf(v: Value): Option<seq<int>> {
    if !Truthy(v) then Some([])
    else match v
      case VList(xs) => if forall i :: 0 <= i < |xs| ==> xs[i].VInt? then Some(seq(|xs|, i requires 0 <= i < |xs| => xs[i].i)) else None
      case _ => None
  }

  /**
   * `handle_popups_until_target`, over the screenshots the polling loop takes before its timeout:
   * the popups are sorted by priority first. The key `x.get` raises `AttributeError` for a popup
   * that is not a dict, and the comparison raises `TypeError` for priorities that are not integers.
   */
  function HandlePopups(params: map<string, Value>, screens: seq<seq<OcrHelper.Line>>,
                        scale: (real, real) -> (real, real), tapOk: Bounds.Point -> bool): (r: Result<bool, string>)
    ensures screens == [] && r.Ok? ==> r == Ok(false)
  {
    var popups := Get(params, "popups", VList([]));
    if !popups.VList? || !AllDicts(popups.items) then Err("AttributeError")
    else if !Orderable(popups.items) then Err("TypeError")
    else match RegionOf(Get(params, "screenshot_region", VNone))
      case None => Err("TypeError")
      case Some(region) =>
        var sorted := SortByPriority(Configs(popups.items));
        var target := Get(params, "target_text", VNone);
        UntilTarget(lines => RoundOf(sorted, lines, target, region, scale, tapOk), screens)
  }

  /** The polling loop over the screenshots, one round each. */
  method HandlePopupsUntilTarget(params: map<string, Value>, screens: seq<seq<OcrHelper.Line>>,
                                 scale: (real, real) -> (real, real), tapOk: Bounds.Point -> bool) returns (r: Result<bool, string>)
    ensures r == HandlePopups(params, screens, scale, tapOk)
  {
    var popupsValue := Get(params, "popups", VList([]));
    if !popupsValue.VList? || !AllDicts(popupsValue.items) {
      return Err("AttributeError");
    }
    if !Orderable(popupsValue.items) {
      return Err("TypeError");
    }
    var region := RegionOf(Get(params, "screenshot_region", VNone));
    if region.None? {
      return Err("TypeError");
    }
    var popups := SortByPriority(Configs(popupsValue.items));
    var target := Get(params, "target_text", VNone);
    ghost var round := lines => RoundOf(popups, lines, target, region.value, scale, tapOk);
    assert HandlePopups(params, screens, scale, tapOk) == UntilTarget(round, screens);
    var attempt := 0;
    while attempt < |screens|
      invariant 0 <= attempt <= |screens|
      invariant UntilTarget(round, screens[attempt..]) == UntilTarget(round, screens)
    {
      assert screens[attempt..][0] == screens[attempt] && screens[attempt..][1..] == screens[attempt + 1..];
      var round := PopupRound(popups, screens[attempt], target, region.value, scale, tapOk);
      match round {
        case TargetSeen => return Ok(true);
        case Raised(e) => return Err(e);
        case Polled(_, _) =>
      }
      attempt := attempt + 1;
    }
    return Ok(false);
  }
}

=== FILE: ocr_helper.dfy ===
/**
 * The filtering half of `OCRHelper.extract_text`: the recognised lines of one screenshot, kept
 * when their box's first corner lies in the region and their text contains a keyword. The OCR
 * engine itself is not part of this model; its lines are the input.
 */
module OcrHelper {
  import opened Wrappers
  import opened PyValue
  import Text

  /** One recognised line: the corner points of its box, its text and its confidence. */
  datatype Line = Line(box: seq<(real, real)>, text: string, confidence: real)

  /** `x1 <= box_x1 <= x2 and y1 <= box_y1 <= y2` for `region = [x1, y1, x2, y2]`. */
  predicate InRegion(corner: (real, real), region: seq<int>)
    requires |region| == 4
  {
    region[0] as real <= corner.0 <= region[2] as real && region[1] as real <= corner.1 <= region[3] as real
  }

  /**
   * `any(k in text for k in keywords)`, which stops at the first keyword the text contains;
   * `None` for the `TypeError` of a keyword that is not a string, reached before any hit.
   */
  function KeywordHit(keywords: seq<Value>, text: string): (r: Option<bool>)
    ensures r == Some(true) ==> exists i :: 0 <= i < |keywords| && keywords[i].VStr? && Text.Contains(text, keywords[i].s)
    ensures r == Some(false) ==> forall i :: 0 <= i < |keywords| ==> keywords[i].VStr? && !Text.Contains(text, keywords[i].s)
    ensures (forall i :: 0 <= i < |keywords| ==> keywords[i].VStr?) ==> r.Some?
    decreases |keywords|
  {
    if keywords == [] then Some(false)
    else match keywords[0]
      case VStr(k) =>
        if Text.Contains(text, k) then Some(true)
        else
          var rest := KeywordHit(keywords[1..], text);
          assert forall i :: 1 <= i < |keywords| ==> keywords[i] == keywords[1..][i - 1];
          rest
      case _ => None
  }

  /**
   * Whether one line survives the filters: a truthy region must unpack into four numbers and the
   * box must have a first corner (`None` for the error otherwise); a truthy keyword list must hit.
   */
  function Keep(line: Line, keywords: seq<Value>, region: seq<int>): (r: Option<bool>)
    ensures r == Some(true) && region != [] ==> |region| == 4 && line.box != [] && InRegion(line.box[0], region)
    ensures r == Some(true) && keywords != [] ==> KeywordHit(keywords, line.text) == Some(true)
    ensures
      && (region == [] || (|region| == 4 && line.box != [] && InRegion(line.box[0], region)))
      && (keywords == [] || KeywordHit(keywords, line.text) == Some(true))
      ==> r == Some(true)
  {
    if region != [] && (|region| != 4 || line.box == []) then None
    else if region != [] && !InRegion(line.box[0], region) then Some(false)
    else if keywords == [] then Some(true)
    else KeywordHit(keywords, line.text)
  }

  /** Some line makes the filter raise. */
  predicate Fails(lines: seq<Line>, keywords: seq<Value>, region: seq<int>) {
    exists i :: 0 <= i < |lines| && Keep(lines[i], keywords, region).None?
  }

  /** The lines the filters keep, in their order, each copied unchanged. */
  function Select(lines: seq<Line>, keywords: seq<Value>, region: seq<int>): (r: seq<Line>)
    ensures |r| <= |lines|
    ensures forall l :: l in r ==> l in lines && Keep(l, keywords, region) == Some(true)
    ensures forall l :: l in lines && Keep(l, keywords, region) == Some(true) ==> l in r
    decreases |lines|
  {
    if lines == [] then []
    else
      var last := lines[|lines| - 1];
      Select(lines[..|lines| - 1], keywords, region) + (if Keep(last, keywords, region) == Some(true) then [last] else [])
  }

  /** `extract_text`: the kept lines, or [] when the filter raises. */
  function Extracted(lines: seq<Line>, keywords: seq<Value>, region: seq<int>): (r: seq<Line>)
    ensures lines == [] ==> r == []
  {
    if Fails(lines, keywords, region) then [] else Select(lines, keywords, region)
  }

  /** The loop of `extract_text`, appending each surviving line. */
  method ExtractText(lines: seq<Line>, keywords: seq<Value>, region: seq<int>) returns (r: seq<Line>)
    ensures r == Extracted(lines, keywords, region)
  {
    r := [];
    for i := 0 to |lines|
      invariant r == Select(lines[..i], keywords, region)
      invariant !Fails(lines[..i], keywords, region)
    {
      assert lines[..i + 1][..i] == lines[..i];
      var keep := Keep(lines[i], keywords, region);
      if keep.None? {
        assert Fails(lines, keywords, region);
        return [];
      }
      if keep.value {
        r := r + [lines[i]];
      }
      ghost var prefix := lines[..i + 1];
      assert !Fails(prefix, keywords, region) by {
        forall j | 0 <= j < i + 1 ensures Keep(prefix[j], keywords, region).Some? {
          if j < i {
            assert prefix[j] == lines[..i][j];
          }
        }
      }
    }
    assert lines[..|lines|] == lines;
  }

  /** `r` is the elements of `xs` at the strictly increasing positions `idx`. */
  ghost predicate Picks<T>(r: seq<T>, xs: seq<T>, idx: seq<nat>) {
    && |idx| == |r|
    && (forall k :: 0 <= k < |idx| ==> idx[k] < |xs| && r[k] == xs[idx[k]])
    && (forall k, l :: 0 <= k < l < |idx| ==> idx[k] < idx[l])
  }

  /** `a` is `b` with some elements left out, the rest in their order. */
  ghost predicate IsSubsequence<T>(a: seq<T>, b: seq<T>) {
    exists idx: seq<nat> :: Picks(a, b, idx)
  }

  /** Extending `xs` by one element, kept or not, extends the picked positions by its position when kept. */
  lemma PicksSnoc<T>(ms: seq<T>, xs: seq<T>, idx0: seq<nat>, keep: bool)
    requires xs != []
    requires Picks(ms, xs[..|xs| - 1], idx0)
    ensures Picks(ms + if keep then [xs[|xs| - 1]] else [], xs, if keep then idx0 + [|xs| - 1] else idx0)
  {
    var n := |xs| - 1;
    assert forall k :: 0 <= k < |idx0| ==> idx0[k] < n && xs[..n][idx0[k]] == xs[idx0[k]];
  }

  /** The positions of the lines the filters keep, in increasing order. */
  function Kept(lines: seq<Line>, keywords: seq<Value>, region: seq<int>): (idx: seq<nat>)
    ensures forall k :: 0 <= k < |idx| ==> idx[k] < |lines|
    ensures forall k, l :: 0 <= k < l < |idx| ==> idx[k] < idx[l]
    ensures forall i :: 0 <= i < |lines| ==> (i in idx <==> Keep(lines[i], keywords, region) == Some(true))
    decreases |lines|
  {
    if lines == [] then []
    else
      var n := |lines| - 1;
      var init := Kept(lines[..n], keywords, region);
      assert forall i :: 0 <= i < n ==> lines[..n][i] == lines[i];
      init + if Keep(lines[n], keywords, region) == Some(true) then [n] else []
  }

  /**
   * The loop keeps order and multiplicity: the kept lines are exactly the lines at the positions
   * the filters keep, in increasing position order.
   */
  lemma {:induction false} SelectInOrder(lines: seq<Line>, keywords: seq<Value>, region: seq<int>)
    ensures Picks(Select(lines, keywords, region), lines, Kept(lines, keywords, region))
    decreases |lines|
  {
    if lines != [] {
      var n := |lines| - 1;
      SelectInOrder(lines[..n], keywords, region);
      PicksSnoc(Select(lines[..n], keywords, region), lines, Kept(lines[..n], keywords, region), Keep(lines[n], keywords, region) == Some(true));
    }
  }

  /** The kept lines are a subsequence of the recognised lines. */
  lemma SelectSubsequence(lines: seq<Line>, keywords: seq<Value>, region: seq<int>)
    ensures IsSubsequence(Select(lines, keywords, region), lines)
  {
    SelectInOrder(lines, keywords, region);
  }

  /** Without a region and without keywords every line is kept. */
  lemma {:induction false} NoFilterKeepsAll(lines: seq<Line>)
    ensures Extracted(lines, [], []) == lines
    decreases |lines|
  {
    if lines != [] {
      NoFilterKeepsAll(lines[..|lines| - 1]);
      assert lines == lines[..|lines| - 1] + [lines[|lines| - 1]];
    }
  }

  /**
   * What `extract_text` promises about its output: an order-preserving subsequence of the
   * recognised lines, every one inside the region when a region is given, and every one holding
   * a keyword when keywords are given; when the filter does not raise, every recognised line
   * that passes both filters is in the output, and when it raises the output is empty.
   */
  lemma ExtractedSound(lines: seq<Line>, keywords: seq<Value>, region: seq<int>)
    ensures var r := Extracted(lines, keywords, region);
      && IsSubsequence(r, lines)
      && (forall l :: l in r && region != [] ==> |region| == 4 && l.box != [] && InRegion(l.box[0], region))
      && (forall l :: l in r && keywords != [] ==>
            exists i :: 0 <= i < |keywords| && keywords[i].VStr? && Text.Contains(l.text, keywords[i].s))
      && (Fails(lines, keywords, region) ==> r == [])
      && (!Fails(lines, keywords, region) ==>
            forall l ::
              && l in lines
              && (region == [] || (|region| == 4 && l.box != [] && InRegion(l.box[0], region)))
              && (keywords == [] || KeywordHit(keywords, l.text) == Some(true))
              ==> l in r)
  {
    if Fails(lines, keywords, region) {
      var idx: seq<nat> := [];
      assert Picks(Extracted(lines, keywords, region), lines, idx);
    } else {
      SelectSubsequence(lines, keywords, region);
    }
  }
}

=== FILE: pyvalue.dfy ===
/**
 * Python values as the flow configuration and the bot's stores hold them: `None`, booleans,
 * integers, strings, lists and string-keyed dicts, with the few built-ins the actions apply to them.
 */
module PyValue {
  import opened Wrappers
  import Text

  datatype Value =
    | VNone
    | VBool(b: bool)
    | VInt(i: int)
    | VStr(s: string)
    | VList(items: seq<Value>)
    | VDict(entries: map<string, Value>)

  /** Python truthiness (`if v:`). */
  predicate Truthy(v: Value) {
    match v
    case VNone => false
    case VBool(b) => b
    case VInt(i) => i != 0
    case VStr(s) => s != ""
    case VList(xs) => xs != []
    case VDict(m) => m != map[]
  }

  /** `d.get(k, default)` on a params dict. */
  function Get(d: map<string, Value>, k: string, default: Value): Value {
    if k in d then d[k] else default
  }

  /** A read of one of the bot's stores; a name never written reads as `default`. */
  function LookupOr(store: map<Value, Value>, k: Value, default: Value): Value {
    if k in store then store[k] else default
  }

  /** A read of one of the bot's stores with Python's default `None`. */
  function Lookup(store: map<Value, Value>, k: Value): Value {
    LookupOr(store, k, VNone)
  }

  /** Python's `int(v)`; `None` stands for the `TypeError`/`ValueError` it raises. */
  function ToInt(v: Value): Option<int> {
    match v
    case VInt(i) => Some(i)
    case VBool(b) => Some(if b then 1 else 0)
    case VStr(s) => Text.ParseInt(s)
    case _ => None
  }

  /** Python's `str(v)` for the scalar kinds; lists and dicts give `None` (see README). */
  function Str(v: Value): Option<string> {
    match v
    case VNone => Some("None")
    case VBool(b) => Some(if b then "True" else "False")
    case VInt(i) => Some(Text.IntToString(i))
    case VStr(s) => Some(s)
    case _ => None
  }

  /** The one-character strings of `s`, as `for c in s` yields them. */
  function Chars(s: string): (r: seq<Value>)
    ensures |r| == |s| && forall i :: 0 <= i < |s| ==> r[i] == VStr([s[i]])
  {
    if s == [] then [] else [VStr([s[0]])] + Chars(s[1..])
  }

  /**
   * What `for x in v` yields: the items of a list, the characters of a string, nothing for an empty
   * dict. `None` stands for the `TypeError` of a value that is not iterable. A non-empty dict also
   * gives `None`: its keys would come in insertion order, which a map does not keep.
   */
  function Elements(v: Value): Option<seq<Value>> {
    match v
    case VList(xs) => Some(xs)
    case VStr(s) => Some(Chars(s))
    case VDict(m) => if m == map[] then Some([]) else None
    case _ => None
  }

  /** Python's `len(v)`; `None` for values that have no length. */
  function Len(v: Value): Option<nat> {
    match v
    case VList(xs) => Some(|xs|)
    case VStr(s) => Some(|s|)
    case VDict(m) => Some(|m|)
    case _ => None
  }

  /** Python's `s[start:stop]` for non-negative or negative bounds, clamped as Python clamps them. */
  function Slice<T>(s: seq<T>, start: int, stop: int): (r: seq<T>)
    ensures |r| <= |s|
  {
    var lo := Clamp(if start < 0 then start + |s| else start, |s|);
    var hi := Clamp(if stop < 0 then stop + |s| else stop, |s|);
    if lo < hi then s[lo..hi] else []
  }

  /** Python's `s[start:]`. */
  function SliceFrom<T>(s: seq<T>, start: int): (r: seq<T>)
    ensures |r| <= |s|
  {
    Slice(s, start, |s|)
  }

  function Clamp(i: int, n: nat): (r: nat)
    ensures r <= n
  {
    if i < 0 then 0 else if i > n then n else i
  }
}

=== FILE: text.dfy ===
/**
 * The few Python string operations the modelled code relies on: `strip`, `startswith`, `endswith`,
 * `in` on strings, `split` with a literal separator, `int(s)` and `str(i)`.
 */
module Text {
  import opened Wrappers

  /** The ASCII characters Python's `str.strip()` removes; the other Unicode whitespace is not modelled. */
  const Whitespace: set<char> := {' ', '\t', '\n', '\r', '\U{000B}', '\U{000C}'}

  /** `s.lstrip(cs)`: drop leading characters that belong to `cs`. */
  function LStrip(s: string, cs: set<char>): (r: string)
    ensures |r| <= |s| && r == s[|s| - |r|..]
    ensures r == [] || r[0] !in cs
    ensures forall i :: 0 <= i < |s| - |r| ==> s[i] in cs
    decreases |s|
  {
    if s != [] && s[0] in cs then LStrip(s[1..], cs) else s
  }

  /** `s.rstrip(cs)`: drop trailing characters that belong to `cs`. */
  function RStrip(s: string, cs: set<char>): (r: string)
    ensures |r| <= |s| && r == s[..|r|]
    ensures r == [] || r[|r| - 1] !in cs
    ensures forall i :: |r| <= i < |s| ==> s[i] in cs
    decreases |s|
  {
    if s != [] && s[|s| - 1] in cs then RStrip(s[..|s| - 1], cs) else s
  }

  /** `s.strip(cs)`: neither end of the result is in `cs`, and it is a contiguous piece of `s`. */
  function StripChars(s: string, cs: set<char>): (r: string)
    ensures |r| <= |s|
    ensures r == [] || (r[0] !in cs && r[|r| - 1] !in cs)
  {
    RStrip(LStrip(s, cs), cs)
  }

  /** `s.strip()` */
  function Strip(s: string): string {
    StripChars(s, Whitespace)
  }

  predicate StartsWith(s: string, prefix: string) {
    |prefix| <= |s| && s[..|prefix|] == prefix
  }

  predicate EndsWith(s: string, suffix: string) {
    |suffix| <= |s| && s[|s| - |suffix|..] == suffix
  }

  /** Python's `needle in hay` on strings. */
  predicate Contains(hay: string, needle: string)
    decreases |hay|
  {
    StartsWith(hay, needle) || (hay != [] && Contains(hay[1..], needle))
  }

  /** `needle` occurs in `hay` starting at position `k`. */
  predicate OccursAt(hay: string, needle: string, k: int) {
    0 <= k <= |hay| - |needle| && hay[k..k + |needle|] == needle
  }

  /** `needle in hay` holds exactly when `needle` occurs at some position of `hay`. */
  lemma {:induction false} ContainsAt(hay: string, needle: string)
    ensures Contains(hay, needle) <==> exists k :: OccursAt(hay, needle, k)
    decreases |hay|
  {
    if StartsWith(hay, needle) {
      assert OccursAt(hay, needle, 0);
    }
    if hay != [] {
      ContainsAt(hay[1..], needle);
      if Contains(hay[1..], needle) {
        var k :| OccursAt(hay[1..], needle, k);
        assert OccursAt(hay, needle, k + 1);
      }
      if k :| OccursAt(hay, needle, k) {
        if k > 0 {
          assert OccursAt(hay[1..], needle, k - 1);
        }
      }
    }
  }

  /** The first position at or after `from` where `sep` occurs in `s`. */
  function FindFrom(s: string, sep: string, from: nat): (r: Option<nat>)
    requires |sep| > 0 && from <= |s|
    ensures r.Some? ==> from <= r.value && r.value + |sep| <= |s| && s[r.value..r.value + |sep|] == sep
    ensures r.Some? ==> forall j :: from <= j < r.value ==> !StartsWith(s[j..], sep)
    ensures r.None? ==> forall j :: from <= j <= |s| ==> !StartsWith(s[j..], sep)
    decreases |s| - from
  {
    if from + |sep| > |s| then None
    else if s[from..from + |sep|] == sep then Some(from)
    else FindFrom(s, sep, from + 1)
  }

  /** `s.split(sep)` for a non-empty literal separator. */
  function Split(s: string, sep: string): (parts: seq<string>)
    requires |sep| > 0
    ensures |parts| >= 1
    decreases |s|
  {
    match FindFrom(s, sep, 0)
    case None => [s]
    case Some(i) => [s[..i]] + Split(s[i + |sep|..], sep)
  }

  /** `sep.join(parts)` */
  function Join(parts: seq<string>, sep: string): string {
    if parts == [] then ""
    else if |parts| == 1 then parts[0]
    else parts[0] + sep + Join(parts[1..], sep)
  }

  /** Splitting loses nothing: joining the pieces with the separator gives back the string. */
  lemma {:induction false} JoinSplit(s: string, sep: string)
    requires |sep| > 0
    ensures Join(Split(s, sep), sep) == s
    decreases |s|
  {
    match FindFrom(s, sep, 0)
    case None =>
    case Some(i) =>
      var rest := s[i + |sep|..];
      var tail := Split(rest, sep);
      JoinSplit(rest, sep);
      var parts := [s[..i]] + tail;
      assert Split(s, sep) == parts;
      assert |parts| > 1 && parts[0] == s[..i] && parts[1..] == tail;
      assert Join(parts, sep) == s[..i] + sep + Join(tail, sep);
      assert s == s[..i] + sep + rest;
  }

  predicate IsDigit(c: char) {
    '0' <= c <= '9'
  }

  predicate AllDigits(s: string) {
    forall i :: 0 <= i < |s| ==> IsDigit(s[i])
  }

  function DigitValue(c: char): nat
    requires IsDigit(c)
  {
    (c as int - '0' as int) as nat
  }

  /** The value of a decimal numeral. */
  function DigitsValue(s: string): nat
    requires AllDigits(s)
  {
    if s == [] then 0 else DigitsValue(s[..|s| - 1]) * 10 + DigitValue(s[|s| - 1])
  }

  /**
   * Python's `int(s)` on a string: surrounding whitespace, an optional sign, then at least one
   * decimal digit. `None` stands for the `ValueError` Python raises.
   */
  function ParseInt(s: string): Option<int> {
    ParseStripped(Strip(s))
  }

  /** `int` once the whitespace is gone: an optional sign, then at least one decimal digit. */
  function ParseStripped(t: string): Option<int> {
    if t == [] then None
    else
      var body := if t[0] == '-' || t[0] == '+' then t[1..] else t;
      if body != [] && AllDigits(body) then
        Some(if t[0] == '-' then -(DigitsValue(body) as int) else DigitsValue(body))
      else None
  }

  function DigitChar(d: nat): (c: char)
    requires d < 10
    ensures IsDigit(c) && DigitValue(c) == d
  {
    ('0' as int + d) as char
  }

  /** `str(n)` for a natural number. */
  function NatToString(n: nat): (s: string)
    ensures s != [] && AllDigits(s)
  {
    if n < 10 then [DigitChar(n)] else NatToString(n / 10) + [DigitChar(n % 10)]
  }

  /** `str(i)` for an integer. */
  function IntToString(i: int): string {
    if i < 0 then "-" + NatToString(-i) else NatToString(i)
  }

  lemma {:induction false} DigitsValueOfNatToString(n: nat)
    ensures DigitsValue(NatToString(n)) == n
  {
    if n >= 10 {
      DigitsValueOfNatToString(n / 10);
      var s := NatToString(n);
      assert s[..|s| - 1] == NatToString(n / 10);
    }
  }

  lemma StripUnchanged(s: string, cs: set<char>)
    requires s != [] && s[0] !in cs && s[|s| - 1] !in cs
    ensures StripChars(s, cs) == s
  {
  }

  /** A numeral parses to its value. */
  lemma ParseDigits(digits: string)
    requires digits != [] && AllDigits(digits)
    ensures ParseInt(digits) == Some(DigitsValue(digits) as int)
  {
    StripUnchanged(digits, Whitespace);
  }

  /** A numeral after a minus sign parses to the negated value. */
  lemma ParseNegativeDigits(digits: string)
    requires digits != [] && AllDigits(digits)
    ensures ParseInt("-" + digits) == Some(-(DigitsValue(digits) as int))
  {
    StripNegative(digits);
    ParseStrippedNegative(digits);
  }

  lemma StripNegative(digits: string)
    requires digits != [] && AllDigits(digits)
    ensures Strip("-" + digits) == "-" + digits
  {
    assert ("-" + digits)[|digits|] == digits[|digits| - 1];
    StripUnchanged("-" + digits, Whitespace);
  }

  lemma ParseStrippedNegative(digits: string)
    requires digits != [] && AllDigits(digits)
    ensures ParseStripped("-" + digits) == Some(-(DigitsValue(digits) as int))
  {
    assert ("-" + digits)[1..] == digits;
  }

  /** `int(str(i)) == i`: the decimal rendering of an integer parses back to it. */
  lemma ParseIntOfIntToString(i: int)
    ensures ParseInt(IntToString(i)) == Some(i)
  {
    if i < 0 {
      DigitsValueOfNatToString(-i);
      ParseNegativeDigits(NatToString(-i));
    } else {
      DigitsValueOfNatToString(i);
      ParseDigits(NatToString(i));
    }
  }

  /** `int` on a one-digit numeral. */
  lemma ParseDigit(d: nat)
    requires d < 10
    ensures ParseInt([DigitChar(d)]) == Some(d)
  {
    ParseIntOfIntToString(d);
    assert IntToString(d) == [DigitChar(d)];
  }

  /** A string without the separator's first character is not split. */
  lemma SplitWithout(s: string, sep: string)
    requires |sep| > 0 && sep[0] !in s
    ensures Split(s, sep) == [s]
  {
    assert forall j :: 0 <= j <= |s| - |sep| ==> s[j..j + |sep|][0] == s[j] != sep[0];
  }

  /** Splitting `a + sep + b` cuts at the separator after `a` when `a` cannot start a separator. */
  lemma SplitAfter(a: string, sep: string, b: string)
    requires |sep| > 0 && sep[0] !in a
    ensures Split(a + sep + b, sep) == [a] + Split(b, sep)
  {
    var s := a + sep + b;
    assert s[|a|..|a| + |sep|] == sep;
    assert StartsWith(s[|a|..], sep);
    var f := FindFrom(s, sep, 0);
    assert f.Some?;
    assert forall j :: 0 <= j < |a| ==> s[j] == a[j] && s[j] != sep[0];
    assert f.value == |a|;
    assert s[..|a|] == a;
    assert s[|a| + |sep|..] == b;
  }

  /** Stripping a bracket pair from around a string whose ends are not brackets gives it back. */
  lemma StripPair(open: char, body: string, close: char, cs: set<char>)
    requires open in cs && close in cs
    requires body != [] && body[0] !in cs && body[|body| - 1] !in cs
    ensures StripChars([open] + body + [close], cs) == body
  {
    var s := [open] + body + [close];
    var t := body + [close];
    assert s[1..] == t;
    assert LStrip(t, cs) == t;
    assert LStrip(s, cs) == t;
    assert t[..|t| - 1] == body;
    assert RStrip(body, cs) == body;
  }

  /** The characters a decimal rendering of an integer is made of. */
  predicate NumeralChars(s: string) {
    forall k :: 0 <= k < |s| ==> IsDigit(s[k]) || s[k] == '-'
  }

  /** `str(i)` is a non-empty run of digits, possibly after a minus sign, and ends with a digit. */
  lemma IntToStringShape(i: int)
    ensures IntToString(i) != [] && NumeralChars(IntToString(i))
    ensures IsDigit(IntToString(i)[0]) || IntToString(i)[0] == '-'
    ensures IsDigit(IntToString(i)[|IntToString(i)| - 1])
  {
  }
}

=== FILE: text_matcher.dfy ===
/**
 * `TextMatcher.match`: whether a stored text meets the first criterion given, taken in the order
 * `textMatches` (a regular expression matched at the start), `textContains` (substring) and `text`
 * (equality). The regular-expression engine is the parameter `rx`: `rx(pattern, s)` says whether
 * `re.match(pattern, s)` finds a match.
 */
module TextMatcher {
  import opened Wrappers
  import Text

  /** A criterion that counts: given and not the empty string (Python truthiness). */
  predicate Given(criterion: Option<string>) {
    criterion.Some? && criterion.value != ""
  }

  /**
   * `TextMatcher(stored).match(text, textMatches, textContains)`. Only the first given criterion
   * is consulted; with none given the result is False.
   */
  function Match(stored: string, text: Option<string>, textMatches: Option<string>, textContains: Option<string>,
                 rx: (string, string) -> bool): (r: bool)
    ensures Given(textMatches) ==> (r <==> rx(textMatches.value, stored))
    ensures !Given(textMatches) && Given(textContains) ==>
      (r <==> exists k :: Text.OccursAt(stored, textContains.value, k))
    ensures !Given(textMatches) && !Given(textContains) && Given(text) ==> (r <==> stored == text.value)
    ensures !Given(textMatches) && !Given(textContains) && !Given(text) ==> !r
  {
    if Given(textMatches) then rx(textMatches.value, stored)
    else if Given(textContains) then
      Text.ContainsAt(stored, textContains.value);
      Text.Contains(stored, textContains.value)
    else if Given(text) then stored == text.value
    else false
  }

  /** The pattern `^t$`. */
  function Anchored(t: string): string {
    "^" + t + "$"
  }

  /**
   * The examples the module asserts, for any stored text `t`: an exact, a containing and an
   * anchored criterion built from `t` all match `t`, and each fails once a character is added to
   * the criterion. `rx` is any engine for which an anchored literal matches exactly that literal.
   */
  lemma MatchExamples(t: string, extra: char, rx: (string, string) -> bool)
    requires forall s :: rx(Anchored(t), s) <==> s == t
    requires forall s :: rx(Anchored(t + [extra]), s) <==> s == t + [extra]
    ensures t != "" ==> Match(t, Some(t), None, None, rx)
    ensures Match(t, None, Some(Anchored(t)), None, rx)
    ensures t != "" ==> Match(t, None, None, Some(t), rx)
    ensures !Match(t, Some(t + [extra]), None, None, rx)
    ensures !Match(t, None, Some(Anchored(t + [extra])), None, rx)
    ensures !Match(t, None, None, Some(t + [extra]), rx)
  {
    assert Text.OccursAt(t, t, 0);
    assert |t + [extra]| > |t|;
  }
}

=== FILE: ui_actions.dfy ===
/**
 * The coordinate logic of the screen actions: `ClickRegionAction`, `ScrollAction` and the region
 * parsing of `WaitAndClickRegionAction`. The click or swipe itself is the one effect; each
 * operation returns the point or the swipe it hands to the device.
 */
module UiActions {
  import opened Wrappers
  import opened PyValue
  import opened Bounds
  import Text

  datatype Swipe = Swipe(start: Point, end: Point)

  /** What a click action does: click at a point and return True, return False without clicking, or raise. */
  datatype ClickOutcome = Clicked(at: Point) | Declined | Raises(error: string)

  /** `map(int, xs)` consumed in full; `None` stands for the first conversion that raises. */
  function IntsOf(xs: seq<Value>): (r: Option<seq<int>>)
    ensures r.Some? <==> forall i :: 0 <= i < |xs| ==> ToInt(xs[i]).Some?
    ensures r.Some? ==> |r.value| == |xs| && forall i :: 0 <= i < |xs| ==> ToInt(xs[i]) == Some(r.value[i])
  {
    if xs == [] then Some([])
    else match (ToInt(xs[0]), IntsOf(xs[1..]))
      case (Some(v), Some(vs)) =>
        assert forall i :: 1 <= i < |xs| ==> xs[i] == xs[1..][i - 1];
        Some([v] + vs)
      case (_, r) =>
        assert r.None? ==> exists i :: 1 <= i < |xs| && ToInt(xs[i]).None? by {
          if r.None? {
            var j :| 0 <= j < |xs[1..]| && ToInt(xs[1..][j]).None?;
            assert ToInt(xs[j + 1]).None?;
          }
        }
        None
  }

  /** `x1, y1, x2, y2 = map(int, region)` for a region of four values. */
  function RectOfValues(xs: seq<Value>): (r: Option<Rect>)
    requires |xs| == 4
    ensures r.Some? <==> forall i :: 0 <= i < 4 ==> ToInt(xs[i]).Some?
    ensures r.Some? ==> Some(r.value.left) == ToInt(xs[0]) && Some(r.value.top) == ToInt(xs[1])
    ensures r.Some? ==> Some(r.value.right) == ToInt(xs[2]) && Some(r.value.bottom) == ToInt(xs[3])
  {
    match IntsOf(xs)
    case Some(vs) => Some(Rect(vs[0], vs[1], vs[2], vs[3]))
    case None => None
  }

  /**
   * `ClickRegionAction.execute`: a missing `region` or one whose length is not 4 raises before any
   * click; four values that do not all convert to integers return False; otherwise the action
   * clicks the centre of the region.
   */
  function ClickRegion(params: map<string, Value>): (r: ClickOutcome)
    ensures r.Raises? <==> "region" !in params || Len(params["region"]) != Some(4)
    ensures r.Clicked? ==>
      && "region" in params && Elements(params["region"]).Some? && |Elements(params["region"]).value| == 4
      && RectOfValues(Elements(params["region"]).value).Some?
      && r.at == Centre(RectOfValues(Elements(params["region"]).value).value)
    // Conversely, four values that all convert are clicked; a region of length 4 is otherwise declined.
    ensures ("region" in params && Elements(params["region"]).Some? && |Elements(params["region"]).value| == 4
      && RectOfValues(Elements(params["region"]).value).Some?) ==> r.Clicked?
    ensures ("region" in params && Len(params["region"]) == Some(4) && !r.Clicked?) ==> r == Declined
  {
    if "region" !in params then Raises("KeyError")
    else
      var region := params["region"];
      match Len(region)
      case None => Raises("TypeError")
      case Some(n) =>
        if n != 4 then Raises("ValueError")
        else match Elements(region)
          case None => Declined
          case Some(xs) =>
            if |xs| != 4 then Declined
            else match RectOfValues(xs)
              case Some(rect) => Clicked(Centre(rect))
              case None => Declined
  }

  /** Four integers in order click inside the rectangle they span, at its floor midpoint. */
  lemma ClickRegionInside(x1: int, y1: int, x2: int, y2: int)
    requires x1 <= x2 && y1 <= y2
    ensures var r := ClickRegion(map["region" := VList([VInt(x1), VInt(y1), VInt(x2), VInt(y2)])]);
      r.Clicked? && x1 <= r.at.x <= x2 && y1 <= r.at.y <= y2
      && r.at == Point((x1 + x2) / 2, (y1 + y2) / 2)
  {
    var xs := [VInt(x1), VInt(y1), VInt(x2), VInt(y2)];
    assert forall i :: 0 <= i < 4 ==> ToInt(xs[i]).Some?;
  }

  /**
   * The swipe `ScrollAction` makes on a `width` x `height` screen: both ends on the vertical
   * centre line, 'up' from half the distance below the centre to half the distance above it and
   * 'down' the other way, each end clamped to stay 100 pixels from the bottom and top edges; any
   * other direction makes no swipe.
   */
  function ScrollSwipe(direction: Value, distance: int, width: int, height: int): (r: Option<Swipe>)
    ensures r.Some? <==> direction == VStr("up") || direction == VStr("down")
    ensures r.Some? ==> r.value.start.x == r.value.end.x == width / 2
    ensures r.Some? ==>
      var (lower, upper) := if direction == VStr("up") then (r.value.start.y, r.value.end.y) else (r.value.end.y, r.value.start.y);
      && lower <= height - 100 && lower <= height / 2 + distance / 2
      && (lower == height - 100 || lower == height / 2 + distance / 2)
      && upper >= 100 && upper >= height / 2 - distance / 2
      && (upper == 100 || upper == height / 2 - distance / 2)
  {
    var centre := height / 2;
    var half := distance / 2;
    if direction == VStr("up") then
      Some(Swipe(Point(width / 2, Min(centre + half, height - 100)), Point(width / 2, Max(centre - half, 100))))
    else if direction == VStr("down") then
      Some(Swipe(Point(width / 2, Max(centre - half, 100)), Point(width / 2, Min(centre + half, height - 100))))
    else None
  }

  function Min(a: int, b: int): int { if a <= b then a else b }
  function Max(a: int, b: int): int { if a >= b then a else b }

  /** A 'down' swipe is an 'up' swipe run backwards. */
  lemma ScrollMirror(distance: int, width: int, height: int)
    ensures var up := ScrollSwipe(VStr("up"), distance, width, height).value;
      ScrollSwipe(VStr("down"), distance, width, height) == Some(Swipe(up.end, up.start))
  {
  }

  /**
   * On a screen at least 200 pixels high and for a non-negative distance, both ends of the swipe
   * lie within 100 pixels of neither edge, and 'up' moves the finger upwards.
   */
  lemma ScrollWithinScreen(direction: Value, distance: int, width: int, height: int)
    requires height >= 200 && distance >= 0
    requires direction == VStr("up") || direction == VStr("down")
    ensures var s := ScrollSwipe(direction, distance, width, height).value;
      && 100 <= s.start.y <= height - 100
      && 100 <= s.end.y <= height - 100
      && (direction == VStr("up") ==> s.end.y <= s.start.y)
      && (direction == VStr("down") ==> s.start.y <= s.end.y)
  {
  }

  /**
   * `ScrollAction.execute`: a missing `direction` or `distance`, or a distance `int` rejects,
   * raises; otherwise the swipe of `ScrollSwipe`, `None` standing for the False of an
   * unsupported direction. The screen size is the device's answer.
   */
  function Scroll(params: map<string, Value>, width: int, height: int): (r: Result<Option<Swipe>, string>)
    ensures r.Ok? <==> "direction" in params && "distance" in params && ToInt(params["distance"]).Some?
    ensures r.Ok? ==> r.value == ScrollSwipe(params["direction"], ToInt(params["distance"]).value, width, height)
  {
    if "direction" !in params || "distance" !in params then Err("KeyError")
    else match ToInt(params["distance"])
      case None => Err("ValueError")
      case Some(d) => Ok(ScrollSwipe(params["direction"], d, width, height))
  }

  /** The characters `region.strip('${}')` removes. */
  const ReferenceMarks: set<char> := {'$', '{', '}'}

  /** A `${name}` region names a variable; `strip('${}')` recovers the name. */
  predicate IsRegionReference(s: string) {
    Text.StartsWith(s, "${") && Text.EndsWith(s, "}")
  }

  /**
   * The rectangle a region value denotes, or `None` for the False the action returns: a list of
   * four integers; a string `"[a,b,c,d]"` that `ast.literal_eval` turns into four integers; failing
   * that, a bounds string `"[x1,y1][x2,y2]"` of exactly two pieces. `literal` is
   * `ast.literal_eval`, `None` standing for the error it raises.
   */
  function RegionRect(region: Value, literal: string -> Option<Value>): (r: Option<Rect>)
    ensures region.VList? && |region.items| != 4 ==> r.None?
    ensures region.VList? && |region.items| == 4 ==> r == RectOfValues(region.items)
    ensures !region.VList? && !region.VStr? ==> r.None?
    ensures region.VStr? && !(Text.StartsWith(region.s, "[") && Text.EndsWith(region.s, "]")) ==> r.None?
    ensures region.VStr? && Text.StartsWith(region.s, "[") && Text.EndsWith(region.s, "]") && LiteralRect(literal(region.s)).None?
      ==> r == ParseRegionBounds(region.s)
    ensures region.VStr? && Text.StartsWith(region.s, "[") && Text.EndsWith(region.s, "]") && LiteralRect(literal(region.s)).Some?
      ==> r == LiteralRect(literal(region.s))
  {
    match region
    case VList(xs) => if |xs| != 4 then None else RectOfValues(xs)
    case VStr(s) =>
      if Text.StartsWith(s, "[") && Text.EndsWith(s, "]") then
        match LiteralRect(literal(s))
        case Some(rect) => Some(rect)
        case None => ParseRegionBounds(s)
      else None
    case _ => None
  }

  /** The rectangle of a literal that evaluated to four integers; anything else falls back. */
  function LiteralRect(v: Option<Value>): (r: Option<Rect>)
    ensures r.Some? ==> v.Some? && Len(v.value) == Some(4)
    ensures v.Some? && Len(v.value) == Some(4) && Elements(v.value).Some? ==> r == RectOfValues(Elements(v.value).value)
  {
    match v
    case None => None
    case Some(x) =>
      if Len(x) != Some(4) then None
      else match Elements(x)
        case Some(xs) => if |xs| == 4 then RectOfValues(xs) else None
        case None => None
  }

  /**
   * `WaitAndClickRegionAction.execute`: a missing `region` raises; a `${name}` region is first
   * replaced by the variable; a region that denotes no rectangle returns False; otherwise the
   * action clicks the rectangle's centre, provided the clock is still inside the timeout when the
   * wait loop is first tested (`inTime`).
   */
  function WaitAndClickRegion(params: map<string, Value>, variables: map<Value, Value>,
                              literal: string -> Option<Value>, inTime: bool): (r: ClickOutcome)
    ensures r.Raises? <==> "region" !in params
    ensures r.Clicked? ==>
      && inTime && RegionRect(ResolvedRegion(params["region"], variables), literal).Some?
      && r.at == Centre(RegionRect(ResolvedRegion(params["region"], variables), literal).value)
    ensures "region" in params && RegionRect(ResolvedRegion(params["region"], variables), literal).None? ==> r == Declined
    ensures "region" in params && inTime && RegionRect(ResolvedRegion(params["region"], variables), literal).Some?
      ==> r == Clicked(Centre(RegionRect(ResolvedRegion(params["region"], variables), literal).value))
    ensures "region" in params && !inTime ==> r == Declined
  {
    if "region" !in params then Raises("KeyError")
    else match RegionRect(ResolvedRegion(params["region"], variables), literal)
      case None => Declined
      case Some(rect) => if inTime then Clicked(Centre(rect)) else Declined
  }

  /** The region after `${name}` resolution: the variable `region.strip('${}')`, `None` when unset. */
  function ResolvedRegion(region: Value, variables: map<Value, Value>): (r: Value)
    ensures !(region.VStr? && IsRegionReference(region.s)) ==> r == region
  {
    if region.VStr? && IsRegionReference(region.s) then
      Lookup(variables, VStr(Text.StripChars(region.s, ReferenceMarks)))
    else region
  }

  /** A reference `${name}` reads the variable `name` when the name neither starts nor ends with a mark. */
  lemma ResolvedReference(name: string, variables: map<Value, Value>)
    requires name != [] && name[0] !in ReferenceMarks && name[|name| - 1] !in ReferenceMarks
    ensures ResolvedRegion(VStr("${" + name + "}"), variables) == Lookup(variables, VStr(name))
  {
    var s := "${" + name + "}";
    assert Text.StartsWith(s, "${") && Text.EndsWith(s, "}");
    var inner := ['{'] + name + ['}'];
    assert s == ['$'] + inner;
    assert Text.LStrip(s, ReferenceMarks) == Text.LStrip(inner, ReferenceMarks) by {
      assert s[1..] == inner;
    }
    Text.StripPair('{', name, '}', ReferenceMarks);
    assert Text.StripChars(inner, ReferenceMarks) == name;
  }

  /** A written bounds string is bracketed and is not a `${name}` reference. */
  lemma FormatShape(rect: Rect)
    ensures Text.StartsWith(Format(rect), "[") && Text.EndsWith(Format(rect), "]")
    ensures !IsRegionReference(Format(rect))
  {
    var l := Text.IntToString(rect.left);
    var tail := "," + Text.IntToString(rect.top) + "][" + Text.IntToString(rect.right) + "," + Text.IntToString(rect.bottom);
    assert Format(rect) == "[" + l + tail + "]";
    var s := Format(rect);
    Text.IntToStringShape(rect.left);
    assert s[1] == l[0];
  }

  /** A bounds string that `ast.literal_eval` rejects is clicked at the centre of the rectangle it writes. */
  lemma WaitAndClickBoundsString(rect: Rect, variables: map<Value, Value>, literal: string -> Option<Value>)
    requires literal(Format(rect)).None?
    ensures WaitAndClickRegion(map["region" := VStr(Format(rect))], variables, literal, true) == Clicked(Centre(rect))
  {
    FormatShape(rect);
    ParseFormat(rect);
  }

  /**
   * A bracketed string that the literal evaluation turns into a list of four integers is clicked
   * at the centre of that rectangle, whatever the same string would give as a bounds string.
   */
  lemma WaitAndClickLiteral(s: string, variables: map<Value, Value>, literal: string -> Option<Value>, rect: Rect)
    requires Text.StartsWith(s, "[") && Text.EndsWith(s, "]")
    requires literal(s) == Some(VList([VInt(rect.left), VInt(rect.top), VInt(rect.right), VInt(rect.bottom)]))
    ensures WaitAndClickRegion(map["region" := VStr(s)], variables, literal, true) == Clicked(Centre(rect))
  {
    assert !IsRegionReference(s) by {
      assert s[0] == '[';
    }
    var xs := [VInt(rect.left), VInt(rect.top), VInt(rect.right), VInt(rect.bottom)];
    assert Elements(VList(xs)) == Some(xs);
    assert RectOfValues(xs) == Some(rect);
  }
}

=== FILE: ui_tree.dfy ===
/**
 * The UI hierarchy a device dump describes, as the element tree the actions walk: a tag, string
 * attributes and ordered children. Parsing the XML text is not modelled; the tree is the input.
 */
module UiTree {
  import opened Wrappers

  datatype XNode = XNode(tag: string, attrs: map<string, string>, children: seq<XNode>)

  /** `node.get(key, default)` */
  function Attr(n: XNode, key: string, default: string): string {
    if key in n.attrs then n.attrs[key] else default
  }

  /** Every node strictly below `n`, in document order (the descendant axis of an XPath step from `n`). */
  function Descendants(n: XNode): seq<XNode>
    decreases n, 1
  {
    DescendantsOf(n.children)
  }

  /** The nodes of a forest, each followed by its own descendants. */
  function DescendantsOf(ns: seq<XNode>): seq<XNode>
    decreases ns, 0
  {
    if ns == [] then [] else [ns[0]] + Descendants(ns[0]) + DescendantsOf(ns[1..])
  }

  /** The nodes of `ns` that carry the attribute `key`, in order. */
  function WithAttr(ns: seq<XNode>, key: string): (r: seq<XNode>)
    ensures |r| <= |ns|
    ensures forall i :: 0 <= i < |r| ==> key in r[i].attrs && r[i] in ns
  {
    if ns == [] then []
    else (if key in ns[0].attrs then [ns[0]] else []) + WithAttr(ns[1..], key)
  }

  /** The nodes of `ns` whose attribute `key` equals `value`, in order. */
  function WithAttrValue(ns: seq<XNode>, key: string, value: string): (r: seq<XNode>)
    ensures |r| <= |ns|
    ensures forall i :: 0 <= i < |r| ==> Attr(r[i], key, "") == value && key in r[i].attrs && r[i] in ns
  {
    if ns == [] then []
    else (if key in ns[0].attrs && ns[0].attrs[key] == value then [ns[0]] else []) + WithAttrValue(ns[1..], key, value)
  }

  /** The node reached from `n` by taking, at each level, the child at the given position. */
  function At(n: XNode, pos: seq<nat>): Option<XNode>
    decreases |pos|
  {
    if pos == [] then Some(n)
    else if pos[0] < |n.children| then At(n.children[pos[0]], pos[1..])
    else None
  }

  /** The nodes on the way from `n` down to `At(n, pos)`, `n` itself excluded. */
  function Chain(n: XNode, pos: seq<nat>): (r: seq<XNode>)
    requires At(n, pos).Some?
    ensures |r| == |pos|
    ensures pos != [] ==> r[|r| - 1] == At(n, pos).value
    decreases |pos|
  {
    if pos == [] then [] else [n.children[pos[0]]] + Chain(n.children[pos[0]], pos[1..])
  }
}

=== FILE: wrappers.dfy ===
/**
 * Optional values, used wherever the Python source returns `None` or reads a key that may be absent,
 * and results, used wherever it raises.
 */
module Wrappers {

  datatype Option<+T> = None | Some(value: T) {

    /** The value, or `default` when there is none (Python's `d.get(k, default)`). */
    function GetOr(default: T): T {
      match this
      case Some(v) => v
      case None => default
    }
  }

  /** A value, or the exception raised instead of returning one. */
  datatype Result<+T, +E> = Ok(value: T) | Err(error: E)
}
